=== FILE: README.md ===
# Book store: a verified model of its search, services and navigation logic

This project models, in Dafny, the deterministic core of a book-store web
application. The application has three parts: a Python hybrid search engine,
a NestJS backend, and two React storefronts. The model covers four groups of
logic.

- **The hybrid-search orchestrator** (`FilterBuilder`, `CacheKeys`,
  `Retriever`, `Extractor`, `RetrieverServer`, `Json`).
  - `_build_filter` compiles keyword arguments into "no filter" or a
    conjunction of field conditions.
  - Two Redis keys are derived: the result key and the structured-query key.
  - `search_with_filter` runs its cache flow: a result-cache lookup, a
    structured-query lookup or extraction, the merge of the extracted fields
    over the caller's keywords, search, and write-back.
  - `rerank` maps ranker entries back to point ids.
  - The gRPC `Retrieve` adapter has an empty-query fast path, treats a zero
    field as "use the default", and projects the results.
  - The extractor drops the fields the LLM left null.
  - The embedding service, the vector engine, the cross-encoder, the LLM
    and Redis are parameters: functions in an `Env` record and a
    map-valued store.
- **The backend services** (`Shop`, `CartService`, `OrderService`,
  `ProductService`, `DashboardService`). Each operation is a pure
  transition over an abstract database `Db`, which holds users, products by
  id, one cart per user, and the orders newest first. It returns an
  `Outcome`: the answer or the exception thrown, plus the database
  afterwards.
- **The pagination rows** (`PageWindow`, `CartView`):
  - `getPageNumbers` of both product catalogues;
  - `getPaginationItems` of the cart;
  - the `showPage` rule of the admin data table;
  - the previous/next guards;
  - the cart page's slicing, subtotal and delete.
- **The URL parameters** (`UrlParams`, `FeCatalogue`):
  - `updateURL`, `getCurrentFilters`, `sortMapping` and the page, apply,
    clear and sort handlers of the catalogue;
  - `handleSubmit` and `handleSearchTypeChange` of the search bar;
  - the local filter, sort and page state of the second storefront.

Shared helpers live in `Common`: `Option`, `Result`, JavaScript's `slice`,
`Math.ceil` division, `Array.from(new Set(…))`, and `split`/`join`/`filter(Boolean)`.

## Model

| member | source | states |
|---|---|---|
| FilterBuilder.BuildFilter | book-store-search-engine/retriever/hybrid_retriever.py:137-219 | The builder returns no filter exactly when none of the seven fields is present; otherwise it returns a non-empty conjunction. |
| FilterBuilder.PartEmptyIff | book-store-search-engine/retriever/hybrid_retriever.py:140-215 | A field contributes no condition exactly when it is not present. |
| FilterBuilder.PartsFromEmptyIff | book-store-search-engine/retriever/hybrid_retriever.py:137-215 | The conditions of the fields from position n on are empty exactly when none of those fields is present. |
| FilterBuilder.FieldView | book-store-search-engine/retriever/hybrid_retriever.py:137-215 | Selecting one field's conditions from the whole list gives exactly what that field contributes, so no field emits conditions for another. |
| FilterBuilder.ConditionsInFieldOrder | book-store-search-engine/retriever/hybrid_retriever.py:137-215 | Conditions appear in the fixed order title, description_summary, price, rating, rating_count, authors, categories. |
| FilterBuilder.TextFieldRule | book-store-search-engine/retriever/hybrid_retriever.py:140-154 | title and description_summary each add one MatchText with their text when truthy; None or "" adds nothing. |
| FilterBuilder.RangeFieldRule | book-store-search-engine/retriever/hybrid_retriever.py:157-194 | Price, rating and rating_count add one Range exactly when min or max is not None (0 counts). gte is set only from a present min and lte only from a present max, and min > max passes unchecked. |
| FilterBuilder.NameFieldRules | book-store-search-engine/retriever/hybrid_retriever.py:196-215 | Every author adds its own MatchText, and a lone string counts as a one-name list. Categories add one MatchAny with the whole list. Falsy values add nothing. |
| FilterBuilder.PriceAndAuthorExample | book-store-search-engine/retriever/hybrid_retriever.py:157-205 | A price cap and one author compile to the price Range followed by the author MatchText. |
| CacheKeys.SortByKeyFacts | book-store-search-engine/retriever/hybrid_retriever.py:278 | Sorting the keywords by name (as sort_keys does) yields a permutation in ascending key order. |
| CacheKeys.SortedUnique | book-store-search-engine/retriever/hybrid_retriever.py:278 | Two lists in strictly ascending key order holding the same pairs are equal, so the sorted dump is unique. |
| CacheKeys.ParseNatToString | book-store-search-engine/retriever/hybrid_retriever.py:278 | The decimal rendering of top_n reads back as the same number. |
| CacheKeys.ResultKeyOrderIndependent | book-store-search-engine/retriever/hybrid_retriever.py:278 | Keyword lists that differ only in insertion order give the same result key. |
| CacheKeys.StructuredKeyInjective | book-store-search-engine/retriever/hybrid_retriever.py:286 | Different queries never share a structured-query key. |
| CacheKeys.KeyNamespacesOverlap | book-store-search-engine/retriever/hybrid_retriever.py:278-286 | Both key kinds share one namespace: the result key of query "structured_query::a" with top_n 10 and no keywords equals the structured key of query "a_10_{}". |
| CacheKeys.ResultKey | book-store-search-engine/retriever/hybrid_retriever.py:278 | The result key starts with the query and "_" and ends with "_" and the sorted keyword dump. |
| CacheKeys.StructuredKey | book-store-search-engine/retriever/hybrid_retriever.py:286 | The structured key is the prefix "structured_query::" followed by the query, so the query can be read back. |
| Retriever.FormatBookDefaults | book-store-search-engine/retriever/hybrid_retriever.py:98-102 | A payload without title, description or categories formats as "Title: . Description: . Categories: ". |
| Retriever.FormatBook | book-store-search-engine/retriever/hybrid_retriever.py:98-102 | A ranker document starts with the title and the description label, and ends with the categories joined by ", ". |
| Retriever.PyIndex | book-store-search-engine/retriever/hybrid_retriever.py:265 | Python list indexing resolves exactly the positions -len..len-1, and a non-negative position to itself. |
| Retriever.HitOf | book-store-search-engine/retriever/hybrid_retriever.py:265 | A ranked entry becomes the id of the point at its corpus id, counted from the end when negative, with the ranker's score and text. |
| Retriever.MapBack | book-store-search-engine/retriever/hybrid_retriever.py:265 | Rerank output keeps the ranker's order and length, and each entry's book_id is the id of the point its corpus_id names. An unresolvable corpus_id raises IndexError. |
| Retriever.Documents | book-store-search-engine/retriever/hybrid_retriever.py:263 | One formatted document per retrieved point, position by position. |
| Retriever.Rerank | book-store-search-engine/retriever/hybrid_retriever.py:261-265 | A ranker failure propagates. A successful ranking gives Ok exactly when every corpus id resolves, and IndexError otherwise. On success, every output is the hit of the corresponding ranked entry over the formatted documents. |
| Retriever.Param | book-store-search-engine/retriever/hybrid_retriever.py:222-231 | A keyword binds a parameter when given; otherwise the parameter takes its default. |
| Retriever.Query | book-store-search-engine/retriever/hybrid_retriever.py:222-256 | The engine is asked with the searched text, the filter compiled from the non-parameter keywords, and the sizes 100, 100 and 50 and the configured vector fields unless a keyword overrides them. |
| Retriever.RetrievalText | book-store-search-engine/retriever/hybrid_retriever.py:301 | The searched text is `rewrite_query` when the structured query has one, and the raw query otherwise. |
| Retriever.FilterArgs | book-store-search-engine/retriever/hybrid_retriever.py:230 | **filters holds every keyword except the parameters retrieve binds itself, with their values unchanged. |
| Retriever.HitValue | book-store-search-engine/retriever/hybrid_retriever.py:265 | A hit becomes a dictionary whose book_id and score are the hit's. |
| Retriever.ResultValue | book-store-search-engine/retriever/hybrid_retriever.py:271 | search answers exactly the keys results, used_query and used_filter, with one result entry per hit in order. |
| Retriever.Search | book-store-search-engine/retriever/hybrid_retriever.py:222-271 | Mistyped filter keywords are refused. An engine failure and a ranker failure propagate. Otherwise `results` is exactly the rerank of the points the engine returned for `Query`, with the searched text and the filter keywords reported beside it. |
| Retriever.ToMap | book-store-search-engine/retriever/hybrid_retriever.py:273 | The caller's keyword list becomes a dictionary holding exactly its pairs. |
| Retriever.Merge | book-store-search-engine/retriever/hybrid_retriever.py:298 | kwargs.update(structured): the structured fields win, and other caller keywords stay. |
| Retriever.Extraction | book-store-search-engine/query_processor/book_filter_extractor.py:90-102 | An LLM failure propagates. Otherwise the extraction is the non-null dump, which never rebinds a named parameter and is well-typed for the filter. |
| Retriever.ExtractedFields | book-store-search-engine/query_processor/book_filter_extractor.py:13-22 | The extractor's keys never clash with query, top_n or self, and always satisfy the filter's typing. |
| Retriever.StructuredQuery | book-store-search-engine/retriever/hybrid_retriever.py:286-295 | A cached structured query is used without calling the extractor. On a miss the extractor is called once, and its output is stored with TTL 3600. An extractor failure writes nothing. |
| Retriever.SearchThenStore | book-store-search-engine/retriever/hybrid_retriever.py:301-305 | A successful result is stored under the result key with TTL 3600; a failed one stores nothing. |
| Retriever.SearchAndStore | book-store-search-engine/retriever/hybrid_retriever.py:298-305 | A structured query that is not a dictionary, or that rebinds a named parameter, fails before searching. Otherwise the search uses rewrite_query (or the raw query) and the merged keywords. It never calls the extractor. |
| Retriever.AfterMiss | book-store-search-engine/retriever/hybrid_retriever.py:285-305 | After a result-cache miss, a successful run ends by storing its result under the key. |
| Retriever.RunWithKey | book-store-search-engine/retriever/hybrid_retriever.py:279-283 | A result-cache hit returns the cached value, calls nothing, and writes nothing. |
| Retriever.OnlyTwoKeysWritten | book-store-search-engine/retriever/hybrid_retriever.py:295-305 | A run changes the store at most under the structured-query key and the result key. |
| Retriever.StructuredMissExtracts | book-store-search-engine/retriever/hybrid_retriever.py:292-295 | On a structured-cache miss the first call is the extraction, followed by its write. |
| Retriever.ExtractAtMostOnce | book-store-search-engine/retriever/hybrid_retriever.py:286-301 | The extractor is called at most once per run, and only as its first call. |
| Retriever.StructuredHitSkipsExtract | book-store-search-engine/retriever/hybrid_retriever.py:289-291 | A structured-cache hit skips the extractor. |
| Retriever.FailureCachesNothing | book-store-search-engine/retriever/hybrid_retriever.py:301-305 | A failed run leaves the result key unwritten. |
| Retriever.RetrievalUsesMerged | book-store-search-engine/retriever/hybrid_retriever.py:298-301 | Retrieval is asked with the caller's keywords overwritten by the structured fields, and with rewrite_query when present. |
| Retriever.SearchWithFilter | book-store-search-engine/retriever/hybrid_retriever.py:273-308 | The key comes from the caller's keywords before the merge. A hit returns the cached value unchanged, and a success is stored under that key. |
| Retriever.FreshExtractionReachesSearch | book-store-search-engine/retriever/hybrid_retriever.py:294-301 | A fresh extraction always reaches retrieval, with the merged keywords. |
| Retriever.ToMapPermutation | book-store-search-engine/retriever/hybrid_retriever.py:273 | Keyword lists that are permutations of each other give the same dictionary. |
| Retriever.OrderIndependent | book-store-search-engine/retriever/hybrid_retriever.py:273-308 | The whole run, not only its key, ignores the caller's keyword order. |
| Retriever.RepeatHitsCache | book-store-search-engine/retriever/hybrid_retriever.py:279-305 | Repeating a successful search is answered from the result cache with no calls. |
| Retriever.StoreOkPreserved | book-store-search-engine/retriever/hybrid_retriever.py:283-305 | From a store of dictionaries, every answer is a dictionary and the store stays one. |
| Retriever.SearchWithFilterStoreOk | book-store-search-engine/retriever/hybrid_retriever.py:273-308 | The retriever's own steps never leave a non-dictionary in the cache. |
| Extractor.StrList | book-store-search-engine/query_processor/book_filter_extractor.py:22 | An author list dumps to a JSON list of the same strings. |
| Extractor.Extract | book-store-search-engine/query_processor/book_filter_extractor.py:102 | Each schema field appears exactly when it is not None, with its value unchanged. The keys are a subset of the eight schema names. No title, description_summary or categories ever appears. |
| Extractor.NonNullFields | book-store-search-engine/query_processor/book_filter_extractor.py:102 | The comprehension keeps each non-None field, with its value, and only those. |
| Extractor.NonNullShape | book-store-search-engine/query_processor/book_filter_extractor.py:13-22 | The dump's keys lie within the schema, and none is null or one of the three fields the schema lacks. |
| Extractor.NonNullTyped | book-store-search-engine/query_processor/book_filter_extractor.py:13-22 | Every extracted field has the type the filter builder expects. |
| RetrieverServer.Forwarded | book-store-search-engine/protos/retriever_server.py:27-33 | dense_top_k, sparse_top_k and top_k are forwarded exactly when non-zero, each with its value. Nothing else is forwarded. |
| RetrieverServer.TopN | book-store-search-engine/protos/retriever_server.py:34-35 | A non-zero top_n is used; zero means the retriever's default of 10. |
| RetrieverServer.ProjectItems | book-store-search-engine/protos/retriever_server.py:43-44 | book_ids and scores follow the results in order and have equal length, and a missing score reads 0.0. A result without book_id fails. |
| RetrieverServer.Project | book-store-search-engine/protos/retriever_server.py:43-47 | An answer without a results list fails; otherwise ids and scores have equal length. |
| RetrieverServer.Retrieve | book-store-search-engine/protos/retriever_server.py:17-47 | An empty query returns empty lists without invoking the retriever or touching the cache. Any other query is searched by search_with_filter with the forwarded keywords and top_n; its cache becomes the new store, a failure is raised, and a result is projected onto its ids and scores. |
| RetrieverServer.ProjectSearchResult | book-store-search-engine/protos/retriever_server.py:43-47 | A search result projects onto its hits' ids and scores, in rerank order. |
| RetrieverServer.ZeroMeansDefault | book-store-search-engine/protos/retriever_server.py:27-35 | A request with all fields zero is served exactly like one that names the default top_n. |
| RetrieverServer.SearchResponse | book-store-search-engine/retriever/hybrid_retriever.py:260-271 | A successful search is answered with the ids of the points the ranker put first, in the ranker's order, and the ranker's scores. |
| RetrieverServer.RepeatServedFromCache | book-store-search-engine/protos/retriever_server.py:38-47 | After a successful answer, the same request is answered identically from the result cache and writes nothing. |
| Shop.HttpStatus | book-store-backend/src/modules/cart/cart.service.ts:41-116 | An upstream failure keeps its status; a missing user, product, order, cart or cart item, and a user without orders, are 404; every other refusal is 400. |
| Shop.OffsetNext | book-store-backend/src/modules/product/product.service.ts:73 | Offsets are non-negative, and page n+1 starts limit entries after page n. |
| Shop.SliceFromZero | book-store-backend/src/modules/product/product.service.ts:123 | slice with non-negative bounds only clamps them to the length. |
| ProductService.PageIds | book-store-backend/src/modules/product/product.service.ts:117-123 | A page's ids are the window [offset, offset+limit) of the ids deduplicated in first-occurrence order. |
| ProductService.PageIdsFacts | book-store-backend/src/modules/product/product.service.ts:117-123 | A page holds at most limit ids, each once, each returned by the query. |
| ProductService.Known | book-store-backend/src/modules/product/product.service.ts:147-150 | Exactly the page ids that name a loaded product are kept. |
| ProductService.Reorder | book-store-backend/src/modules/product/product.service.ts:146-150 | The products follow the page-id order, and ids without a loaded entity are dropped. |
| ProductService.ListPage | book-store-backend/src/modules/product/product.service.ts:111-163 | An empty page reports total 0, totalPages 0 and no data. Otherwise total is the count, totalPages is ceil(total/limit), and data is the reordered products. |
| ProductService.PastTheEndReportsNothing | book-store-backend/src/modules/product/product.service.ts:125-135 | Past the last distinct id the listing reports no matches, whatever the count said. |
| ProductService.PagesTile | book-store-backend/src/modules/product/product.service.ts:117-123 | Page n+1 continues page n in the deduplicated id list. |
| ProductService.SearchRequest | book-store-backend/src/modules/product/product.service.ts:211-217 | The retriever is asked with 500/500/100/50 candidates. |
| ProductService.StatusOf | book-store-backend/src/modules/product/product.service.ts:221-239 | gRPC code 14 maps to 503 and 429 to 429; every other code maps to 500. |
| ProductService.ScoreMap | book-store-backend/src/modules/product/product.service.ts:270-275 | Every returned id is a key, and a repeated id keeps the score of its last position. A missing score is 0. |
| ProductService.SortDesc | book-store-backend/src/modules/product/product.service.ts:277-281 | The sorted products are a permutation of the loaded ones, in descending score order. |
| ProductService.SortStable | book-store-backend/src/modules/product/product.service.ts:277-281 | Products of equal score keep their database order. |
| ProductService.HybridSearch | book-store-backend/src/modules/product/product.service.ts:200-296 | A missing query is BadRequest and retriever errors map through StatusOf. Any other query with a successful retrieval answers Ok. No ids gives an empty page. Otherwise the page reports the requested page and limit, total is the number of ids, and data holds this page's products by descending score. |
| ProductService.FindAll | book-store-backend/src/modules/product/product.service.ts:59-164 | A SMART search with a non-empty query is hybridSearch with the same page and limit; anything else is the plain listing. |
| ProductService.Create | book-store-backend/src/modules/product/product.service.ts:298-337 | Unfound categories fail first, then unfound authors; when both lists are accepted the product is created. An accepted product names exactly the listed categories and authors. |
| ProductService.AcceptedExactly | book-store-backend/src/modules/product/product.service.ts:318-336 | The found-count check accepts exactly the id lists that are repetition-free and all exist. |
| ProductService.ProductStatuses | book-store-backend/src/modules/product/product.service.ts:200-337 | A missing query and unfound categories or authors answer 400; a retriever failure answers 503, 429 or 500. |
| CartService.ItemOf | book-store-backend/src/modules/cart/cart.service.ts:59-64 | Finds the first item of the product, and none exactly when the product is not in the cart. |
| CartService.AddToCart | book-store-backend/src/modules/cart/cart.service.ts:29-78 | A missing user without a cart is NotFound. The cart is found or created before the product check. An unknown product is NotFound. A product already in the cart is BadRequest, leaving the items unchanged. Otherwise the add succeeds, naming the cart, and exactly one item is appended. Only this user's cart changes. |
| CartService.AddKeepsOnePerProduct | book-store-backend/src/modules/cart/cart.service.ts:58-75 | Adding preserves "at most one item per product per cart". |
| CartService.FailedAddCreatesCart | book-store-backend/src/modules/cart/cart.service.ts:38-56 | A failed add for a user without a cart leaves a new empty cart behind. |
| CartService.RemoveCartItem | book-store-backend/src/modules/cart/cart.service.ts:94-121 | No cart, or the product not in the cart, is NotFound. Otherwise the first item of that product is removed and answered, and nothing else changes. |
| CartService.RemoveTakesProductOut | book-store-backend/src/modules/cart/cart.service.ts:94-121 | With one copy per product, removal takes the product out and keeps every other product. |
| CartService.ClearCart | book-store-backend/src/modules/cart/cart.service.ts:123-140 | No cart is NotFound. Otherwise the cart is left with no items, and the loaded cart is answered. |
| CartService.ClearThenAdd | book-store-backend/src/modules/cart/cart.service.ts:29-140 | A cleared cart keeps one copy per product and its id, and then accepts any known product as its only item. |
| CartService.CartStatuses | book-store-backend/src/modules/cart/cart.service.ts:41-116 | Every refusal of the cart endpoints is 404, except a product already in the cart, which is 400. |
| OrderService.OrderedBefore | book-store-backend/src/modules/order/order.service.ts:53-58 | Holds exactly the products of the user's earlier orders. |
| OrderService.CheckItems | book-store-backend/src/modules/order/order.service.ts:62-88 | Items are checked in sequence: an unknown product is NotFound and an earlier-ordered one is BadRequest. The first failure wins. Otherwise one priced order item is built per requested id. |
| OrderService.KeepUnordered | book-store-backend/src/modules/order/order.service.ts:104-114 | Exactly the cart items whose product was not ordered remain. |
| OrderService.CreateOrder | book-store-backend/src/modules/order/order.service.ts:37-132 | A missing user is NotFound and no items is BadRequest, before any item check. A refusal writes nothing. On success, the order totals its prices, has status 'Success', and goes first. Its items are exactly what CheckItems accepts: every product is known and was not in this user's earlier orders, and every item carries its product's price. The ordered products leave the user's cart, and nothing else changes. |
| OrderService.NoSecondOrder | book-store-backend/src/modules/order/order.service.ts:53-76 | After an order, any request repeating one of its products is refused. |
| OrderService.RepeatInOneRequestAccepted | book-store-backend/src/modules/order/order.service.ts:62-76 | The same new product twice in one request passes the checks. |
| OrderService.FindOrder | book-store-backend/src/modules/order/order.service.ts:174-181 | Finds the first order with the id, or none when no order has it. |
| OrderService.CancelOrder | book-store-backend/src/modules/order/order.service.ts:173-189 | An unknown id is NotFound. The first order with the id is refused as BadRequest exactly when it is already cancelled, and otherwise cancelled successfully. Only that order's status becomes 'Đã hủy'. |
| OrderService.CancelTwiceRefused | book-store-backend/src/modules/order/order.service.ts:183-185 | Cancelling the same order again is refused as already cancelled. |
| OrderService.OrdersOfMembers | book-store-backend/src/modules/order/order.service.ts:146-149 | The selection holds exactly the user's orders. |
| OrderService.OrdersOfAppend | book-store-backend/src/modules/order/order.service.ts:146-149 | Selecting from a concatenation concatenates the selections, so the newest-first order is kept. Its proof steps through `OrdersOfCons`, one unfolding of the selection. |
| OrderService.Window | book-store-backend/src/modules/order/order.service.ts:139-152 | skip/take selects the window [offset, offset+limit), at most limit orders. |
| OrderService.GetOrdersByUser | book-store-backend/src/modules/order/order.service.ts:134-170 | An unknown user is NotFound, and an empty page is NotFound "User has no orders". A non-empty page is answered, reporting the user's total and ceil(total/limit). |
| OrderService.GetAllOrders | book-store-backend/src/modules/order/order.service.ts:204-228 | Never fails, with the same window and pagination arithmetic over all orders. |
| OrderService.OrderOnItsPage | book-store-backend/src/modules/order/order.service.ts:204-228 | Order i is entry i % limit of page i / limit + 1. |
| OrderService.AllOrdersPagesTile | book-store-backend/src/modules/order/order.service.ts:204-228 | Consecutive pages continue each other in the order list. |
| OrderService.OrderStatuses | book-store-backend/src/modules/order/order.service.ts:42-185 | A missing user, product, order or page of orders answers 404; an empty request, a product ordered before and a second cancel answer 400. |
| OrderService.NewOrderListedFirst | book-store-backend/src/modules/order/order.service.ts:93-99 | A new order heads its user's first page. |
| DashboardService.CompletedAmounts | book-store-backend/src/modules/dashboard/dashboard.service.ts:33-37 | Only completed orders are summed; no completed order means no amounts. |
| DashboardService.TotalRevenue | book-store-backend/src/modules/dashboard/dashboard.service.ts:33-39 | Revenue is the sum over completed orders, and 0 when the SQL SUM is null. |
| DashboardService.RevenueOfNewest | book-store-backend/src/modules/dashboard/dashboard.service.ts:33-39 | An order adds its amount exactly when it is completed. |
| DashboardService.PlacedOrdersNotCounted | book-store-backend/src/modules/dashboard/dashboard.service.ts:36 | Placing an order never changes the revenue, because it is saved as 'Success' and not 'Completed'. |
| DashboardService.PrevMonth | book-store-backend/src/modules/dashboard/dashboard.service.ts:52 | The previous month is a valid month one ordinal earlier. |
| DashboardService.Interval | book-store-backend/src/modules/dashboard/dashboard.service.ts:52-74 | Exactly n consecutive months, ending with the current one. |
| DashboardService.SalesByMonthKeys | book-store-backend/src/modules/dashboard/dashboard.service.ts:67-72 | A month is in the table exactly when some row names it. |
| DashboardService.SalesByMonthValues | book-store-backend/src/modules/dashboard/dashboard.service.ts:67-72 | A month holds the sales of the last row naming it. |
| DashboardService.SalesOverTime | book-store-backend/src/modules/dashboard/dashboard.service.ts:49-88 | Six consecutive ascending months ending now. A month without a row has 0 sales, and a month named by one row has that row's sales. |
| DashboardService.RawShares | book-store-backend/src/modules/dashboard/dashboard.service.ts:111-125 | The first four categories become named shares in query order. 'Others' follows exactly when the rest sum to more than 0. |
| DashboardService.Absorb | book-store-backend/src/modules/dashboard/dashboard.service.ts:128-133 | Only the last share changes, and only when the total misses 100 by more than 0.01. It is then floored at 0. |
| DashboardService.AbsorbReaches100 | book-store-backend/src/modules/dashboard/dashboard.service.ts:128-133 | When rounding is exact and the corrected share is not negative, the shares then sum to exactly 100. |
| DashboardService.SalesByCategory | book-store-backend/src/modules/dashboard/dashboard.service.ts:90-137 | No sales gives no entries. Otherwise there are 1 to 5 entries: the top four names in order, then 'Others' exactly when the rest sold something. Every entry but the last is its category's percentage. The last entry is its raw percentage (of the fourth category or of the rest) when the raw shares already total 100 within 0.01. Otherwise it is the corrected value, floored at 0. |
| DashboardService.SalesByCategoryNearly100 | book-store-backend/src/modules/dashboard/dashboard.service.ts:128-133 | When no correction is needed, the chart's shares total 100 within 0.01. |
| DashboardService.SalesByCategoryReaches100 | book-store-backend/src/modules/dashboard/dashboard.service.ts:128-133 | After a correction that rounds exactly and stays non-negative, the chart's shares total exactly 100. |
| PageWindow.WindowReadsCorrectly | book-store-frontend/src/features/products/components/ProductCatalogue.tsx:129-161 | A proper window starts at page 1 and ends at the last page, with link pages strictly increasing. It shows the current page, and exactly that link is active. |
| PageWindow.PageNumbers | book-store-frontend/src/features/products/components/ProductCatalogue.tsx:129-161 | Up to five pages lists them all. Any row reads correctly, with at most seven buttons. |
| PageWindow.PageNumbersCases | book-store-frontend/src/features/products/components/ProductCatalogue.tsx:138-158 | With more than five pages: [1,2,3,4,…,n] for c ≤ 3; [1,…,n−3..n] for c ≥ n−2; otherwise [1,…,c−1,c,c+1,…,n]. |
| PageWindow.CartItems | book-store-fe/src/features/carts/components/CartPagination.tsx:33-110 | Up to five pages lists them all. Any row reads correctly: it starts with page 1, ends with page n, increases, contains c, and only c is active. |
| PageWindow.CartEllipses | book-store-fe/src/features/carts/components/CartPagination.tsx:67-69 | With more than five pages, a leading ellipsis appears exactly when c > 3, and a trailing one exactly when c < n−2. |
| PageWindow.CartMiddle | book-store-fe/src/features/carts/components/CartPagination.tsx:70-89 | The middle pages span [max(2,c−1), min(n−1,c+1)], widened to end at 3 for c = 1 and to start at n−2 for c = n. |
| PageWindow.Slot | book-store-frontend/src/components/reusable/expandable-data-table.tsx:149-179 | A page renders its link exactly when it is first, last, or next to the current page (only the current one active). A hidden page shows an ellipsis exactly at c−2 or c+2, and nothing otherwise. |
| PageWindow.TableClosedForm | book-store-frontend/src/components/reusable/expandable-data-table.tsx:149-179 | The per-page rule yields page 1, an ellipsis if c ≥ 4, the pages around c, an ellipsis if c+2 < n, and page n. |
| PageWindow.TableReadsCorrectly | book-store-frontend/src/components/reusable/expandable-data-table.tsx:149-179 | The table's row reads correctly whenever the current page is in range. |
| PageWindow.TableMatchesCart | book-store-frontend/src/components/reusable/expandable-data-table.tsx:149-179 | Away from the first and last page, the table and the cart render the same row. |
| PageWindow.TableNarrowerAtEnds | book-store-fe/src/features/carts/components/CartPagination.tsx:70-89 | On the first and last page the table shows four buttons where the cart shows five. |
| PageWindow.StepsStayInRange | book-store-frontend/src/components/reusable/expandable-data-table.tsx:139-186 | The previous/next guards keep the page within 1..n, and each undoes the other. |
| CartView.PageCount | book-store-fe/src/features/carts/components/Cart.tsx:44 | ceil(items/3): enough pages for all items, and no extra page. |
| CartView.Visible | book-store-fe/src/features/carts/components/Cart.tsx:45-50 | A page shows at most three items, and a page that starts within the list shows some. |
| CartView.SubtotalCoversAllPages | book-store-fe/src/features/carts/components/Cart.tsx:52-57 | The subtotal is the sum over the items before, on and after the shown page. |
| CartView.ConsistentShowsItems | book-store-fe/src/features/carts/components/Cart.tsx:43-50 | On a page within range, a non-empty cart shows items, namely those of that slice. |
| CartView.ItemOnItsPage | book-store-fe/src/features/carts/components/Cart.tsx:45-50 | Item i appears on page i/3+1 at position i%3. |
| CartView.GoTo | book-store-fe/src/features/carts/components/Cart.tsx:59 | A page link selects that page and keeps the items. |
| CartView.Previous | book-store-fe/src/features/carts/components/Cart.tsx:60 | Math.max(p−1, 1): steps back and never goes below page 1. |
| CartView.Next | book-store-fe/src/features/carts/components/Cart.tsx:61 | Math.min(p+1, pageCount): steps on and never passes the last page. |
| CartView.NavigationKeepsConsistent | book-store-fe/src/features/carts/components/Cart.tsx:59-61 | A link within range, previous, and next (when pagination is shown, Cart.tsx:180) keep the page within range. |
| CartView.WithoutProduct | book-store-fe/src/features/carts/components/Cart.tsx:81-83 | The filter keeps exactly the items of other products. |
| CartView.DeleteAsWritten | book-store-fe/src/features/carts/components/Cart.tsx:79-89 | A failed delete changes nothing. A successful one removes every item of the product and keeps the current page. |
| CartView.DeleteAsWrittenStrandsPage | book-store-fe/src/features/carts/components/Cart.tsx:79-89 | Deleting the only item of page 2 leaves page 2 selected: it is empty, and the pagination that could leave it is hidden. |
| CartView.Delete | book-store-fe/src/features/carts/components/Cart.tsx:79-89 | The same filtering as the source: a failed delete changes nothing, a successful one removes exactly the product's items (its page clamp is what DeleteKeepsConsistent relies on). |
| CartView.DeleteKeepsConsistent | book-store-fe/src/features/carts/components/Cart.tsx:79-89 | The corrected delete keeps the page in range, so a non-empty cart always shows items. |
| UrlParams.ParamOf | book-store-frontend/src/features/products/components/ProductCatalogue.tsx:55-65 | A parameter name denotes the field named so, or a foreign parameter when no field has that name. |
| UrlParams.GetToQuery | book-store-frontend/src/features/products/components/ProductCatalogue.tsx:79-88 | The URL written for a record holds each field's value exactly when it is written, and nothing else. |
| UrlParams.UpdateUrl | book-store-frontend/src/features/products/components/ProductCatalogue.tsx:75-93 | New values override the current record, and a key is written only when its value is not undefined, null, "" or an empty array. It does not navigate exactly when the resulting query equals the current one. |
| UrlParams.NumberOf | book-store-frontend/src/features/products/components/ProductCatalogue.tsx:56-57 | Number(s) of a parameter: a non-negative number, or NaN. |
| UrlParams.NumberOr | book-store-frontend/src/features/products/components/ProductCatalogue.tsx:56-57 | Number(p) \|\| d over the digit-only NumberOf: the default when the parameter is missing or reads as 0 or NaN, and otherwise the number read. Because NumberOf reads only digit strings, the result is the default or a positive integer. |
| UrlParams.TextOr | book-store-frontend/src/features/products/components/ProductCatalogue.tsx:58-60 | p \|\| d: the default, or the parameter when it is non-empty. |
| UrlParams.IdsOf | book-store-frontend/src/features/products/components/ProductCatalogue.tsx:61 | split(",").filter(Boolean) \|\| []: a list without empty ids. |
| UrlParams.PriceOf | book-store-frontend/src/features/products/components/ProductCatalogue.tsx:62-63 | Undefined exactly when the parameter is missing or empty. |
| UrlParams.SearchTypeOf | book-store-frontend/src/features/products/components/ProductCatalogue.tsx:64 | null exactly when the parameter is missing. |
| UrlParams.CurrentFilters | book-store-frontend/src/features/products/components/ProductCatalogue.tsx:55-65 | Every field is read. Under the digit-only NumberOf, page and limit are positive; sortBy and sortOrder are non-empty. Missing parameters give the defaults 1, 16, "desc", [] and undefined. |
| UrlParams.CategoryIdsRoundTrip | book-store-frontend/src/features/products/components/ProductCatalogue.tsx:61-86 | Non-empty ids without commas, written comma-joined and read back with split/filter, give the same list. |
| UrlParams.NumberRoundTrip | book-store-frontend/src/features/products/components/ProductCatalogue.tsx:56-86 | A non-negative number written in decimal reads back as itself. |
| UrlParams.ReadBack | book-store-frontend/src/features/products/components/ProductCatalogue.tsx:55-88 | A URL holding a record of the shape getCurrentFilters produces reads back as that record. |
| UrlParams.UpdateThenRead | book-store-frontend/src/features/products/components/ProductCatalogue.tsx:55-93 | After updateURL, the catalogue re-reads exactly the merged record. |
| UrlParams.SortMapping | book-store-frontend/src/features/products/components/ProductCatalogue.tsx:39-49 | Every sort option maps to a non-empty field and to asc or desc. |
| UrlParams.PageChange | book-store-frontend/src/features/products/components/ProductCatalogue.tsx:95-97 | The catalogue then reads back the requested page, and page 1 for 0. |
| UrlParams.ClearFilters | book-store-frontend/src/features/products/components/ProductCatalogue.tsx:104-112 | The URL shows page 1 and no categoryIds, minPrice or maxPrice. Every other field keeps its stored value. |
| UrlParams.ApplyFilters | book-store-frontend/src/features/products/components/ProductCatalogue.tsx:114-117 | The URL shows page 1, and every other field as the current record stores it. |
| UrlParams.SortChange | book-store-frontend/src/features/products/components/ProductCatalogue.tsx:119-127 | The URL shows page 1 and sortBy/sortOrder from sortMapping; every other field keeps its stored value. |
| UrlParams.SetParamsUnchanged | book-store-frontend/src/features/search-bar/components/SearchBar.tsx:53-65 | Setting values the URL already holds and deleting absent ones leaves it unchanged. |
| UrlParams.Submit | book-store-frontend/src/features/search-bar/components/SearchBar.tsx:50-70 | Sets query, searchType and page "1", and SMART deletes categoryIds, minPrice and maxPrice. Every other parameter is kept. It navigates only when the query string changes. |
| UrlParams.SubmitTwice | book-store-frontend/src/features/search-bar/components/SearchBar.tsx:67 | Submitting again from the URL a submit pushed does not navigate. |
| UrlParams.TypeChange | book-store-frontend/src/features/search-bar/components/SearchBar.tsx:72-90 | Pushes a URL exactly when the trimmed input is non-empty. That URL has searchType and page "1", SMART clears the three filter keys, and every other parameter is kept. |
| UrlParams.TypeChangeThenSubmit | book-store-frontend/src/features/search-bar/components/SearchBar.tsx:72-90 | After a type change on the URL of the current search, submitting the same input does not navigate. |
| UrlParams.SmartSubmitClearsFilters | book-store-frontend/src/features/search-bar/components/SearchBar.tsx:60-65 | After a SMART submit the catalogue reads page 1, no categories and no price bounds. |
| UrlParams.ReadUnfiltered | book-store-frontend/src/features/products/components/ProductCatalogue.tsx:56-63 | A URL on page 1 without filter parameters reads as page 1, [] and two undefined prices. |
| FeCatalogue.PageChange | book-store-fe/src/features/products/components/ProductCatalogue.tsx:70-73 | A page change selects that page and keeps the filters and the sort. |
| FeCatalogue.FilterChange | book-store-fe/src/features/products/components/ProductCatalogue.tsx:74-77 | The new filters replace the old, the sort is kept, and the page resets to 1. |
| FeCatalogue.SortChange | book-store-fe/src/features/products/components/ProductCatalogue.tsx:79-82 | The new sort replaces the old, the filters are kept, and the page resets to 1. |
| FeCatalogue.ClearFilters | book-store-fe/src/features/products/components/ProductCatalogue.tsx:186-194 | Resets to categories [], minPrice 0, maxPrice 1000 and minRating 0 on page 1, keeping the sort. |
| FeCatalogue.ClearForgets | book-store-fe/src/features/products/components/ProductCatalogue.tsx:74-194 | Clearing forgets every earlier filter change, so the result depends only on the sort. |
| FeCatalogue.Previous | book-store-fe/src/features/products/components/ProductCatalogue.tsx:227-230 | Moves back only from a page after the first, leaving filters and sort alone. |
| FeCatalogue.Next | book-store-fe/src/features/products/components/ProductCatalogue.tsx:256-260 | Moves on only from a page before the last, leaving filters and sort alone. |
| FeCatalogue.ChangesStartOver | book-store-fe/src/features/products/components/ProductCatalogue.tsx:74-266 | After a filter or sort change, Previous does nothing and Next goes to page 2 when there is one. |

## Left out

- Embedding, sparse encoding, the vector engine's fusion and filtering, the cross-encoder, the LLM and Redis are not implemented. They are parameters: functions of `Retriever.Env`, and a `map` store without TTL expiry.
- JSON encoding of cached values is the identity, and `_convert_numpy_types` is treated as the identity.
- `json.dumps` of a single value is a rendering parameter of the result key. `CacheKeys` models the key-sorting and the `query_top_n_` prefix, not JSON escaping.
- Redis failures are not modelled; none is caught in the source.
- Logging, tracing, the gRPC server loop and its concurrency are left out.
- `retrieve` and `search` are collapsed into one `Search` step over an abstract engine. The point list is whatever the engine returns.
- The Python `TypeError` for a keyword bound twice is modelled as an error result. This covers a structured query holding `query`, `top_n` or `self`. When several names clash, the model names `query` first; CPython may report another name, so only the message differs.
- Retriever.Search: the filter keywords must have the types `_build_filter` documents (`FilterBuilder.FilterTyped`). Python is laxer: pydantic's `Range` coerces a numeric string such as `price_min="5"`, and an `authors` dict is iterated by its keys. The model refuses both.
- Retriever.Search: a mistyped filter is refused before the engine is asked. In the source, `retrieve` embeds the query first and raises only inside `_build_filter`, so an embedding failure would be reported instead.
- Retriever.FormatBook: a missing payload field and a field holding `None` are both `None` in the model and read as the default. In Python, a `None` title prints "None" and `None` categories raise a `TypeError`; the ingestion always writes these fields.
- RetrieverServer.Project: `results` must be a list. Python would also iterate an empty dict or a string; the model refuses them.
- URL parameters are a map from name to value, so a URL with a repeated key holds one value for it. `searchParams.get` reads the first copy and `set` replaces every copy; which copy the map keeps is not modelled.
- Backend persistence is abstract: the TypeORM query builders, SQL filters, joins and ordering are the `rows` and `loaded` inputs of `ProductService.ListPage`.
  - Product sorting by `sortBy` happens inside that query and is not modelled.
  - `findOne` and its always-true `fileUrl` condition are not modelled.
- Prices and percentages are reals, not IEEE floating point. The storefront filter panel (`FeCatalogue.FilterState`) keeps its price and rating bounds as integers; the catalogue only stores them. `parseFloat(…) || 0` is modelled by an `Option` price that defaults to 0.
- `toFixed(1)` is a rounding parameter of `DashboardService`.
- `date-fns` month arithmetic is replaced by year/month ordinals. The month labels (`format(…, 'MMM')`) are not produced.
- DashboardService.TotalRevenue: counts orders whose status is 'Completed', as the SQL filter does. The model does not decide whether the SUM's text parses. A non-numeric SUM is treated like null.
- The `cancelOrder` stock-restore loop is not modelled. It reads a `number2` field that no product has, so it never runs.
- `createOrder`'s final reload is not modelled, nor is its "created but cannot be reloaded" error, which cannot happen against a consistent store.
- Orders are kept newest first, as the `orderDate DESC` ordering returns them. Dates themselves are not modelled.
- The DTO validation of `page` and `limit` is the precondition `ValidPaging`: integers of at least 1.
- The other backend services, controllers, DTO classes and interceptors are outside the model. This covers auth, users, categories and authors.
- React rendering, hooks, toasts, routing and smooth scrolling are left out.
- The frontend catalogue's local `handleFilterChange` merge (ProductCatalogue.tsx:99-102) only edits local state before an apply. The `filters` argument of the URL handlers stands for that state.
- The frontend catalogue's `sortBy` menu state is not read back from the URL.
- UrlParams.UpdateUrl: the source compares serialized query strings, which also depend on parameter order. The model compares parameter maps.
  - Navigation is therefore decided on content alone.
  - A reordered but otherwise equal URL counts as unchanged.
- UrlParams.Submit: the same map comparison replaces the string comparison of `params.toString()`.
- UrlParams.NumberOf: reads decimal digit strings only. Signs, decimal points, exponents and surrounding white space all read as NaN, where JavaScript's `Number` would accept some of them.
- UrlParams.CurrentFilters: because of that reading, `?page=-1` or `?page=1.5` gives the default page 1, where the source gets -1 or 1.5 (`Number(p) || d` keeps any non-zero number). Negative and fractional page and limit values are therefore never reached, and the positivity the contract states holds only for the model.
- Parameter values are not URL-encoded or decoded; the model stores the strings themselves.
- `Value.Texts` renders a list with `Join(…, ',')`. Non-string array elements are not modelled.
- The admin screens' copies of the data-table page rule are not modelled separately. They repeat the rule `PageWindow.Slot` models.

## Findings

| source | as written | input that shows it | evidently intended | confidence | as-written member | corrected member |
|---|---|---|---|---|---|---|
| book-store-fe/src/features/carts/components/Cart.tsx:79-89 | A successful delete filters the items but leaves `current` unchanged. | Four items, page 2 selected, delete the fourth item. Page 2 is now empty, and the pagination is hidden because only one page remains. | After a delete the current page is clamped to the new page count, so some items stay visible. | not executed | CartView.DeleteAsWrittenStrandsPage | CartView.DeleteKeepsConsistent |

=== FILE: cache_keys.dfy ===
/** The two Redis keys the search orchestrator derives: the result-cache key
    `f"{query}_{top_n}_{json.dumps(kwargs, sort_keys=True)}"` and the
    structured-query key `f"structured_query::{query}"`. */
module CacheKeys {
  import opened Common
  import opened Json

  /** One caller keyword argument; the caller's keywords arrive as a list of
      these in insertion order, with no name twice. */
  type Pair = (string, Value)

  // ---------------------------------------------------------------------
  // Python's ordering of `str` values: code point by code point

  predicate Below(a: string, b: string)
    decreases |a|
  {
    if a == [] then b != []
    else if b == [] then false
    else if a[0] != b[0] then a[0] < b[0]
    else Below(a[1..], b[1..])
  }

  lemma {:induction false} BelowIrreflexive(a: string)
    ensures !Below(a, a)
    decreases |a|
  {
    if a != [] { BelowIrreflexive(a[1..]); }
  }

  lemma {:induction false} BelowAsymmetric(a: string, b: string)
    requires Below(a, b)
    ensures !Below(b, a)
    decreases |a|
  {
    if a != [] && b != [] && a[0] == b[0] { BelowAsymmetric(a[1..], b[1..]); }
  }

  lemma {:induction false} BelowTransitive(a: string, b: string, c: string)
    requires Below(a, b) && Below(b, c)
    ensures Below(a, c)
    decreases |a|
  {
    if a != [] && a[0] == b[0] && b[0] == c[0] {
      BelowTransitive(a[1..], b[1..], c[1..]);
    }
  }

  lemma {:induction false} BelowTotal(a: string, b: string)
    ensures a == b || Below(a, b) || Below(b, a)
    decreases |a|
  {
    if a != [] && b != [] && a[0] == b[0] {
      BelowTotal(a[1..], b[1..]);
      if a[1..] == b[1..] {
        assert a == [a[0]] + a[1..] && b == [b[0]] + b[1..];
      }
    }
  }

  // ---------------------------------------------------------------------
  // `sort_keys=True`: the keywords ordered by name

  predicate DistinctKeys(ps: seq<Pair>) {
    forall i, j :: 0 <= i < j < |ps| ==> ps[i].0 != ps[j].0
  }

  predicate KeysSorted(ps: seq<Pair>) {
    forall i, j :: 0 <= i < j < |ps| ==> Below(ps[i].0, ps[j].0)
  }

  function Insert(p: Pair, ps: seq<Pair>): seq<Pair> {
    if ps == [] then [p]
    else if Below(ps[0].0, p.0) then [ps[0]] + Insert(p, ps[1..])
    else [p] + ps
  }

  function SortByKey(ps: seq<Pair>): seq<Pair> {
    if ps == [] then [] else Insert(ps[0], SortByKey(ps[1..]))
  }

  lemma {:induction false} InsertMultiset(p: Pair, ps: seq<Pair>)
    ensures multiset(Insert(p, ps)) == multiset(ps) + multiset{p}
    decreases |ps|
  {
    if ps != [] {
      assert ps == [ps[0]] + ps[1..];
      if Below(ps[0].0, p.0) {
        InsertMultiset(p, ps[1..]);
      }
    }
  }

  lemma {:induction false} InsertSorted(p: Pair, ps: seq<Pair>)
    requires KeysSorted(ps)
    requires forall i :: 0 <= i < |ps| ==> ps[i].0 != p.0
    ensures KeysSorted(Insert(p, ps))
    decreases |ps|
  {
    if ps == [] {
    } else if Below(ps[0].0, p.0) {
      var rest := Insert(p, ps[1..]);
      InsertSorted(p, ps[1..]);
      InsertMultiset(p, ps[1..]);
      forall j | 0 <= j < |rest| ensures Below(ps[0].0, rest[j].0) {
        assert rest[j] in multiset(rest);
        if rest[j] != p {
          assert rest[j] in multiset(ps[1..]);
          assert rest[j] in ps[1..];
        }
      }
      assert Insert(p, ps) == [ps[0]] + rest;
    } else {
      BelowTotal(ps[0].0, p.0);
      forall j | 1 <= j < |ps| ensures Below(p.0, ps[j].0) {
        BelowTransitive(p.0, ps[0].0, ps[j].0);
      }
    }
  }

  lemma {:induction false} SortByKeyFacts(ps: seq<Pair>)
    requires DistinctKeys(ps)
    ensures multiset(SortByKey(ps)) == multiset(ps)
    ensures KeysSorted(SortByKey(ps))
    decreases |ps|
  {
    if ps != [] {
      var rest := SortByKey(ps[1..]);
      SortByKeyFacts(ps[1..]);
      forall i | 0 <= i < |rest| ensures rest[i].0 != ps[0].0 {
        assert rest[i] in multiset(ps[1..]);
        assert rest[i] in ps[1..];
      }
      InsertMultiset(ps[0], rest);
      InsertSorted(ps[0], rest);
      assert ps == [ps[0]] + ps[1..];
    }
  }

  lemma SortedHeads(a: seq<Pair>, b: seq<Pair>)
    requires KeysSorted(a) && KeysSorted(b)
    requires multiset(a) == multiset(b) && a != []
    ensures b != [] && a[0] == b[0]
  {
    assert a[0] in multiset(b);
    assert b[0] in multiset(a);
    var j :| 0 <= j < |b| && b[j] == a[0];
    var i :| 0 <= i < |a| && a[i] == b[0];
    if j != 0 {
      if i == 0 {
        BelowIrreflexive(b[0].0);
      } else {
        BelowAsymmetric(a[0].0, b[0].0);
      }
    }
  }

  lemma TailMultiset(a: seq<Pair>, b: seq<Pair>)
    requires a != [] && b != [] && a[0] == b[0]
    requires multiset(a) == multiset(b)
    ensures multiset(a[1..]) == multiset(b[1..])
  {
    assert a == [a[0]] + a[1..] && b == [b[0]] + b[1..];
    assert multiset(a[1..]) == multiset(a) - multiset{a[0]};
    assert multiset(b[1..]) == multiset(b) - multiset{a[0]};
  }

  /** Two key-sorted lists holding the same pairs are the same list. */
  lemma {:induction false} SortedUnique(a: seq<Pair>, b: seq<Pair>)
    requires KeysSorted(a) && KeysSorted(b)
    requires multiset(a) == multiset(b)
    ensures a == b
    decreases |a|
  {
    if a != [] {
      SortedHeads(a, b);
      TailMultiset(a, b);
      SortedUnique(a[1..], b[1..]);
      assert a == [a[0]] + a[1..] && b == [b[0]] + b[1..];
    }
  }

  // ---------------------------------------------------------------------
  // Rendering

  function Digit(d: nat): char
    requires d < 10
  {
    "0123456789"[d]
  }

  /** `str(n)` for a non-negative integer. */
  function NatToString(n: nat): (s: string)
    ensures |s| >= 1
    ensures forall i :: 0 <= i < |s| ==> '0' <= s[i] <= '9'
  {
    if n < 10 then [Digit(n)] else NatToString(n / 10) + [Digit(n % 10)]
  }

  function IntToString(n: int): string {
    if n < 0 then "-" + NatToString(-n) else NatToString(n)
  }

  /** Reads decimal digits back: the partner of `NatToString`. */
  function ParseNat(s: string): nat
    requires forall i :: 0 <= i < |s| ==> '0' <= s[i] <= '9'
    decreases |s|
  {
    if s == [] then 0 else 10 * ParseNat(s[..|s| - 1]) + (s[|s| - 1] as int - '0' as int)
  }

  /** `top_n` is rendered without losing information. */
  lemma {:induction false} ParseNatToString(n: nat)
    ensures ParseNat(NatToString(n)) == n
  {
    if n >= 10 {
      var s, d := NatToString(n / 10), n % 10;
      ParseNatToString(n / 10);
      ParseNatSnoc(s, d);
      assert NatToString(n) == s + [Digit(d)];
    } else {
      ParseNatSnoc([], n);
      assert NatToString(n) == [] + [Digit(n)];
    }
  }

  /** Appending a digit multiplies by ten and adds it. */
  lemma ParseNatSnoc(s: string, d: nat)
    requires d < 10
    requires forall i :: 0 <= i < |s| ==> '0' <= s[i] <= '9'
    ensures forall i :: 0 <= i < |s + [Digit(d)]| ==> '0' <= (s + [Digit(d)])[i] <= '9'
    ensures ParseNat(s + [Digit(d)]) == 10 * ParseNat(s) + d
  {
    var t := s + [Digit(d)];
    assert t[..|t| - 1] == s;
    assert Digit(d) as int - '0' as int == d;
  }

  /** One `"name": value` member; `render` stands for `json.dumps` of a
      single value (its number and escape formatting are not modelled). */
  function Member(p: Pair, render: Value -> string): string {
    render(Str(p.0)) + ": " + render(p.1)
  }

  /** `json.dumps(kwargs, sort_keys=True)`. */
  function DumpSorted(kwargs: seq<Pair>, render: Value -> string): string {
    var sorted := SortByKey(kwargs);
    "{" + JoinWith(seq(|sorted|, i requires 0 <= i < |sorted| => Member(sorted[i], render)), ", ") + "}"
  }

  /** The result-cache key: the query, `top_n` and the sorted keyword dump,
      joined by `_`. */
  function ResultKey(query: string, topN: int, kwargs: seq<Pair>, render: Value -> string): (k: string)
    ensures query + "_" <= k
    ensures var tail := "_" + DumpSorted(kwargs, render); |tail| <= |k| && k[|k| - |tail|..] == tail
  {
    query + "_" + IntToString(topN) + "_" + DumpSorted(kwargs, render)
  }

  const StructuredPrefix: string := "structured_query::"

  /** The structured-query key: the query behind a fixed prefix. */
  function StructuredKey(query: string): (k: string)
    ensures |k| == |StructuredPrefix| + |query|
    ensures k[..|StructuredPrefix|] == StructuredPrefix && k[|StructuredPrefix|..] == query
  {
    StructuredPrefix + query
  }

  // ---------------------------------------------------------------------
  // Properties of the keys

  /** Keyword arguments that differ only in insertion order share a result key. */
  lemma ResultKeyOrderIndependent(query: string, topN: int, a: seq<Pair>, b: seq<Pair>,
                                  render: Value -> string)
    requires DistinctKeys(a) && DistinctKeys(b)
    requires multiset(a) == multiset(b)
    ensures ResultKey(query, topN, a, render) == ResultKey(query, topN, b, render)
  {
    SortByKeyFacts(a);
    SortByKeyFacts(b);
    SortedUnique(SortByKey(a), SortByKey(b));
  }

  /** Different queries never share a structured-query key. */
  lemma StructuredKeyInjective(q1: string, q2: string)
    requires StructuredKey(q1) == StructuredKey(q2)
    ensures q1 == q2
  {
    assert q1 == StructuredKey(q1)[|StructuredPrefix|..];
  }

  /** Both kinds of entry live in one Redis namespace, and a result key can
      coincide with a structured-query key. */
  lemma KeyNamespacesOverlap(render: Value -> string)
    ensures ResultKey("structured_query::a", 10, [], render) == StructuredKey("a_10_{}")
  {
    assert IntToString(10) == "10" by {
      assert NatToString(1) == "1" && NatToString(0) == "0";
    }
  }
}

=== FILE: cart_service.dfy ===
/** `CartService`: a user's single cart of e-books, one copy of a product
    per cart. Each operation is a transition of the database contents;
    ids the database would generate are parameters. */
module CartService {
  import opened Common
  import opened Shop

  /** `after` differs from `before` at most in the cart of `user`. */
  ghost predicate OnlyCartOf(before: Db, after: Db, user: Id) {
    && after.users == before.users && after.products == before.products
    && after.orders == before.orders
    && (forall u :: u != user ==> (u in after.carts <==> u in before.carts))
    && (forall u :: u != user && u in before.carts ==> after.carts[u] == before.carts[u])
  }

  /** The position of the first item holding `product`. */
  function ItemOf(items: seq<CartItem>, product: Id): (k: Option<nat>)
    ensures k.Some? ==> k.value < |items| && items[k.value].product == product
    ensures k.Some? ==> forall j :: 0 <= j < k.value ==> items[j].product != product
    ensures k.None? <==> product !in CartProducts(items)
  {
    if items == [] then None
    else if items[0].product == product then Some(0)
    else
      var k := ItemOf(items[1..], product);
      assert CartProducts(items) == [items[0].product] + CartProducts(items[1..]);
      if k.Some? then Some(k.value + 1) else None
  }

  /** `addToCart`: find or create the user's cart (the new cart is saved
      before the product is checked), then add the product unless it is
      unknown or already there. The answer names the cart. */
  function AddToCart(db: Db, user: Id, product: Id, newCartId: Id, newItemId: Id): (o: Outcome<Id>)
    ensures user !in db.carts && user !in db.users ==> o == Outcome(Err(UserNotFound(user)), db)
    ensures user in db.carts || user in db.users ==>
      && user in o.db.carts
      && OnlyCartOf(db, o.db, user)
      && (user !in db.carts ==> o.db.carts[user].id == newCartId)
      && (user in db.carts ==> o.db.carts[user].id == db.carts[user].id)
    ensures (user in db.carts || user in db.users) && product !in db.products ==>
      o.result == Err(ProductNotFound(product))
    ensures (user in db.carts || user in db.users) && product in db.products ==>
      var before := if user in db.carts then db.carts[user].items else [];
      var cartId := if user in db.carts then db.carts[user].id else newCartId;
      && (product in CartProducts(before) ==> o.result == Err(AlreadyInCart))
      && (product !in CartProducts(before) ==> o.result == Ok(cartId))
    ensures o.result.Err? && o.result.error != UserNotFound(user) ==>
      o.db.carts[user].items == (if user in db.carts then db.carts[user].items else [])
    ensures o.result.Ok? && user in db.carts ==> product !in CartProducts(db.carts[user].items)
    ensures o.result.Ok? ==>
      var before := if user in db.carts then db.carts[user].items else [];
      && product in db.products
      && o.db.carts[user].items == before + [CartItem(newItemId, product)]
      && o.result.value == o.db.carts[user].id
  {
    if user !in db.carts && user !in db.users then Outcome(Err(UserNotFound(user)), db)
    else
      var cart := if user in db.carts then db.carts[user] else Cart(newCartId, []);
      var db1 := db.(carts := db.carts[user := cart]);
      if product !in db.products then Outcome(Err(ProductNotFound(product)), db1)
      else if product in CartProducts(cart.items) then Outcome(Err(AlreadyInCart), db1)
      else
        var cart' := Cart(cart.id, cart.items + [CartItem(newItemId, product)]);
        Outcome(Ok(cart.id), db.(carts := db.carts[user := cart']))
  }

  /** Adding to a cart never puts a product in it twice. */
  lemma AddKeepsOnePerProduct(db: Db, user: Id, product: Id, newCartId: Id, newItemId: Id)
    requires CartsWellFormed(db)
    ensures CartsWellFormed(AddToCart(db, user, product, newCartId, newItemId).db)
  {
    var o := AddToCart(db, user, product, newCartId, newItemId);
    if o.result.Ok? {
      var before := if user in db.carts then db.carts[user].items else [];
      var after := before + [CartItem(newItemId, product)];
      assert CartProducts(after) == CartProducts(before) + [product];
      assert Distinct(CartProducts(after)) by {
        var ps := CartProducts(after);
        forall i, j | 0 <= i < j < |ps| ensures ps[i] != ps[j] {
          if j == |ps| - 1 {
            assert ps[i] == CartProducts(before)[i];
          } else {
            assert ps[i] == CartProducts(before)[i] && ps[j] == CartProducts(before)[j];
          }
        }
      }
    }
  }

  /** A failed add can leave a new, empty cart behind. */
  lemma FailedAddCreatesCart(db: Db, user: Id, product: Id, newCartId: Id, newItemId: Id)
    requires user in db.users && user !in db.carts && product !in db.products
    ensures var o := AddToCart(db, user, product, newCartId, newItemId);
      o.result.Err? && user in o.db.carts && o.db.carts[user] == Cart(newCartId, [])
  {
  }

  /** `items` without position `k`. */
  function RemoveAt(items: seq<CartItem>, k: nat): (r: seq<CartItem>)
    requires k < |items|
    ensures |r| == |items| - 1
    ensures forall j :: 0 <= j < k ==> r[j] == items[j]
    ensures forall j :: k <= j < |r| ==> r[j] == items[j + 1]
  {
    items[..k] + items[k + 1..]
  }

  lemma RemoveAtMultiset(items: seq<CartItem>, k: nat)
    requires k < |items|
    ensures multiset(RemoveAt(items, k)) + multiset{items[k]} == multiset(items)
  {
    assert items == items[..k] + [items[k]] + items[k + 1..];
  }

  /** `removeCartItem`: the cart and then the item must exist; the item
      found is deleted and answered. */
  function RemoveCartItem(db: Db, user: Id, product: Id): (o: Outcome<CartItem>)
    ensures user !in db.carts ==> o == Outcome(Err(CartNotFound), db)
    ensures user in db.carts && product !in CartProducts(db.carts[user].items) ==>
      o == Outcome(Err(NotInCart), db)
    ensures user in db.carts && product in CartProducts(db.carts[user].items) ==>
      var items := db.carts[user].items;
      o.result == Ok(items[ItemOf(items, product).value])
    ensures o.result.Ok? ==>
      && user in db.carts && user in o.db.carts
      && OnlyCartOf(db, o.db, user)
      && o.db.carts[user].id == db.carts[user].id
      && o.result.value.product == product
      && o.result.value in db.carts[user].items
      && multiset(o.db.carts[user].items) + multiset{o.result.value} == multiset(db.carts[user].items)
  {
    if user !in db.carts then Outcome(Err(CartNotFound), db)
    else
      var cart := db.carts[user];
      match ItemOf(cart.items, product)
      case None => Outcome(Err(NotInCart), db)
      case Some(k) =>
        RemoveAtMultiset(cart.items, k);
        Outcome(Ok(cart.items[k]), db.(carts := db.carts[user := Cart(cart.id, RemoveAt(cart.items, k))]))
  }

  /** With one copy per product, removal takes the product out of the cart
      and keeps every other product. */
  lemma RemoveTakesProductOut(db: Db, user: Id, product: Id)
    requires CartsWellFormed(db)
    requires RemoveCartItem(db, user, product).result.Ok?
    ensures var after := RemoveCartItem(db, user, product).db;
      && CartsWellFormed(after)
      && forall p :: p in CartProducts(after.carts[user].items)
                     <==> p in CartProducts(db.carts[user].items) && p != product
  {
    var items := db.carts[user].items;
    var k := ItemOf(items, product).value;
    RemoveAtProducts(items, k);
    DistinctRemove(CartProducts(items), k);
  }

  lemma RemoveAtProducts(items: seq<CartItem>, k: nat)
    requires k < |items|
    ensures CartProducts(RemoveAt(items, k)) == CartProducts(items)[..k] + CartProducts(items)[k + 1..]
  {
  }

  /** Dropping one entry of a sequence without repetitions drops exactly
      that value. */
  lemma DistinctRemove(ps: seq<Id>, k: nat)
    requires k < |ps| && Distinct(ps)
    ensures var qs := ps[..k] + ps[k + 1..];
      && Distinct(qs)
      && forall p :: p in qs <==> p in ps && p != ps[k]
  {
    RemoveMembers(ps, k);
    RemoveDistinct(ps, k);
  }

  lemma RemoveMembers(ps: seq<Id>, k: nat)
    requires k < |ps| && Distinct(ps)
    ensures forall p :: p in ps[..k] + ps[k + 1..] <==> p in ps && p != ps[k]
  {
    var qs := ps[..k] + ps[k + 1..];
    forall p ensures p in qs <==> p in ps && p != ps[k] {
      if p in qs {
        var j :| 0 <= j < |qs| && qs[j] == p;
        if j < k { assert ps[j] == p; } else { assert ps[j + 1] == p; }
      }
      if p in ps && p != ps[k] {
        var i :| 0 <= i < |ps| && ps[i] == p;
        if i < k { assert qs[i] == p; } else { assert qs[i - 1] == p; }
      }
    }
  }

  lemma RemoveDistinct(ps: seq<Id>, k: nat)
    requires k < |ps| && Distinct(ps)
    ensures Distinct(ps[..k] + ps[k + 1..])
  {
    var qs := ps[..k] + ps[k + 1..];
    forall i, j | 0 <= i < j < |qs| ensures qs[i] != qs[j] {
      var i', j' := if i < k then i else i + 1, if j < k then j else j + 1;
      assert qs[i] == ps[i'] && qs[j] == ps[j'];
    }
  }

  /** `clearCart`: every item of an existing cart is deleted; the answer is
      the cart as it was loaded, items included. */
  function ClearCart(db: Db, user: Id): (o: Outcome<Cart>)
    ensures user !in db.carts ==> o == Outcome(Err(CartNotFound), db)
    ensures user in db.carts ==>
      && o.result == Ok(db.carts[user])
      && user in o.db.carts && o.db.carts[user] == Cart(db.carts[user].id, [])
      && OnlyCartOf(db, o.db, user)
  {
    if user !in db.carts then Outcome(Err(CartNotFound), db)
    else
      var cart := db.carts[user];
      Outcome(Ok(cart), db.(carts := db.carts[user := Cart(cart.id, [])]))
  }

  /** A cleared cart keeps its id and takes any known product again: the
      add succeeds and leaves that product the cart's only item. */
  lemma ClearThenAdd(db: Db, user: Id, product: Id, newCartId: Id, newItemId: Id)
    requires CartsWellFormed(db) && user in db.carts && product in db.products
    ensures var cleared := ClearCart(db, user).db;
      && CartsWellFormed(cleared)
      && var o := AddToCart(cleared, user, product, newCartId, newItemId);
         && o.result == Ok(db.carts[user].id)
         && o.db.carts[user] == Cart(db.carts[user].id, [CartItem(newItemId, product)])
  {
    var cleared := ClearCart(db, user).db;
    assert CartProducts(cleared.carts[user].items) == [];
  }

  /** The HTTP answers of the cart endpoints: every refusal is a 404 except
      a product already in the cart, which is a 400. */
  lemma CartStatuses(db: Db, user: Id, product: Id, newCartId: Id, newItemId: Id)
    ensures var a := AddToCart(db, user, product, newCartId, newItemId).result;
      a.Err? ==> HttpStatus(a.error) == (if a.error == AlreadyInCart then 400 else 404)
    ensures var r := RemoveCartItem(db, user, product).result;
      r.Err? ==> HttpStatus(r.error) == 404
    ensures var c := ClearCart(db, user).result;
      c.Err? ==> HttpStatus(c.error) == 404
  {
  }
}

=== FILE: cart_view.dfy ===
/** `CartView`: the shopping-cart page of the storefront. It keeps the
    loaded cart items and the current page, shows three items per page,
    sums the subtotal, and drops the deleted product's items after the
    server confirms the delete. */
module CartView {
  import opened Common

  /** A cart line as the page sees it; `price` is `None` when it does not
      parse as a number. */
  datatype Item = Item(id: string, productId: string, price: Option<real>)

  /** The page's state: the items and the current page number. */
  datatype View = View(items: seq<Item>, current: int)

  const ItemsPerPage: nat := 3

  function PageCount(items: seq<Item>): (n: nat)
    ensures n * ItemsPerPage >= |items| && (n == 0 || (n - 1) * ItemsPerPage < |items|)
  {
    CeilDiv(|items|, ItemsPerPage)
  }

  /** `items.slice((current - 1) * 3, current * 3)`. */
  function Visible(v: View): (r: seq<Item>)
    ensures |r| <= ItemsPerPage
    ensures 1 <= v.current && (v.current - 1) * ItemsPerPage < |v.items| ==> r != []
  {
    JsSlice(v.items, (v.current - 1) * ItemsPerPage, v.current * ItemsPerPage)
  }

  /** Pagination is rendered only for more than one page. */
  predicate PaginationShown(v: View) {
    PageCount(v.items) > 1
  }

  /** "Proceed to Payment" is enabled only for a non-empty cart. */
  predicate CanPay(v: View) {
    v.items != []
  }

  /** `parseFloat(price) || 0`. */
  function PriceOf(it: Item): real {
    it.price.GetOr(0.0)
  }

  /** The subtotal of every item in the cart, not only the visible ones. */
  function Subtotal(items: seq<Item>): real {
    if items == [] then 0.0 else PriceOf(items[0]) + Subtotal(items[1..])
  }

  lemma {:induction false} SubtotalAppend(a: seq<Item>, b: seq<Item>)
    ensures Subtotal(a + b) == Subtotal(a) + Subtotal(b)
    decreases |a|
  {
    if a != [] {
      assert (a + b)[1..] == a[1..] + b;
      SubtotalAppend(a[1..], b);
    } else {
      assert a + b == b;
    }
  }

  /** The subtotal does not depend on which page is shown: it is the sum of
      the visible page and everything before and after it. */
  lemma SubtotalCoversAllPages(v: View)
    requires Consistent(v)
    ensures var lo := (v.current - 1) * ItemsPerPage;
      lo <= |v.items| &&
      Subtotal(v.items) == Subtotal(v.items[..lo]) + Subtotal(Visible(v)) + Subtotal(v.items[lo + |Visible(v)|..])
  {
    var lo := (v.current - 1) * ItemsPerPage;
    var hi := lo + |Visible(v)|;
    assert v.items == v.items[..lo] + Visible(v) + v.items[hi..];
    SubtotalAppend(v.items[..lo] + Visible(v), v.items[hi..]);
    SubtotalAppend(v.items[..lo], Visible(v));
  }

  /** The state the page should always be in: the current page is a real
      page (page 1 for an empty cart). */
  predicate Consistent(v: View) {
    1 <= v.current <= (if PageCount(v.items) == 0 then 1 else PageCount(v.items))
  }

  /** In a consistent state a non-empty cart always shows some items, and
      page `p` shows items `(p - 1) * 3` up to `p * 3`. */
  lemma ConsistentShowsItems(v: View)
    requires Consistent(v)
    ensures v.items != [] ==> Visible(v) != []
    ensures var lo := (v.current - 1) * ItemsPerPage;
      var hi := if v.current * ItemsPerPage < |v.items| then v.current * ItemsPerPage else |v.items|;
      0 <= lo <= hi && Visible(v) == v.items[lo..hi]
  {
  }

  /** Item `i` appears on page `i / 3 + 1`, at position `i % 3`. */
  lemma ItemOnItsPage(items: seq<Item>, i: nat)
    requires i < |items|
    ensures var v := View(items, i / ItemsPerPage + 1);
      Consistent(v) && i % ItemsPerPage < |Visible(v)| && Visible(v)[i % ItemsPerPage] == items[i]
  {
  }

  /** A click on page `p` of the pagination. */
  function GoTo(v: View, p: int): (w: View)
    ensures w.items == v.items && w.current == p
  {
    v.(current := p)
  }

  /** `Math.max(p - 1, 1)`. */
  function Previous(v: View): (w: View)
    ensures w.items == v.items
    ensures w.current >= 1
    ensures v.current > 1 ==> w.current == v.current - 1
    ensures v.current <= 1 ==> w.current == 1
  {
    v.(current := if v.current - 1 > 1 then v.current - 1 else 1)
  }

  /** `Math.min(p + 1, pageCount)`. */
  function Next(v: View): (w: View)
    ensures w.items == v.items
    ensures w.current <= PageCount(v.items)
    ensures v.current < PageCount(v.items) ==> w.current == v.current + 1
  {
    var n := PageCount(v.items);
    v.(current := if v.current + 1 < n then v.current + 1 else n)
  }

  /** The links and the previous/next buttons keep a consistent state
      consistent (next is only reachable while the pagination is shown). */
  lemma NavigationKeepsConsistent(v: View, p: int)
    requires Consistent(v)
    ensures 1 <= p <= PageCount(v.items) ==> Consistent(GoTo(v, p))
    ensures Consistent(Previous(v))
    ensures PaginationShown(v) ==> Consistent(Next(v))
  {
  }

  /** `items.filter(item => item.product.id !== productId)`. */
  function WithoutProduct(items: seq<Item>, productId: string): (r: seq<Item>)
    ensures forall it :: it in r <==> it in items && it.productId != productId
    ensures |r| <= |items|
  {
    if items == [] then []
    else if items[0].productId == productId then WithoutProduct(items[1..], productId)
    else [items[0]] + WithoutProduct(items[1..], productId)
  }

  /** The delete as written: on success the product's items go and the
      current page stays as it was; on failure nothing changes. */
  function DeleteAsWritten(v: View, productId: string, succeeded: bool): (w: View)
    ensures !succeeded ==> w == v
    ensures w.current == v.current
    ensures succeeded ==> forall it :: it in w.items <==> it in v.items && it.productId != productId
  {
    if succeeded then v.(items := WithoutProduct(v.items, productId)) else v
  }

  /** Deleting the only item of the last page leaves that page selected:
      four items on page 2, delete the fourth, and the page shows nothing
      while the pagination (now one page) is hidden. */
  lemma DeleteAsWrittenStrandsPage()
    ensures var v := View([Item("a", "p", None), Item("b", "q", None), Item("c", "r", None), Item("d", "s", None)], 2);
      var w := DeleteAsWritten(v, "s", true);
      && Consistent(v) && Visible(v) != []
      && w.items != [] && Visible(w) == [] && !PaginationShown(w) && !Consistent(w)
  {
    var v := View([Item("a", "p", None), Item("b", "q", None), Item("c", "r", None), Item("d", "s", None)], 2);
    assert v.items[3].productId == "s";
    var w := DeleteAsWritten(v, "s", true);
    assert w.items == v.items[..3] by {
      assert WithoutProduct(v.items[3..], "s") == [];
    }
  }

  /** The delete with the current page brought back onto the last page. */
  function Delete(v: View, productId: string, succeeded: bool): (w: View)
    ensures !succeeded ==> w == v
    ensures succeeded ==> forall it :: it in w.items <==> it in v.items && it.productId != productId
  {
    if succeeded then
      var items := WithoutProduct(v.items, productId);
      var last := if PageCount(items) == 0 then 1 else PageCount(items);
      View(items, if v.current > last then last else v.current)
    else v
  }

  /** The corrected delete keeps the state consistent, so a non-empty cart
      never shows an empty page. */
  lemma DeleteKeepsConsistent(v: View, productId: string, succeeded: bool)
    requires Consistent(v)
    ensures Consistent(Delete(v, productId, succeeded))
    ensures Delete(v, productId, succeeded).items != [] ==> Visible(Delete(v, productId, succeeded)) != []
  {
    ConsistentShowsItems(Delete(v, productId, succeeded));
  }
}

=== FILE: common.dfy ===
/** Small helpers shared by every part of the book-store model: optional
    values, failure-carrying results, and the arithmetic and sequence
    operations that JavaScript and Python provide natively. */
module Common {

  datatype Option<+T> = None | Some(value: T) {
    function GetOr(default: T): T {
      match this
      case Some(v) => v
      case None => default
    }
  }

  /** `Ok` carries a value, `Err` the error the source raises instead. */
  datatype Result<+T, +E> = Ok(value: T) | Err(error: E) {
    predicate IsFailure() { Err? }

    function PropagateFailure<U>(): Result<U, E>
      requires Err?
    {
      Err(error)
    }

    function Extract(): T
      requires Ok?
    {
      value
    }
  }

  /** `Math.ceil(n / d)` for a non-negative count and a positive divisor. */
  function CeilDiv(n: nat, d: nat): (q: nat)
    requires d > 0
    ensures q * d >= n
    ensures q == 0 || (q - 1) * d < n
  {
    (n + d - 1) / d
  }

  /** `Array.prototype.slice(start, end)`: negative positions count from the
      end, and both positions are clamped to the sequence. */
  function SliceIndex(i: int, len: nat): (k: nat)
    ensures k <= len
    ensures 0 <= i <= len ==> k == i
    ensures i > len ==> k == len
  {
    if i < 0 then (if len + i < 0 then 0 else len + i)
    else if i > len then len
    else i
  }

  function JsSlice<T>(s: seq<T>, start: int, end: int): (r: seq<T>)
    ensures 0 <= start <= end <= |s| ==> r == s[start..end]
    ensures |r| <= |s|
    ensures SliceIndex(start, |s|) >= SliceIndex(end, |s|) ==> r == []
  {
    var a := SliceIndex(start, |s|);
    var b := SliceIndex(end, |s|);
    if a < b then s[a..b] else []
  }

  /** Removes later repetitions, keeping the first occurrence of each element
      in its original position (`Array.from(new Set(xs))`). */
  function Dedup<T(==)>(s: seq<T>): (r: seq<T>)
  {
    DedupFrom(s, {})
  }

  function DedupFrom<T(==)>(s: seq<T>, seen: set<T>): (r: seq<T>)
    decreases |s|
  {
    if s == [] then []
    else if s[0] in seen then DedupFrom(s[1..], seen)
    else [s[0]] + DedupFrom(s[1..], seen + {s[0]})
  }

  predicate Distinct<T(==)>(s: seq<T>) {
    forall i, j :: 0 <= i < j < |s| ==> s[i] != s[j]
  }

  lemma {:induction false} DedupFromFacts<T>(s: seq<T>, seen: set<T>)
    ensures Distinct(DedupFrom(s, seen))
    ensures forall x :: x in DedupFrom(s, seen) <==> x in s && x !in seen
    decreases |s|
  {
    if s != [] {
      if s[0] in seen {
        DedupFromFacts(s[1..], seen);
      } else {
        DedupFromFacts(s[1..], seen + {s[0]});
        var rest := DedupFrom(s[1..], seen + {s[0]});
        assert DedupFrom(s, seen) == [s[0]] + rest;
        forall x ensures x in DedupFrom(s, seen) <==> x in s && x !in seen {
          assert x in s <==> x == s[0] || x in s[1..];
        }
      }
    } else {
      assert DedupFrom(s, seen) == [];
    }
  }

  /** Deduplication keeps exactly the elements of the input, each once. */
  lemma DedupSpec<T>(s: seq<T>)
    ensures Distinct(Dedup(s))
    ensures forall x :: x in Dedup(s) <==> x in s
    ensures |Dedup(s)| <= |s|
  {
    DedupFromFacts(s, {});
    DedupLength(s, {});
  }

  lemma {:induction false} DedupLength<T>(s: seq<T>, seen: set<T>)
    ensures |DedupFrom(s, seen)| <= |s|
    decreases |s|
  {
    if s != [] {
      if s[0] in seen { DedupLength(s[1..], seen); }
      else { DedupLength(s[1..], seen + {s[0]}); }
    }
  }

  /** Deduplication does nothing to a sequence without repetitions. */
  lemma {:induction false} DedupOfDistinct<T>(s: seq<T>, seen: set<T>)
    requires Distinct(s)
    requires forall x :: x in s ==> x !in seen
    ensures DedupFrom(s, seen) == s
    decreases |s|
  {
    if s != [] {
      DedupOfDistinct(s[1..], seen + {s[0]});
    }
  }

  function SumReals(xs: seq<real>): real {
    if xs == [] then 0.0 else xs[0] + SumReals(xs[1..])
  }

  lemma {:induction false} SumRealsAppend(a: seq<real>, b: seq<real>)
    ensures SumReals(a + b) == SumReals(a) + SumReals(b)
    decreases |a|
  {
    if a == [] {
      assert a + b == b;
    } else {
      assert (a + b)[1..] == a[1..] + b;
      SumRealsAppend(a[1..], b);
    }
  }

  /** `xs.join(sep)` for a single-character separator. */
  function Join(xs: seq<string>, sep: char): string {
    if xs == [] then ""
    else if |xs| == 1 then xs[0]
    else xs[0] + [sep] + Join(xs[1..], sep)
  }

  /** `sep.join(xs)` / `xs.join(sep)` for a separator of any length. */
  function JoinWith(xs: seq<string>, sep: string): string {
    if xs == [] then ""
    else if |xs| == 1 then xs[0]
    else xs[0] + sep + JoinWith(xs[1..], sep)
  }

  /** `s.split(sep)`: always at least one field. */
  function Split(s: string, sep: char): (fields: seq<string>)
    ensures |fields| >= 1
    decreases |s|
  {
    if s == [] then [""]
    else if s[0] == sep then [""] + Split(s[1..], sep)
    else
      var rest := Split(s[1..], sep);
      [[s[0]] + rest[0]] + rest[1..]
  }

  /** `xs.filter(Boolean)` on strings: drops the empty ones. */
  function DropEmpty(xs: seq<string>): (r: seq<string>)
    ensures forall i :: 0 <= i < |r| ==> r[i] != ""
  {
    if xs == [] then []
    else if xs[0] == "" then DropEmpty(xs[1..])
    else [xs[0]] + DropEmpty(xs[1..])
  }

  predicate Free(s: string, c: char) {
    forall i :: 0 <= i < |s| ==> s[i] != c
  }

  lemma {:induction false} SplitPrefix(a: string, b: string, sep: char)
    requires Free(a, sep)
    ensures Split(a + [sep] + b, sep) == [a] + Split(b, sep)
    decreases |a|
  {
    if a == [] {
      assert a + [sep] + b == [sep] + b;
      assert ([sep] + b)[1..] == b;
    } else {
      assert (a + [sep] + b)[1..] == a[1..] + [sep] + b;
      assert (a + [sep] + b)[0] == a[0];
      SplitPrefix(a[1..], b, sep);
      assert [a[0]] + a[1..] == a;
    }
  }

  lemma {:induction false} SplitFree(a: string, sep: char)
    requires Free(a, sep)
    ensures Split(a, sep) == [a]
    decreases |a|
  {
    if a != [] {
      SplitFree(a[1..], sep);
      assert [a[0]] + a[1..] == a;
    }
  }

  /** Joining strings that do not contain the separator and splitting the
      result again gives back the original strings. */
  lemma {:induction false} SplitJoin(xs: seq<string>, sep: char)
    requires |xs| >= 1
    requires forall i :: 0 <= i < |xs| ==> Free(xs[i], sep)
    ensures Split(Join(xs, sep), sep) == xs
    decreases |xs|
  {
    if |xs| == 1 {
      SplitFree(xs[0], sep);
    } else {
      SplitJoin(xs[1..], sep);
      assert Join(xs, sep) == xs[0] + [sep] + Join(xs[1..], sep);
      SplitPrefix(xs[0], Join(xs[1..], sep), sep);
      assert [xs[0]] + xs[1..] == xs;
    }
  }

  lemma {:induction false} DropEmptyOfNonEmpty(xs: seq<string>)
    requires forall i :: 0 <= i < |xs| ==> xs[i] != ""
    ensures DropEmpty(xs) == xs
    decreases |xs|
  {
    if xs != [] {
      DropEmptyOfNonEmpty(xs[1..]);
      assert [xs[0]] + xs[1..] == xs;
    }
  }
}

=== FILE: dashboard_service.dfy ===
/** `DashboardService`: the admin dashboard's revenue figure, six months of
    sales, and the share of sales per category (top four plus "Others").
    Only orders whose status is `'Completed'` are counted. The clock, the
    month labels and the one-decimal rounding are parameters. */
module DashboardService {
  import opened Common
  import opened Shop
  import OrderService

  /** The only status the dashboard counts. */
  const Completed: string := "Completed"

  /** The amounts of the completed orders, in store order. */
  function CompletedAmounts(orders: seq<Order>): (r: seq<real>)
    ensures |r| <= |orders|
    ensures (forall o :: o in orders ==> o.status != Completed) <==> r == []
  {
    if orders == [] then []
    else if orders[0].status == Completed then [orders[0].totalAmount] + CompletedAmounts(orders[1..])
    else CompletedAmounts(orders[1..])
  }

  /** SQL `SUM` over no rows is `NULL`. */
  function SqlSum(xs: seq<real>): Option<real> {
    if xs == [] then None else Some(SumReals(xs))
  }

  /** `totalRevenue`: `parseFloat` of a `NULL` sum is `NaN`, and `|| 0`
      turns it into 0, which is exactly the empty sum. */
  function TotalRevenue(orders: seq<Order>): (r: real)
    ensures r == SumReals(CompletedAmounts(orders))
    ensures (forall o :: o in orders ==> o.status != Completed) ==> r == 0.0
  {
    match SqlSum(CompletedAmounts(orders))
    case None => 0.0
    case Some(s) => s
  }

  /** An order contributes its amount exactly when it is completed. */
  lemma RevenueOfNewest(o: Order, orders: seq<Order>)
    ensures o.status == Completed ==> TotalRevenue([o] + orders) == o.totalAmount + TotalRevenue(orders)
    ensures o.status != Completed ==> TotalRevenue([o] + orders) == TotalRevenue(orders)
  {
    assert ([o] + orders)[1..] == orders;
  }

  /** Orders are placed as `'Success'`, so placing one never changes the
      revenue figure. */
  lemma PlacedOrdersNotCounted(db: Db, user: Id, items: Option<seq<Id>>, newOrderId: Id)
    requires OrderService.CreateOrder(db, user, items, newOrderId).result.Ok?
    ensures TotalRevenue(OrderService.CreateOrder(db, user, items, newOrderId).db.orders) == TotalRevenue(db.orders)
  {
    var o := OrderService.CreateOrder(db, user, items, newOrderId);
    RevenueOfNewest(o.result.value, db.orders);
  }

  // ---------------------------------------------------------------------
  // Sales over time

  datatype YearMonth = YearMonth(year: int, month: int)

  predicate ValidMonth(m: YearMonth) {
    1 <= m.month <= 12
  }

  /** Months counted from year 0, so that consecutive months differ by one. */
  function Ordinal(m: YearMonth): int {
    m.year * 12 + m.month - 1
  }

  function PrevMonth(m: YearMonth): (p: YearMonth)
    requires ValidMonth(m)
    ensures ValidMonth(p) && Ordinal(p) == Ordinal(m) - 1
  {
    if m.month == 1 then YearMonth(m.year - 1, 12) else YearMonth(m.year, m.month - 1)
  }

  /** `numberOfMonths` in `getSalesOverTime`. */
  const NumberOfMonths: nat := 6

  /** `eachMonthOfInterval` from the start of the month `n - 1` months
      before `now` through `now`. */
  function Interval(now: YearMonth, n: nat): (ms: seq<YearMonth>)
    requires ValidMonth(now)
    ensures |ms| == n
    ensures forall i :: 0 <= i < n ==> ValidMonth(ms[i]) && Ordinal(ms[i]) == Ordinal(now) - (n - 1 - i)
    decreases n
  {
    if n == 0 then [] else Interval(PrevMonth(now), n - 1) + [now]
  }

  /** A row of the grouped query; `month` is `NULL` for a missing date and
      `sales` is `None` when it does not parse as a number. */
  datatype MonthRow = MonthRow(month: Option<YearMonth>, sales: Option<real>)

  /** The `forEach` that fills `salesDataByMonth`: rows without a month are
      skipped, an unparsable sum counts 0, and a later row for the same
      month overwrites an earlier one. */
  function SalesByMonth(rows: seq<MonthRow>): map<YearMonth, real> {
    if rows == [] then map[]
    else
      var m := SalesByMonth(rows[..|rows| - 1]);
      var last := rows[|rows| - 1];
      if last.month.Some? then m[last.month.value := last.sales.GetOr(0.0)] else m
  }

  /** A month is present exactly when some row names it, and then holds the
      sales of the last row that names it. */
  predicate LastRowWins(rows: seq<MonthRow>, m: map<YearMonth, real>, k: YearMonth) {
    && (k in m <==> exists i :: 0 <= i < |rows| && rows[i].month == Some(k))
    && (k in m ==>
         exists i ::
           && 0 <= i < |rows| && rows[i].month == Some(k)
           && m[k] == rows[i].sales.GetOr(0.0)
           && forall j :: i < j < |rows| ==> rows[j].month != Some(k))
  }

  lemma SalesByMonthLastWins(rows: seq<MonthRow>, k: YearMonth)
    ensures LastRowWins(rows, SalesByMonth(rows), k)
  {
    SalesByMonthKeys(rows, k);
    SalesByMonthValues(rows, k);
  }

  /** A month is present exactly when some row names it. */
  lemma {:induction false} SalesByMonthKeys(rows: seq<MonthRow>, k: YearMonth)
    ensures k in SalesByMonth(rows) <==> exists i :: 0 <= i < |rows| && rows[i].month == Some(k)
    decreases |rows|
  {
    if rows != [] {
      var n := |rows| - 1;
      var init := rows[..n];
      SalesByMonthKeys(init, k);
      assert forall i :: 0 <= i < n ==> init[i] == rows[i];
      if rows[n].month != Some(k) && k !in SalesByMonth(init) {
        assert forall i :: 0 <= i < n ==> rows[i].month != Some(k);
      }
    }
  }

  /** A present month holds the sales of the last row that names it. */
  lemma {:induction false} SalesByMonthValues(rows: seq<MonthRow>, k: YearMonth)
    ensures k in SalesByMonth(rows) ==>
      exists i ::
        && 0 <= i < |rows| && rows[i].month == Some(k)
        && SalesByMonth(rows)[k] == rows[i].sales.GetOr(0.0)
        && forall j :: i < j < |rows| ==> rows[j].month != Some(k)
    decreases |rows|
  {
    if rows != [] {
      var n := |rows| - 1;
      var init := rows[..n];
      SalesByMonthValues(init, k);
      var m := SalesByMonth(init);
      if rows[n].month == Some(k) {
        assert SalesByMonth(rows)[k] == rows[n].sales.GetOr(0.0);
      } else if k in m {
        var i :| 0 <= i < n && init[i].month == Some(k) && m[k] == init[i].sales.GetOr(0.0)
          && forall j :: i < j < n ==> init[j].month != Some(k);
        assert rows[i] == init[i];
        assert forall j :: i < j < n ==> rows[j] == init[j];
      }
    }
  }

  datatype SalesPoint = SalesPoint(month: YearMonth, sales: real)

  /** `getSalesOverTime`: one point per month of the interval, in order; a
      month without a row has sales 0, a month with one row has that row's
      sales. */
  function SalesOverTime(now: YearMonth, rows: seq<MonthRow>): (r: seq<SalesPoint>)
    requires ValidMonth(now)
    ensures |r| == NumberOfMonths
    ensures r[NumberOfMonths - 1].month == now
    ensures forall i :: 0 <= i < |r| - 1 ==> Ordinal(r[i + 1].month) == Ordinal(r[i].month) + 1
    ensures forall i :: 0 <= i < |r| ==>
      (forall j :: 0 <= j < |rows| ==> rows[j].month != Some(r[i].month)) ==> r[i].sales == 0.0
    ensures forall i, j ::
      && 0 <= i < |r| && 0 <= j < |rows| && rows[j].month == Some(r[i].month)
      && (forall l :: 0 <= l < |rows| && l != j ==> rows[l].month != rows[j].month)
      ==> r[i].sales == rows[j].sales.GetOr(0.0)
  {
    var months := Interval(now, NumberOfMonths);
    var byMonth := SalesByMonth(rows);
    var r := seq(NumberOfMonths, i requires 0 <= i < NumberOfMonths =>
      SalesPoint(months[i], if months[i] in byMonth then byMonth[months[i]] else 0.0));
    assert forall i :: 0 <= i < NumberOfMonths ==> LastRowWins(rows, byMonth, r[i].month) by {
      forall i | 0 <= i < NumberOfMonths ensures LastRowWins(rows, byMonth, r[i].month) {
        SalesByMonthLastWins(rows, r[i].month);
      }
    }
    r
  }

  // ---------------------------------------------------------------------
  // Sales by category

  /** A row of the per-category query, in descending order of sales. */
  datatype CategoryRow = CategoryRow(name: string, totalSales: real)

  datatype Share = Share(name: string, value: real)

  const TopCount: nat := 4
  const OthersName: string := "Others"

  function SalesOf(rows: seq<CategoryRow>): (xs: seq<real>)
    ensures |xs| == |rows| && forall i :: 0 <= i < |rows| ==> xs[i] == rows[i].totalSales
  {
    seq(|rows|, i requires 0 <= i < |rows| => rows[i].totalSales)
  }

  function Values(entries: seq<Share>): (xs: seq<real>)
    ensures |xs| == |entries| && forall i :: 0 <= i < |entries| ==> xs[i] == entries[i].value
  {
    seq(|entries|, i requires 0 <= i < |entries| => entries[i].value)
  }

  /** `x` as a percentage of `total`, rounded by `round` (`toFixed(1)`
      read back with `parseFloat`). */
  function Percent(x: real, total: real, round: real -> real): real
    requires total != 0.0
  {
    round(x / total * 100.0)
  }

  function Abs(x: real): real {
    if x < 0.0 then -x else x
  }

  /** The named entries and the optional `'Others'` entry, before the
      correction of the last one. */
  function RawShares(rows: seq<CategoryRow>, total: real, round: real -> real): (r: seq<Share>)
    requires total != 0.0
    ensures var top := if |rows| < TopCount then |rows| else TopCount;
      && |r| == top + (if SumReals(SalesOf(rows[top..])) > 0.0 then 1 else 0)
      && (forall i :: 0 <= i < top ==> r[i] == Share(rows[i].name, Percent(rows[i].totalSales, total, round)))
      && (|r| > top ==> r[top] == Share(OthersName, Percent(SumReals(SalesOf(rows[top..])), total, round)))
  {
    var top := if |rows| < TopCount then |rows| else TopCount;
    var named := seq(top, i requires 0 <= i < top => Share(rows[i].name, Percent(rows[i].totalSales, total, round)));
    var others := SumReals(SalesOf(rows[top..]));
    if others > 0.0 then named + [Share(OthersName, Percent(others, total, round))] else named
  }

  /** Whether the entries miss 100 by more than 0.01. */
  predicate NeedsCorrection(entries: seq<Share>) {
    |entries| > 0 && Abs(100.0 - SumReals(Values(entries))) > 0.01
  }

  /** The last entry absorbs the difference from 100, floored at 0; the
      other entries are untouched. */
  function Absorb(entries: seq<Share>, round: real -> real): (r: seq<Share>)
    ensures |r| == |entries|
    ensures forall i :: 0 <= i < |entries| ==> r[i].name == entries[i].name
    ensures forall i :: 0 <= i < |entries| - 1 ==> r[i] == entries[i]
    ensures !NeedsCorrection(entries) ==> r == entries
    ensures NeedsCorrection(entries) ==> r[|r| - 1].value >= 0.0
  {
    if NeedsCorrection(entries) then
      var n := |entries| - 1;
      var v := round(entries[n].value + (100.0 - SumReals(Values(entries))));
      entries[n := entries[n].(value := if v < 0.0 then 0.0 else v)]
    else entries
  }

  lemma {:induction false} SumSplitLast(xs: seq<real>)
    requires xs != []
    ensures SumReals(xs) == SumReals(xs[..|xs| - 1]) + xs[|xs| - 1]
  {
    SumRealsAppend(xs[..|xs| - 1], [xs[|xs| - 1]]);
    assert xs[..|xs| - 1] + [xs[|xs| - 1]] == xs;
  }

  /** When rounding the corrected entry is exact and does not go below 0,
      the entries sum to exactly 100 afterwards. */
  lemma AbsorbReaches100(entries: seq<Share>, round: real -> real)
    requires NeedsCorrection(entries)
    requires var last := entries[|entries| - 1].value + (100.0 - SumReals(Values(entries)));
      round(last) == last && last >= 0.0
    ensures SumReals(Values(Absorb(entries, round))) == 100.0
  {
    var r := Absorb(entries, round);
    var n := |entries| - 1;
    SumSplitLast(Values(entries));
    SumSplitLast(Values(r));
    assert Values(r)[..n] == Values(entries)[..n];
  }

  /** `getSalesByCategory`: nothing when overall sales are 0; otherwise the
      first four categories in the query's order, then `'Others'` exactly
      when the remaining categories sold something, with the last entry
      corrected towards a total of 100. */
  function SalesByCategory(rows: seq<CategoryRow>, round: real -> real): (r: seq<Share>)
    ensures SumReals(SalesOf(rows)) == 0.0 ==> r == []
    ensures SumReals(SalesOf(rows)) != 0.0 ==>
      var top := if |rows| < TopCount then |rows| else TopCount;
      var others := SumReals(SalesOf(rows[top..]));
      && 1 <= |r| <= TopCount + 1
      && |r| == top + (if others > 0.0 then 1 else 0)
      && (forall i :: 0 <= i < top ==> r[i].name == rows[i].name)
      && (others > 0.0 ==> r[|r| - 1].name == OthersName)
      && (forall i :: 0 <= i < |r| - 1 ==> r[i].value == Percent(rows[i].totalSales, SumReals(SalesOf(rows)), round))
  ensures SumReals(SalesOf(rows)) != 0.0 ==>
      var total := SumReals(SalesOf(rows));
      var top := if |rows| < TopCount then |rows| else TopCount;
      var others := SumReals(SalesOf(rows[top..]));
      var raw := RawShares(rows, total, round);
      && (NeedsCorrection(raw) ==> r[|r| - 1].value >= 0.0)
      && (!NeedsCorrection(raw) && others > 0.0 ==> r[|r| - 1].value == Percent(others, total, round))
      && (!NeedsCorrection(raw) && others <= 0.0 ==> r[|r| - 1].value == Percent(rows[top - 1].totalSales, total, round))
  {
    var total := SumReals(SalesOf(rows));
    if total == 0.0 then []
    else
      assert rows != [];
      Absorb(RawShares(rows, total, round), round)
  }

  /** With no correction needed, the chart's shares add up to 100 within
      0.01. */
  lemma SalesByCategoryNearly100(rows: seq<CategoryRow>, round: real -> real)
    requires SumReals(SalesOf(rows)) != 0.0
    requires !NeedsCorrection(RawShares(rows, SumReals(SalesOf(rows)), round))
    ensures Abs(100.0 - SumReals(Values(SalesByCategory(rows, round)))) <= 0.01
  {
    var raw := RawShares(rows, SumReals(SalesOf(rows)), round);
    assert SalesByCategory(rows, round) == raw;
  }

  /** After a correction that rounds exactly and stays non-negative, the
      chart's shares add up to exactly 100. */
  lemma SalesByCategoryReaches100(rows: seq<CategoryRow>, round: real -> real)
    requires SumReals(SalesOf(rows)) != 0.0
    requires var raw := RawShares(rows, SumReals(SalesOf(rows)), round);
      && NeedsCorrection(raw)
      && var last := raw[|raw| - 1].value + (100.0 - SumReals(Values(raw)));
         round(last) == last && last >= 0.0
    ensures SumReals(Values(SalesByCategory(rows, round))) == 100.0
  {
    var raw := RawShares(rows, SumReals(SalesOf(rows)), round);
    assert SalesByCategory(rows, round) == Absorb(raw, round);
    AbsorbReaches100(raw, round);
  }
}

=== FILE: extractor.dfy ===
/** The structured-query extractor: the LLM fills a `BookFilter` record and
    `extract` hands back only the fields it set. */
module Extractor {
  import opened Common
  import opened Json
  import FilterBuilder

  /** The record the LLM must produce; every field is optional. */
  datatype BookFilter = BookFilter(
    rewriteQuery: Option<string>,
    priceMin: Option<real>,
    priceMax: Option<real>,
    ratingMin: Option<real>,
    ratingMax: Option<real>,
    ratingCountMin: Option<int>,
    ratingCountMax: Option<int>,
    authors: Option<seq<string>>)

  /** The schema's field names, as `model_dump` spells them. */
  const FieldNames: set<string> :=
    {"rewrite_query", "price_min", "price_max", "rating_min", "rating_max",
     "rating_count_min", "rating_count_max", "authors"}

  function StrList(xs: seq<string>): (v: Value)
    ensures v.List? && |v.items| == |xs|
    ensures forall i :: 0 <= i < |xs| ==> v.items[i] == Str(xs[i])
  {
    List(seq(|xs|, i requires 0 <= i < |xs| => Str(xs[i])))
  }

  /** The value `model_dump()` gives the schema field `k`; `None` for an
      unset field. */
  function Dumped(b: BookFilter, k: string): Option<Value> {
    if k == "rewrite_query" then (if b.rewriteQuery.Some? then Some(Str(b.rewriteQuery.value)) else None)
    else if k == "price_min" then (if b.priceMin.Some? then Some(Real(b.priceMin.value)) else None)
    else if k == "price_max" then (if b.priceMax.Some? then Some(Real(b.priceMax.value)) else None)
    else if k == "rating_min" then (if b.ratingMin.Some? then Some(Real(b.ratingMin.value)) else None)
    else if k == "rating_max" then (if b.ratingMax.Some? then Some(Real(b.ratingMax.value)) else None)
    else if k == "rating_count_min" then (if b.ratingCountMin.Some? then Some(Int(b.ratingCountMin.value)) else None)
    else if k == "rating_count_max" then (if b.ratingCountMax.Some? then Some(Int(b.ratingCountMax.value)) else None)
    else if k == "authors" then (if b.authors.Some? then Some(StrList(b.authors.value)) else None)
    else None
  }

  /** `{k: v for k, v in result.model_dump().items() if v is not None}`:
      exactly the fields the LLM set come back, each with its value
      unchanged; the schema has no title, description or category field, so
      extraction never drives those branches of the filter builder, and its
      output is always acceptable to the builder. */
  function Extract(b: BookFilter): (d: Dict)
    ensures "rewrite_query" in d <==> b.rewriteQuery.Some?
    ensures b.rewriteQuery.Some? ==> d["rewrite_query"] == Str(b.rewriteQuery.value)
    ensures "price_min" in d <==> b.priceMin.Some?
    ensures b.priceMin.Some? ==> d["price_min"] == Real(b.priceMin.value)
    ensures "price_max" in d <==> b.priceMax.Some?
    ensures b.priceMax.Some? ==> d["price_max"] == Real(b.priceMax.value)
    ensures "rating_min" in d <==> b.ratingMin.Some?
    ensures b.ratingMin.Some? ==> d["rating_min"] == Real(b.ratingMin.value)
    ensures "rating_max" in d <==> b.ratingMax.Some?
    ensures b.ratingMax.Some? ==> d["rating_max"] == Real(b.ratingMax.value)
    ensures "rating_count_min" in d <==> b.ratingCountMin.Some?
    ensures b.ratingCountMin.Some? ==> d["rating_count_min"] == Int(b.ratingCountMin.value)
    ensures "rating_count_max" in d <==> b.ratingCountMax.Some?
    ensures b.ratingCountMax.Some? ==> d["rating_count_max"] == Int(b.ratingCountMax.value)
    ensures "authors" in d <==> b.authors.Some?
    ensures b.authors.Some? ==> d["authors"] == StrList(b.authors.value)
    ensures d.Keys <= FieldNames
    ensures forall k :: k in d ==> !d[k].Null?
    ensures "title" !in d && "description_summary" !in d && "categories" !in d
    ensures FilterBuilder.FilterTyped(d)
  {
    NonNullFields(b);
    NonNullShape(b);
    NonNullTyped(b);
    NonNull(b)
  }

  function NonNull(b: BookFilter): Dict {
    map k | k in FieldNames && Dumped(b, k).Some? :: Dumped(b, k).value
  }

  lemma NonNullFields(b: BookFilter)
    ensures "rewrite_query" in NonNull(b) <==> b.rewriteQuery.Some?
    ensures b.rewriteQuery.Some? ==> NonNull(b)["rewrite_query"] == Str(b.rewriteQuery.value)
    ensures "price_min" in NonNull(b) <==> b.priceMin.Some?
    ensures b.priceMin.Some? ==> NonNull(b)["price_min"] == Real(b.priceMin.value)
    ensures "price_max" in NonNull(b) <==> b.priceMax.Some?
    ensures b.priceMax.Some? ==> NonNull(b)["price_max"] == Real(b.priceMax.value)
    ensures "rating_min" in NonNull(b) <==> b.ratingMin.Some?
    ensures b.ratingMin.Some? ==> NonNull(b)["rating_min"] == Real(b.ratingMin.value)
    ensures "rating_max" in NonNull(b) <==> b.ratingMax.Some?
    ensures b.ratingMax.Some? ==> NonNull(b)["rating_max"] == Real(b.ratingMax.value)
    ensures "rating_count_min" in NonNull(b) <==> b.ratingCountMin.Some?
    ensures b.ratingCountMin.Some? ==> NonNull(b)["rating_count_min"] == Int(b.ratingCountMin.value)
    ensures "rating_count_max" in NonNull(b) <==> b.ratingCountMax.Some?
    ensures b.ratingCountMax.Some? ==> NonNull(b)["rating_count_max"] == Int(b.ratingCountMax.value)
    ensures "authors" in NonNull(b) <==> b.authors.Some?
    ensures b.authors.Some? ==> NonNull(b)["authors"] == StrList(b.authors.value)
  {
  }

  lemma NonNullShape(b: BookFilter)
    ensures NonNull(b).Keys <= FieldNames
    ensures forall k :: k in NonNull(b) ==> !NonNull(b)[k].Null?
    ensures "title" !in NonNull(b) && "description_summary" !in NonNull(b)
    ensures "categories" !in NonNull(b)
  {
  }

  lemma NonNullTyped(b: BookFilter)
    ensures FilterBuilder.FilterTyped(NonNull(b))
  {
    NonNullShape(b);
    var d := NonNull(b);
    assert Get(d, "title") == Null && Get(d, "description_summary") == Null;
    assert Get(d, "categories") == Null;
  }
}

=== FILE: fe_catalogue.dfy ===
/** `FeCatalogue`: the storefront catalogue's own state — the filter panel,
    the sort option and the current page — and how its handlers change it.
    The sort option is a type parameter: the catalogue only stores it. */
module FeCatalogue {
  import PageWindow

  /** The filter panel's state. */
  datatype FilterState = FilterState(categories: seq<string>, minPrice: int, maxPrice: int, minRating: int)

  /** The panel's state before any filter is chosen; "Clear Filters"
      restores it. */
  const Unfiltered: FilterState := FilterState([], 0, 1000, 0)

  datatype State<S> = State(filters: FilterState, sort: S, page: int)

  /** `handlePageChange(p)`. */
  function PageChange<S>(s: State<S>, p: int): (t: State<S>)
    ensures t.page == p && t.filters == s.filters && t.sort == s.sort
  {
    s.(page := p)
  }

  /** `handleFilterChange(f)`: new filters, back to page 1, sort kept. */
  function FilterChange<S>(s: State<S>, f: FilterState): (t: State<S>)
    ensures t.filters == f && t.sort == s.sort
    ensures t.page == 1
  {
    PageChange(s.(filters := f), 1)
  }

  /** `handleSortChange(o)`: new sort option, back to page 1, filters kept. */
  function SortChange<S>(s: State<S>, o: S): (t: State<S>)
    ensures t.sort == o && t.filters == s.filters
    ensures t.page == 1
  {
    PageChange(s.(sort := o), 1)
  }

  /** The "Clear Filters" button shown when no book matches. */
  function ClearFilters<S>(s: State<S>): (t: State<S>)
    ensures t.filters.categories == [] && t.filters.minRating == 0
    ensures t.filters.minPrice == 0 && t.filters.maxPrice == 1000
    ensures t.sort == s.sort && t.page == 1
  {
    FilterChange(s, Unfiltered)
  }

  /** Clearing forgets every earlier filter change: the result depends only
      on the sort option. */
  lemma ClearForgets<S>(s: State<S>, f: FilterState)
    ensures ClearFilters(FilterChange(s, f)) == ClearFilters(s)
    ensures ClearFilters(s) == State(Unfiltered, s.sort, 1)
  {
    assert ClearFilters(s).filters == Unfiltered;
  }

  /** The Previous button: `currentPage > 1 && handlePageChange(currentPage - 1)`. */
  function Previous<S>(s: State<S>): (t: State<S>)
    ensures t.page == PageWindow.Previous(s.page)
    ensures t.filters == s.filters && t.sort == s.sort
  {
    if s.page > 1 then PageChange(s, s.page - 1) else s
  }

  /** The Next button: `currentPage < pageCount && handlePageChange(currentPage + 1)`. */
  function Next<S>(s: State<S>, pageCount: int): (t: State<S>)
    ensures t.page == PageWindow.Next(s.page, pageCount)
    ensures t.filters == s.filters && t.sort == s.sort
  {
    if s.page < pageCount then PageChange(s, s.page + 1) else s
  }

  /** A filter or sort change lands on page 1, where Previous does nothing
      and Next moves to page 2 whenever there is one. */
  lemma ChangesStartOver<S>(s: State<S>, f: FilterState, o: S, pageCount: int)
    requires pageCount >= 1
    ensures Previous(FilterChange(s, f)) == FilterChange(s, f)
    ensures Previous(SortChange(s, o)) == SortChange(s, o)
    ensures Next(FilterChange(s, f), pageCount).page == if pageCount > 1 then 2 else 1
  {
  }
}

=== FILE: filter_builder.dfy ===
/** The filter compiler of the hybrid retriever: turns the keyword arguments
    of a search into "no filter" or a conjunction of vector-engine
    conditions (`HybridRetriever._build_filter`). */
module FilterBuilder {
  import opened Common
  import opened Json

  /** The payload fields a condition can test, in the order the builder
      emits them. */
  datatype Field = Title | DescriptionSummary | Price | Rating | RatingCount | Authors | Categories {
    /** The payload key the condition names. */
    function Name(): string {
      match this
      case Title => "title"
      case DescriptionSummary => "description_summary"
      case Price => "price"
      case Rating => "rating"
      case RatingCount => "rating_count"
      case Authors => "authors"
      case Categories => "categories"
    }

    function Index(): nat {
      match this
      case Title => 0
      case DescriptionSummary => 1
      case Price => 2
      case Rating => 3
      case RatingCount => 4
      case Authors => 5
      case Categories => 6
    }

    predicate IsText() { Title? || DescriptionSummary? }
    predicate IsRange() { Price? || Rating? || RatingCount? }

    /** Keyword names of the lower and upper bound of a range field. */
    function MinKey(): string requires IsRange() {
      if Price? then "price_min" else if Rating? then "rating_min" else "rating_count_min"
    }
    function MaxKey(): string requires IsRange() {
      if Price? then "price_max" else if Rating? then "rating_max" else "rating_count_max"
    }
  }

  function FieldAt(n: nat): (f: Field)
    requires n < 7
    ensures f.Index() == n
  {
    [Title, DescriptionSummary, Price, Rating, RatingCount, Authors, Categories][n]
  }

  /** One `FieldCondition` of the vector engine. Range bounds are passed on
      as given (the engine's client library validates them). */
  datatype Condition =
    | MatchText(field: Field, text: string)
    | Range(field: Field, gte: Option<Value>, lte: Option<Value>)
    | MatchAny(field: Field, any: seq<string>)

  /** `None` or `Filter(must=conditions)`. */
  datatype Filter = NoFilter | Must(conditions: seq<Condition>)

  // ---------------------------------------------------------------------
  // The argument types the builder documents for its callers

  /** `title`/`description_summary` are strings (a falsy value is ignored). */
  predicate TextTyped(v: Value) {
    !Truthy(v) || v.Str?
  }

  /** Range bounds are numbers or `None`. */
  predicate BoundTyped(v: Value) {
    v.Null? || IsNumber(v)
  }

  /** `authors`/`categories` are a string or a list of strings. */
  predicate NamesTyped(v: Value) {
    !Truthy(v) || v.Str? || (v.List? && forall i :: 0 <= i < |v.items| ==> v.items[i].Str?)
  }

  predicate FieldTyped(kw: Dict, f: Field) {
    if f.IsText() then TextTyped(Get(kw, f.Name()))
    else if f.IsRange() then BoundTyped(Get(kw, f.MinKey())) && BoundTyped(Get(kw, f.MaxKey()))
    else NamesTyped(Get(kw, f.Name()))
  }

  predicate FilterTyped(kw: Dict) {
    && FieldTyped(kw, Title) && FieldTyped(kw, DescriptionSummary)
    && FieldTyped(kw, Price) && FieldTyped(kw, Rating) && FieldTyped(kw, RatingCount)
    && FieldTyped(kw, Authors) && FieldTyped(kw, Categories)
  }

  lemma FilterTypedAll(kw: Dict, f: Field)
    requires FilterTyped(kw)
    ensures FieldTyped(kw, f)
  {
  }

  // ---------------------------------------------------------------------
  // The builder, one field at a time

  function Bound(v: Value): Option<Value> {
    if v.Null? then None else Some(v)
  }

  /** A lone string is wrapped into a one-element list. */
  function Names(v: Value): seq<string>
    requires NamesTyped(v) && Truthy(v)
  {
    if v.Str? then [v.s] else seq(|v.items|, i requires 0 <= i < |v.items| => v.items[i].s)
  }

  /** Whether the keyword arguments constrain field `f` at all: a truthy
      text or name list, or a bound that is not `None` (0 is present). */
  predicate Present(kw: Dict, f: Field) {
    if f.IsRange() then !Get(kw, f.MinKey()).Null? || !Get(kw, f.MaxKey()).Null?
    else Truthy(Get(kw, f.Name()))
  }

  /** The conditions field `f` contributes. */
  function Part(kw: Dict, f: Field): (cs: seq<Condition>)
    requires FieldTyped(kw, f)
    ensures forall i :: 0 <= i < |cs| ==> cs[i].field == f
  {
    if !Present(kw, f) then []
    else if f.IsText() then TextPart(kw, f)
    else if f.IsRange() then RangePart(kw, f)
    else if f == Authors then AuthorParts(kw)
    else CategoryPart(kw)
  }

  function TextPart(kw: Dict, f: Field): (cs: seq<Condition>)
    requires f.IsText() && FieldTyped(kw, f) && Present(kw, f)
    ensures |cs| == 1 && cs[0].field == f
  {
    [MatchText(f, Get(kw, f.Name()).s)]
  }

  function RangePart(kw: Dict, f: Field): (cs: seq<Condition>)
    requires f.IsRange()
    ensures |cs| == 1 && cs[0].field == f
  {
    [Range(f, Bound(Get(kw, f.MinKey())), Bound(Get(kw, f.MaxKey())))]
  }

  /** One `MatchText` per author, so all the named authors must match. */
  function AuthorParts(kw: Dict): (cs: seq<Condition>)
    requires FieldTyped(kw, Authors) && Present(kw, Authors)
    ensures |cs| > 0 && forall i :: 0 <= i < |cs| ==> cs[i].field == Authors
  {
    var names := Names(Get(kw, "authors"));
    seq(|names|, i requires 0 <= i < |names| => MatchText(Authors, names[i]))
  }

  /** A single `MatchAny` over all the categories. */
  function CategoryPart(kw: Dict): (cs: seq<Condition>)
    requires FieldTyped(kw, Categories) && Present(kw, Categories)
    ensures |cs| == 1 && cs[0].field == Categories
  {
    [MatchAny(Categories, Names(Get(kw, "categories")))]
  }

  /** The parts of the fields from position `n` on, concatenated. */
  function PartsFrom(kw: Dict, n: nat): seq<Condition>
    requires FilterTyped(kw) && n <= 7
    decreases 7 - n
  {
    if n == 7 then [] else
      FilterTypedAll(kw, FieldAt(n));
      Part(kw, FieldAt(n)) + PartsFrom(kw, n + 1)
  }

  function Conditions(kw: Dict): seq<Condition>
    requires FilterTyped(kw)
  {
    PartsFrom(kw, 0)
  }

  /** Nothing the builder looks at is present. */
  predicate NothingPresent(kw: Dict) {
    forall f: Field :: !Present(kw, f)
  }

  lemma PartEmptyIff(kw: Dict, f: Field)
    requires FieldTyped(kw, f)
    ensures Part(kw, f) == [] <==> !Present(kw, f)
  {
    if Present(kw, f) && f == Authors {
      assert |Names(Get(kw, f.Name()))| > 0;
    }
  }

  lemma {:induction false} PartsFromEmptyIff(kw: Dict, n: nat)
    requires FilterTyped(kw) && n <= 7
    ensures PartsFrom(kw, n) == [] <==> forall m :: n <= m < 7 ==> !Present(kw, FieldAt(m))
    decreases 7 - n
  {
    if n < 7 {
      PartsFromEmptyIff(kw, n + 1);
      PartEmptyIff(kw, FieldAt(n));
    }
  }

  function BuildFilter(kw: Dict): (f: Filter)
    requires FilterTyped(kw)
    ensures f.NoFilter? <==> NothingPresent(kw)
    ensures f.Must? ==> |f.conditions| > 0
  {
    var cs := Conditions(kw);
    PartsFromEmptyIff(kw, 0);
    NothingPresentByIndex(kw);
    if cs != [] then Must(cs) else NoFilter
  }

  /** Every field is reached by its position. */
  lemma FieldAtIndex(g: Field)
    ensures g.Index() < 7 && FieldAt(g.Index()) == g
  {
    match g
    case Title =>
    case DescriptionSummary =>
    case Price =>
    case Rating =>
    case RatingCount =>
    case Authors =>
    case Categories =>
  }

  lemma NothingPresentByIndex(kw: Dict)
    ensures NothingPresent(kw) <==> forall m :: 0 <= m < 7 ==> !Present(kw, FieldAt(m))
  {
    if forall m :: 0 <= m < 7 ==> !Present(kw, FieldAt(m)) {
      forall g: Field ensures !Present(kw, g) {
        FieldAtIndex(g);
        assert !Present(kw, FieldAt(g.Index()));
      }
    }
  }

  // ---------------------------------------------------------------------
  // Per-field views of the compiled conditions

  function OfField(cs: seq<Condition>, f: Field): (r: seq<Condition>)
    ensures forall i :: 0 <= i < |r| ==> r[i].field == f
  {
    if cs == [] then []
    else if cs[0].field == f then [cs[0]] + OfField(cs[1..], f)
    else OfField(cs[1..], f)
  }

  lemma {:induction false} OfFieldAppend(a: seq<Condition>, b: seq<Condition>, f: Field)
    ensures OfField(a + b, f) == OfField(a, f) + OfField(b, f)
    decreases |a|
  {
    if a == [] {
      assert a + b == b;
    } else {
      assert (a + b)[1..] == a[1..] + b;
      OfFieldAppend(a[1..], b, f);
    }
  }

  lemma {:induction false} OfFieldAll(cs: seq<Condition>, f: Field)
    requires forall i :: 0 <= i < |cs| ==> cs[i].field == f
    ensures OfField(cs, f) == cs
    decreases |cs|
  {
    if cs != [] {
      OfFieldAll(cs[1..], f);
      assert [cs[0]] + cs[1..] == cs;
    }
  }

  lemma {:induction false} OfFieldNone(cs: seq<Condition>, f: Field)
    requires forall i :: 0 <= i < |cs| ==> cs[i].field != f
    ensures OfField(cs, f) == []
    decreases |cs|
  {
    if cs != [] {
      OfFieldNone(cs[1..], f);
    }
  }

  lemma ViewStep(kw: Dict, n: nat, f: Field)
    requires FilterTyped(kw) && n < 7
    ensures FieldTyped(kw, FieldAt(n))
    ensures OfField(PartsFrom(kw, n), f)
         == OfField(Part(kw, FieldAt(n)), f) + OfField(PartsFrom(kw, n + 1), f)
  {
    FilterTypedAll(kw, FieldAt(n));
    OfFieldAppend(Part(kw, FieldAt(n)), PartsFrom(kw, n + 1), f);
  }

  lemma ViewOwnPart(kw: Dict, n: nat, f: Field)
    requires FilterTyped(kw) && n < 7
    ensures FieldTyped(kw, FieldAt(n))
    ensures FieldAt(n) == f ==> OfField(Part(kw, FieldAt(n)), f) == Part(kw, f)
    ensures FieldAt(n) != f ==> OfField(Part(kw, FieldAt(n)), f) == [] && f.Index() != n
  {
    var g := FieldAt(n);
    FilterTypedAll(kw, g);
    if g == f {
      OfFieldAll(Part(kw, g), f);
    } else {
      OfFieldNone(Part(kw, g), f);
      assert FieldAt(f.Index()) == f;
    }
  }

  lemma {:induction false} PartsFromView(kw: Dict, n: nat, f: Field)
    requires FilterTyped(kw) && n <= 7
    ensures OfField(PartsFrom(kw, n), f) == (if f.Index() >= n then Part(kw, f) else [])
    decreases 7 - n
  {
    if n < 7 {
      ViewStep(kw, n, f);
      ViewOwnPart(kw, n, f);
      PartsFromView(kw, n + 1, f);
    }
  }

  /** Selecting the conditions of one field yields exactly that field's
      contribution, whatever the other fields contributed. */
  lemma FieldView(kw: Dict, f: Field)
    requires FilterTyped(kw)
    ensures OfField(Conditions(kw), f) == Part(kw, f)
  {
    PartsFromView(kw, 0, f);
  }

  predicate InFieldOrder(cs: seq<Condition>) {
    forall i, j :: 0 <= i < j < |cs| ==> cs[i].field.Index() <= cs[j].field.Index()
  }

  lemma {:induction false} PartsFromOrdered(kw: Dict, n: nat)
    requires FilterTyped(kw) && n <= 7
    ensures InFieldOrder(PartsFrom(kw, n))
    ensures forall i :: 0 <= i < |PartsFrom(kw, n)| ==> PartsFrom(kw, n)[i].field.Index() >= n
    decreases 7 - n
  {
    if n < 7 {
      PartsFromOrdered(kw, n + 1);
      FilterTypedAll(kw, FieldAt(n));
      OrderedConcat(Part(kw, FieldAt(n)), PartsFrom(kw, n + 1), n);
    }
  }

  /** One field's conditions followed by later fields' stay in order. */
  lemma OrderedConcat(p: seq<Condition>, rest: seq<Condition>, n: nat)
    requires forall i :: 0 <= i < |p| ==> p[i].field.Index() == n
    requires InFieldOrder(rest)
    requires forall i :: 0 <= i < |rest| ==> rest[i].field.Index() >= n + 1
    ensures InFieldOrder(p + rest)
    ensures forall i :: 0 <= i < |p + rest| ==> (p + rest)[i].field.Index() >= n
  {
    var all := p + rest;
    forall i | 0 <= i < |all| ensures all[i].field.Index() >= n {
      if i >= |p| { assert all[i] == rest[i - |p|]; }
    }
    forall i, j | 0 <= i < j < |all| ensures all[i].field.Index() <= all[j].field.Index() {
      if j < |p| {
      } else if i < |p| {
        assert all[j] == rest[j - |p|];
      } else {
        assert all[i] == rest[i - |p|] && all[j] == rest[j - |p|];
      }
    }
  }

  /** Conditions are emitted in the fixed order title, description_summary,
      price, rating, rating_count, authors (one per name), categories. */
  lemma ConditionsInFieldOrder(kw: Dict)
    requires FilterTyped(kw)
    ensures InFieldOrder(Conditions(kw))
  {
    PartsFromOrdered(kw, 0);
  }

  /** Each text field adds one `MatchText` exactly when it is truthy; `None`
      and `""` add nothing. */
  lemma TextFieldRule(kw: Dict, f: Field)
    requires FilterTyped(kw) && f.IsText()
    ensures var v := Get(kw, f.Name());
      OfField(Conditions(kw), f) == (if Truthy(v) then [MatchText(f, v.s)] else [])
  {
    FieldView(kw, f);
  }

  /** Each numeric field adds one `Range` exactly when its min or its max is
      not `None` (0 counts as present); `gte` is set only from a present min
      and `lte` only from a present max; min > max is passed through. */
  lemma RangeFieldRule(kw: Dict, f: Field)
    requires FilterTyped(kw) && f.IsRange()
    ensures var lo, hi := Get(kw, f.MinKey()), Get(kw, f.MaxKey());
      var cs := OfField(Conditions(kw), f);
      && (|cs| == 1 <==> !lo.Null? || !hi.Null?)
      && (cs == [] <==> lo.Null? && hi.Null?)
      && (|cs| == 1 ==>
            && cs[0].Range?
            && (cs[0].gte.Some? <==> !lo.Null?) && (cs[0].gte.Some? ==> cs[0].gte.value == lo)
            && (cs[0].lte.Some? <==> !hi.Null?) && (cs[0].lte.Some? ==> cs[0].lte.value == hi))
  {
    FieldView(kw, f);
  }

  /** Every author name adds its own `MatchText` (authors are ANDed), a lone
      string counting as a one-name list; categories add exactly one
      `MatchAny` with the whole list. Falsy values add nothing. */
  lemma NameFieldRules(kw: Dict)
    requires FilterTyped(kw)
    ensures var a := Get(kw, "authors");
      var cs := OfField(Conditions(kw), Authors);
      && (!Truthy(a) ==> cs == [])
      && (Truthy(a) ==>
            && |cs| == |Names(a)|
            && forall i :: 0 <= i < |cs| ==> cs[i] == MatchText(Authors, Names(a)[i]))
      && (a.Str? && a.s != "" ==> cs == [MatchText(Authors, a.s)])
    ensures var c := Get(kw, "categories");
      OfField(Conditions(kw), Categories)
        == (if Truthy(c) then [MatchAny(Categories, Names(c))] else [])
  {
    assert FieldTyped(kw, Authors) && FieldTyped(kw, Categories);
    FieldView(kw, Authors);
    FieldView(kw, Categories);
  }

  /** A structured query asking for books under 10 dollars by one author;
      `rewrite_query` contributes no condition. */
  function ExampleKw(): Dict {
    map["price_max" := Real(10.0), "authors" := List([Str("J.K. Rowling")]),
        "rewrite_query" := Str("Fantasy novel")]
  }

  lemma ExampleKwTyped()
    ensures FilterTyped(ExampleKw())
  {
    var kw := ExampleKw();
    assert Get(kw, "authors") == List([Str("J.K. Rowling")]);
    assert Get(kw, "price_min") == Null && Get(kw, "price_max") == Real(10.0);
  }

  lemma ExampleKwAbsent()
    ensures !Present(ExampleKw(), Title) && !Present(ExampleKw(), DescriptionSummary)
    ensures !Present(ExampleKw(), Rating) && !Present(ExampleKw(), RatingCount)
    ensures !Present(ExampleKw(), Categories)
  {
  }

  lemma ExampleKwFields()
    ensures FilterTyped(ExampleKw())
    ensures !Present(ExampleKw(), Title) && !Present(ExampleKw(), DescriptionSummary)
    ensures !Present(ExampleKw(), Rating) && !Present(ExampleKw(), RatingCount)
    ensures !Present(ExampleKw(), Categories)
    ensures Part(ExampleKw(), Authors) == [MatchText(Authors, "J.K. Rowling")]
    ensures Part(ExampleKw(), Price) == [Range(Price, None, Some(Real(10.0)))]
  {
    ExampleKwTyped();
    ExampleKwAbsent();
    var kw := ExampleKw();
    assert Get(kw, "authors") == List([Str("J.K. Rowling")]);
    assert Get(kw, "price_min") == Null && Get(kw, "price_max") == Real(10.0);
    assert AuthorParts(kw) == [MatchText(Authors, "J.K. Rowling")];
  }

  /** "Fantasy novels by J.K. Rowling under 10": the price bound comes first
      and the author match second, whatever order the keywords were given in. */
  lemma PriceAndAuthorExample()
    ensures FilterTyped(ExampleKw())
    ensures BuildFilter(ExampleKw())
         == Must([Range(Price, None, Some(Real(10.0))), MatchText(Authors, "J.K. Rowling")])
  {
    var kw := ExampleKw();
    ExampleKwFields();
    var a := [MatchText(Authors, "J.K. Rowling")];
    var r := [Range(Price, None, Some(Real(10.0)))];
    assert PartsFrom(kw, 5) == a;
    assert PartsFrom(kw, 4) == a;
    assert PartsFrom(kw, 3) == a;
    assert PartsFrom(kw, 2) == r + a;
    assert PartsFrom(kw, 0) == r + a;
  }
}

=== FILE: json.dfy ===
/** JSON-shaped values as the search engine sees them: Python keyword
    arguments, the extractor's dictionary, cached Redis entries (stored as
    JSON and read back) and the orchestrator's result dictionary. */
module Json {

  datatype Value =
    | Null
    | Int(i: int)
    | Real(r: real)
    | Str(s: string)
    | List(items: seq<Value>)
    | Obj(fields: map<string, Value>)

  /** A Python dictionary with string keys (insertion order is irrelevant
      everywhere except in the result-cache key, which sorts the keys). */
  type Dict = map<string, Value>

  /** Python truthiness: `None`, `0`, `0.0`, `""`, `[]` and `{}` are falsy. */
  predicate Truthy(v: Value) {
    match v
    case Null => false
    case Int(i) => i != 0
    case Real(r) => r != 0.0
    case Str(s) => s != ""
    case List(xs) => xs != []
    case Obj(m) => m != map[]
  }

  /** `d.get(k)`: `None` when the key is absent. */
  function Get(d: Dict, k: string): (v: Value)
    ensures k !in d ==> v == Null
    ensures k in d ==> v == d[k]
  {
    if k in d then d[k] else Null
  }

  predicate IsNumber(v: Value) {
    v.Int? || v.Real?
  }
}

=== FILE: order_service.dfy ===
/** `OrderService`: placing an order from a list of product ids, listing
    orders page by page (newest first), and cancelling. Order and item ids
    the database generates are parameters. */
module OrderService {
  import opened Common
  import opened Shop

  /** The status a new order is saved with. */
  const Success: string := "Success"

  /** The status `cancelOrder` writes ("cancelled" in Vietnamese). */
  const Cancelled: string := "\U{0110}\U{00E3} h\U{1EE7}y"

  /** The products of `user`'s earlier orders: none of them may be ordered
      again. */
  function OrderedBefore(orders: seq<Order>, user: Id): (s: set<Id>)
    ensures forall o, it :: o in orders && o.user == user && it in o.items ==> it.product in s
    ensures forall p :: p in s ==> exists o, it :: o in orders && o.user == user && it in o.items && it.product == p
  {
    set o, it | o in orders && o.user == user && it in o.items :: it.product
  }

  /** Why item `id` is refused, if it is. */
  function ItemFailure(id: Id, products: map<Id, Product>, existed: set<Id>): Option<Failure> {
    if id !in products then Some(ProductNotFound(id))
    else if id in existed then Some(AlreadyOrdered(products[id].title))
    else None
  }

  /** The loop over the requested items: the first refused item decides
      the error; otherwise each item is priced at its product's price. */
  function CheckItems(items: seq<Id>, products: map<Id, Product>, existed: set<Id>): (r: Result<seq<OrderItem>, Failure>)
    ensures r.Ok? <==> forall i :: 0 <= i < |items| ==> ItemFailure(items[i], products, existed).None?
    ensures r.Ok? ==> |r.value| == |items|
    ensures r.Ok? ==> forall i :: 0 <= i < |items| ==> r.value[i] == OrderItem(items[i], products[items[i]].price)
    ensures r.Err? ==>
      exists i ::
        && 0 <= i < |items|
        && (forall j :: 0 <= j < i ==> ItemFailure(items[j], products, existed).None?)
        && ItemFailure(items[i], products, existed) == Some(r.error)
  {
    if items == [] then Ok([])
    else match ItemFailure(items[0], products, existed)
      case Some(f) => Err(f)
      case None =>
        var rest := CheckItems(items[1..], products, existed);
        if rest.Err? then
          var i :| 0 <= i < |items| - 1
            && (forall j :: 0 <= j < i ==> ItemFailure(items[1..][j], products, existed).None?)
            && ItemFailure(items[1..][i], products, existed) == Some(rest.error);
          assert forall j :: 0 <= j < i + 1 ==> ItemFailure(items[j], products, existed).None? by {
            forall j | 0 <= j < i + 1 ensures ItemFailure(items[j], products, existed).None? {
              if j > 0 { assert items[j] == items[1..][j - 1]; }
            }
          }
          Err(rest.error)
        else Ok([OrderItem(items[0], products[items[0]].price)] + rest.value)
  }

  function Prices(items: seq<OrderItem>): (ps: seq<real>)
    ensures |ps| == |items| && forall i :: 0 <= i < |items| ==> ps[i] == items[i].price
  {
    seq(|items|, i requires 0 <= i < |items| => items[i].price)
  }

  function ItemProducts(items: seq<OrderItem>): (ps: seq<Id>)
    ensures |ps| == |items| && forall i :: 0 <= i < |items| ==> ps[i] == items[i].product
  {
    seq(|items|, i requires 0 <= i < |items| => items[i].product)
  }

  /** The cart items that stay after an order of `ordered`. */
  function KeepUnordered(items: seq<CartItem>, ordered: seq<Id>): (r: seq<CartItem>)
    ensures forall ci :: ci in r <==> ci in items && ci.product !in ordered
    ensures |r| <= |items|
  {
    if items == [] then []
    else if items[0].product in ordered then KeepUnordered(items[1..], ordered)
    else [items[0]] + KeepUnordered(items[1..], ordered)
  }

  /** The requested product ids; a missing or empty list is refused. */
  function Requested(items: Option<seq<Id>>): seq<Id> {
    if items.Some? then items.value else []
  }

  /** `createOrder`: the user must exist, the request must list an item,
      and every item must be a known product not ordered before by this
      user. The order totals its items' prices, is saved as `'Success'`
      ahead of the older orders, and its products leave the user's cart.
      A refused order writes nothing. */
  function CreateOrder(db: Db, user: Id, items: Option<seq<Id>>, newOrderId: Id): (o: Outcome<Order>)
    ensures user !in db.users ==> o == Outcome(Err(UserNotFound(user)), db)
    ensures user in db.users && Requested(items) == [] ==> o == Outcome(Err(NoItems), db)
    ensures o.result.Err? ==> o.db == db
    ensures o.result.Err? && user in db.users && Requested(items) != [] ==>
      CheckItems(Requested(items), db.products, OrderedBefore(db.orders, user)) == Err(o.result.error)
    ensures o.result.Ok? ==>
      var order := o.result.value;
      && user in db.users
      && order.id == newOrderId && order.user == user && order.status == Success
      && ItemProducts(order.items) == Requested(items) != []
      && CheckItems(Requested(items), db.products, OrderedBefore(db.orders, user)) == Ok(order.items)
      && (forall it :: it in order.items ==>
            && it.product in db.products && it.product !in OrderedBefore(db.orders, user)
            && it.price == db.products[it.product].price)
      && order.totalAmount == SumReals(Prices(order.items))
      && o.db.orders == [order] + db.orders
      && o.db.users == db.users && o.db.products == db.products
      && o.db.carts.Keys == db.carts.Keys
      && (forall u :: u in db.carts && u != user ==> o.db.carts[u] == db.carts[u])
      && (user in db.carts ==>
            && o.db.carts[user].id == db.carts[user].id
            && forall ci :: ci in o.db.carts[user].items
                 <==> ci in db.carts[user].items && ci.product !in Requested(items))
  {
    if user !in db.users then Outcome(Err(UserNotFound(user)), db)
    else if Requested(items) == [] then Outcome(Err(NoItems), db)
    else
      var wanted := Requested(items);
      match CheckItems(wanted, db.products, OrderedBefore(db.orders, user))
      case Err(f) => Outcome(Err(f), db)
      case Ok(orderItems) =>
        assert ItemProducts(orderItems) == wanted;
        var order := Order(newOrderId, user, Success, SumReals(Prices(orderItems)), orderItems);
        var carts := if user in db.carts
          then db.carts[user := Cart(db.carts[user].id, KeepUnordered(db.carts[user].items, wanted))]
          else db.carts;
        Outcome(Ok(order), db.(orders := [order] + db.orders, carts := carts))
  }

  /** Once ordered, a product cannot be ordered again by the same user. */
  lemma NoSecondOrder(db: Db, user: Id, items: Option<seq<Id>>, newOrderId: Id,
                      again: seq<Id>, laterId: Id)
    requires CreateOrder(db, user, items, newOrderId).result.Ok?
    requires again != [] && exists i :: 0 <= i < |again| && again[i] in Requested(items)
    ensures var after := CreateOrder(db, user, items, newOrderId).db;
      CreateOrder(after, user, Some(again), laterId).result.Err?
  {
    var o := CreateOrder(db, user, items, newOrderId);
    var order := o.result.value;
    var i :| 0 <= i < |again| && again[i] in Requested(items);
    var k :| 0 <= k < |order.items| && ItemProducts(order.items)[k] == again[i];
    assert order.items[k] in order.items && order in o.db.orders;
    assert again[i] in OrderedBefore(o.db.orders, user);
    assert ItemFailure(again[i], o.db.products, OrderedBefore(o.db.orders, user)).Some?;
    assert CheckItems(again, o.db.products, OrderedBefore(o.db.orders, user)).Err?;
    assert Requested(Some(again)) == again;
  }

  /** Repeating a product inside one request is not checked. */
  lemma RepeatInOneRequestAccepted(p: Id, products: map<Id, Product>, existed: set<Id>)
    requires p in products && p !in existed
    ensures CheckItems([p, p], products, existed).Ok?
  {
    assert ItemFailure([p, p][0], products, existed).None?;
    assert ItemFailure([p, p][1], products, existed).None?;
  }

  /** The position of the order with id `id`. */
  function FindOrder(orders: seq<Order>, id: Id): (k: Option<nat>)
    ensures k.Some? ==> k.value < |orders| && orders[k.value].id == id
    ensures k.Some? ==> forall i :: 0 <= i < k.value ==> orders[i].id != id
    ensures k.None? ==> forall i :: 0 <= i < |orders| ==> orders[i].id != id
  {
    if orders == [] then None
    else if orders[0].id == id then Some(0)
    else
      var k := FindOrder(orders[1..], id);
      if k.Some? then
        assert forall i :: 1 <= i < k.value + 1 ==> orders[i].id == orders[1..][i - 1].id;
        Some(k.value + 1)
      else
        assert forall i :: 1 <= i < |orders| ==> orders[i].id == orders[1..][i - 1].id;
        None
  }

  /** `cancelOrder`: an unknown order is `NotFound`, a cancelled one
      `BadRequest`; otherwise only its status changes. */
  function CancelOrder(db: Db, id: Id): (o: Outcome<Order>)
    ensures (forall i :: 0 <= i < |db.orders| ==> db.orders[i].id != id) ==>
      o == Outcome(Err(OrderNotFound), db)
    ensures o.result.Err? ==> o.db == db
    ensures o.result.Ok? ==>
      exists k ::
        && 0 <= k < |db.orders|
        && db.orders[k].id == id && db.orders[k].status != Cancelled
        && o.result.value == db.orders[k].(status := Cancelled)
        && o.db == db.(orders := db.orders[k := o.result.value])
    ensures o.result == Err(AlreadyCancelled) ==>
      exists k :: 0 <= k < |db.orders| && db.orders[k].id == id && db.orders[k].status == Cancelled
    ensures FindOrder(db.orders, id).Some? ==>
      var k := FindOrder(db.orders, id).value;
      && (db.orders[k].status == Cancelled <==> o.result == Err(AlreadyCancelled))
      && (db.orders[k].status != Cancelled ==> o.result.Ok? && o.result.value.id == id)
  {
    match FindOrder(db.orders, id)
    case None => Outcome(Err(OrderNotFound), db)
    case Some(k) =>
      var order := db.orders[k];
      if order.status == Cancelled then Outcome(Err(AlreadyCancelled), db)
      else
        var cancelled := order.(status := Cancelled);
        Outcome(Ok(cancelled), db.(orders := db.orders[k := cancelled]))
  }

  /** Cancelling is not repeatable. */
  lemma CancelTwiceRefused(db: Db, id: Id)
    requires CancelOrder(db, id).result.Ok?
    ensures var after := CancelOrder(db, id).db;
      CancelOrder(after, id).result == Err(AlreadyCancelled)
  {
    var after := CancelOrder(db, id).db;
    var k := FindOrder(db.orders, id).value;
    assert after.orders == db.orders[k := db.orders[k].(status := Cancelled)];
    var f := FindOrder(after.orders, id);
    assert after.orders[k].id == id;
    assert f.Some?;
    assert f.value == k;
  }

  /** The orders of `user`, newest first. */
  function OrdersOf(orders: seq<Order>, user: Id): (r: seq<Order>)
    ensures |r| <= |orders|
  {
    if orders == [] then []
    else if orders[0].user == user then [orders[0]] + OrdersOf(orders[1..], user)
    else OrdersOf(orders[1..], user)
  }

  /** The selection holds exactly the user's orders. */
  lemma {:induction false} OrdersOfMembers(orders: seq<Order>, user: Id)
    ensures forall o :: o in OrdersOf(orders, user) <==> o in orders && o.user == user
    decreases |orders|
  {
    if orders != [] {
      OrdersOfMembers(orders[1..], user);
      assert orders == [orders[0]] + orders[1..];
    }
  }

  /** Selecting a user's orders keeps their relative order: the selection
      of a concatenation is the concatenation of the selections. */
  lemma {:induction false} OrdersOfAppend(a: seq<Order>, b: seq<Order>, user: Id)
    ensures OrdersOf(a + b, user) == OrdersOf(a, user) + OrdersOf(b, user)
    decreases |a|
  {
    if a == [] {
      assert a + b == b;
    } else {
      OrdersOfAppend(a[1..], b, user);
      OrdersOfCons(a[0], a[1..] + b, user);
      OrdersOfCons(a[0], a[1..], user);
      assert [a[0]] + (a[1..] + b) == a + b;
      assert [a[0]] + a[1..] == a;
    }
  }

  /** One step of the selection: the first order is kept exactly when it
      is the user's. */
  lemma OrdersOfCons(o: Order, rest: seq<Order>, user: Id)
    ensures OrdersOf([o] + rest, user) == (if o.user == user then [o] else []) + OrdersOf(rest, user)
  {
    assert ([o] + rest)[1..] == rest;
  }

  /** `findAndCount` with `skip: offset, take: limit`. */
  function Window(orders: seq<Order>, page: int, limit: int): (w: seq<Order>)
    requires ValidPaging(page, limit)
    ensures w == JsSlice(orders, Offset(page, limit), Offset(page, limit) + limit)
    ensures |w| <= limit
  {
    OffsetNext(page, limit);
    var o := Offset(page, limit);
    SliceFromZero(orders, o, o + limit);
    orders[Clamp(o, |orders|)..Clamp(o + limit, |orders|)]
  }

  /** `getOrdersByUser`: an unknown user and an empty page are both
      `NotFound`. */
  function GetOrdersByUser(db: Db, user: Id, page: int, limit: int): (r: Result<Paged<Order>, Failure>)
    requires ValidPaging(page, limit)
    ensures user !in db.users ==> r == Err(UserNotFound(user))
    ensures user in db.users && Window(OrdersOf(db.orders, user), page, limit) == [] ==> r == Err(NoOrders)
    ensures user in db.users && Window(OrdersOf(db.orders, user), page, limit) != [] ==> r.Ok?
    ensures r.Ok? ==>
      var mine := OrdersOf(db.orders, user);
      && r.value.data == Window(mine, page, limit) != []
      && r.value.total == |mine| && r.value.totalPages == CeilDiv(|mine|, limit)
      && r.value.page == page && r.value.limit == limit
  {
    if user !in db.users then Err(UserNotFound(user))
    else
      var mine := OrdersOf(db.orders, user);
      var data := Window(mine, page, limit);
      if data == [] then Err(NoOrders)
      else Ok(Paged(|mine|, page, limit, CeilDiv(|mine|, limit), data))
  }

  /** `getAllOrders`: never fails; an empty page is an ordinary answer. */
  function GetAllOrders(db: Db, page: int, limit: int): (r: Paged<Order>)
    requires ValidPaging(page, limit)
    ensures r.data == Window(db.orders, page, limit)
    ensures r.total == |db.orders| && r.totalPages == CeilDiv(|db.orders|, limit)
    ensures r.totalPages * limit >= r.total
  {
    Paged(|db.orders|, page, limit, CeilDiv(|db.orders|, limit), Window(db.orders, page, limit))
  }

  /** A new order heads its user's first page. */
  lemma NewOrderListedFirst(db: Db, user: Id, items: Option<seq<Id>>, newOrderId: Id, limit: int)
    requires limit >= 1
    requires CreateOrder(db, user, items, newOrderId).result.Ok?
    ensures var o := CreateOrder(db, user, items, newOrderId);
      var r := GetOrdersByUser(o.db, user, 1, limit);
      r.Ok? && r.value.data[0] == o.result.value
  {
    var o := CreateOrder(db, user, items, newOrderId);
    var mine := OrdersOf(o.db.orders, user);
    assert o.db.orders[0] == o.result.value;
    assert mine == [o.result.value] + OrdersOf(db.orders, user);
    assert Window(mine, 1, limit)[0] == mine[0];
  }

  /** The pages of `getAllOrders` cover the order list: order `i` is entry
      `i % limit` of page `i / limit + 1`. */
  lemma OrderOnItsPage(db: Db, limit: int, i: nat)
    requires limit >= 1 && i < |db.orders|
    ensures var r := GetAllOrders(db, i / limit + 1, limit);
      i % limit < |r.data| && r.data[i % limit] == db.orders[i]
  {
    var page := i / limit + 1;
    var lo := Offset(page, limit);
    assert lo == (i / limit) * limit;
    assert lo + i % limit == i;
    OffsetNext(page, limit);
    SliceFromZero(db.orders, lo, lo + limit);
  }

  /** Consecutive pages of `getAllOrders` continue each other. */
  lemma AllOrdersPagesTile(db: Db, limit: int, n: int)
    requires ValidPaging(n, limit)
    requires Offset(n + 1, limit) <= |db.orders|
    ensures GetAllOrders(db, n, limit).data + GetAllOrders(db, n + 1, limit).data
         == db.orders[Offset(n, limit)..Clamp(Offset(n + 1, limit) + limit, |db.orders|)]
  {
    var u := db.orders;
    var a, b := Offset(n, limit), Offset(n + 1, limit);
    OffsetNext(n, limit);
    var hi := Clamp(b + limit, |u|);
    SliceFromZero(u, a, b);
    SliceFromZero(u, b, b + limit);
    assert u[a..hi] == u[a..b] + u[b..hi];
  }

  /** The HTTP answers of the order endpoints: a missing user, product,
      order or page of orders is a 404; an empty request, a product ordered
      before and a second cancel are 400s. */
  lemma OrderStatuses(db: Db, user: Id, items: Option<seq<Id>>, newOrderId: Id, id: Id,
                      page: int, limit: int)
    requires ValidPaging(page, limit)
    ensures var c := CreateOrder(db, user, items, newOrderId).result;
      c.Err? ==> HttpStatus(c.error) == (if c.error.NoItems? || c.error.AlreadyOrdered? then 400 else 404)
    ensures var k := CancelOrder(db, id).result;
      k.Err? ==> HttpStatus(k.error) == (if k.error == AlreadyCancelled then 400 else 404)
    ensures var g := GetOrdersByUser(db, user, page, limit);
      g.Err? ==> HttpStatus(g.error) == 404
  {
    var c := CreateOrder(db, user, items, newOrderId).result;
    if c.Err? && user in db.users && Requested(items) != [] {
      var i :| 0 <= i < |Requested(items)|
        && ItemFailure(Requested(items)[i], db.products, OrderedBefore(db.orders, user)) == Some(c.error);
    }
  }
}

=== FILE: page_window.dfy ===
/** `PageWindow`: the rows of page buttons the frontends render under a
    paged list, and the previous/next guards. Three renderers are modelled:
    `getPageNumbers` of the two product catalogues (the same code over
    `totalPages` and over `pageCount`), `getPaginationItems` of the cart,
    and the inline `showPage` rule of the admin data table. */
module PageWindow {

  /** A page link (marked active or not) or an ellipsis. */
  datatype Button = Link(page: int, active: bool) | Ellipsis

  /** Links to the pages `lo..hi`, the one equal to `c` active. */
  function Links(lo: int, hi: int, c: int): (r: seq<Button>)
    ensures |r| == (if lo <= hi then hi - lo + 1 else 0)
    ensures forall i :: 0 <= i < |r| ==> r[i] == Link(lo + i, lo + i == c)
  {
    seq(if lo <= hi then hi - lo + 1 else 0, i => Link(lo + i, lo + i == c))
  }

  /** Page 1, an optional ellipsis, the pages `lo..hi`, an optional
      ellipsis, and page `n`: the shape every renderer produces for more
      than a handful of pages, written position by position. */
  function Window(c: int, n: int, lo: int, hi: int, lead: bool, trail: bool): (r: seq<Button>)
    ensures |r| == WindowEnd(lo, hi, lead) + (if trail then 2 else 1)
  {
    seq(WindowEnd(lo, hi, lead) + (if trail then 2 else 1), k => WindowAt(c, n, lo, hi, lead, trail, k))
  }

  /** The position after the middle links. */
  function WindowEnd(lo: int, hi: int, lead: bool): nat {
    (if lead then 2 else 1) + (if lo <= hi then hi - lo + 1 else 0)
  }

  function WindowAt(c: int, n: int, lo: int, hi: int, lead: bool, trail: bool, k: int): Button {
    var start := if lead then 2 else 1;
    if k == 0 then Link(1, c == 1)
    else if k < start then Ellipsis
    else if k < WindowEnd(lo, hi, lead) then Link(lo + k - start, lo + k - start == c)
    else if k == WindowEnd(lo, hi, lead) && trail then Ellipsis
    else Link(n, c == n)
  }

  /** The window's parameters make a row that reads correctly: the middle
      pages lie strictly between the first and the last page, an ellipsis
      follows page 1 exactly when pages `2..lo-1` are skipped and precedes
      page `n` exactly when pages `hi+1..n-1` are skipped, and a row
      without middle pages has one ellipsis exactly when something lies
      between page 1 and page `n`. */
  predicate ProperWindow(n: int, lo: int, hi: int, lead: bool, trail: bool) {
    && n > 1
    && (lo <= hi ==> 2 <= lo && hi <= n - 1 && (lead <==> lo > 2) && (trail <==> hi < n - 1))
    && (lo > hi ==> !(lead && trail) && ((lead || trail) <==> n > 2))
  }

  /** Link pages strictly increase along the row. */
  predicate Increasing(r: seq<Button>) {
    forall i, j :: 0 <= i < j < |r| && r[i].Link? && r[j].Link? ==> r[i].page < r[j].page
  }

  /** The row starts with page 1 and ends with page `n`. */
  predicate FirstAndLast(r: seq<Button>, n: int) {
    |r| >= 1 && r[0].Link? && r[0].page == 1 && r[|r| - 1].Link? && r[|r| - 1].page == n
  }

  /** Exactly the link to the current page is marked active. */
  predicate ActiveIsCurrent(r: seq<Button>, c: int) {
    forall i :: 0 <= i < |r| && r[i].Link? ==> (r[i].active <==> r[i].page == c)
  }

  /** The row has a link to page `c`. */
  predicate Shows(r: seq<Button>, c: int) {
    exists i :: 0 <= i < |r| && r[i] == Link(c, true)
  }

  /** Everything a proper window promises. */
  predicate ReadsCorrectly(r: seq<Button>, n: int, c: int) {
    && FirstAndLast(r, n) && Increasing(r) && ActiveIsCurrent(r, c)
    && (1 <= c <= n ==> Shows(r, c))
  }

  lemma WindowIncreasing(c: int, n: int, lo: int, hi: int, lead: bool, trail: bool)
    requires ProperWindow(n, lo, hi, lead, trail)
    ensures Increasing(Window(c, n, lo, hi, lead, trail))
  {
  }

  /** A proper window whose middle takes in the current page (when that
      page is neither the first nor the last) reads correctly. */
  lemma WindowReadsCorrectly(c: int, n: int, lo: int, hi: int, lead: bool, trail: bool)
    requires ProperWindow(n, lo, hi, lead, trail)
    requires 1 < c < n ==> lo <= c <= hi
    ensures ReadsCorrectly(Window(c, n, lo, hi, lead, trail), n, c)
  {
    var r := Window(c, n, lo, hi, lead, trail);
    WindowIncreasing(c, n, lo, hi, lead, trail);
    if 1 <= c <= n {
      if lo <= c <= hi {
        assert r[(if lead then 2 else 1) + c - lo] == Link(c, true);
      } else if c == n {
        assert r[|r| - 1] == Link(c, true);
      } else {
        assert r[0] == Link(c, true);
      }
    }
  }

  // ---------------------------------------------------------------------
  // The product catalogues' getPageNumbers

  const MaxVisiblePages: int := 5

  /** Links to every page `1..n` read correctly. */
  lemma AllPages(c: int, n: int)
    requires n >= 1
    ensures ReadsCorrectly(Links(1, n, c), n, c)
  {
    if 1 <= c <= n {
      assert Links(1, n, c)[c - 1] == Link(c, true);
    }
  }

  /** `getPageNumbers` for current page `c` of `total`. */
  function PageNumbers(c: int, total: int): (r: seq<Button>)
    ensures total <= MaxVisiblePages ==>
      |r| == (if total < 0 then 0 else total) && forall i :: 0 <= i < |r| ==> r[i] == Link(i + 1, i + 1 == c)
    ensures total >= 1 ==> ReadsCorrectly(r, total, c)
    ensures |r| <= 7
  {
    if total <= MaxVisiblePages then
      if total >= 1 then AllPages(c, total); Links(1, total, c)
      else Links(1, total, c)
    else if c <= 3 then
      WindowReadsCorrectly(c, total, 2, 4, false, true);
      Window(c, total, 2, 4, false, true)
    else if c >= total - 2 then
      WindowReadsCorrectly(c, total, total - 3, total - 1, true, false);
      Window(c, total, total - 3, total - 1, true, false)
    else
      WindowReadsCorrectly(c, total, c - 1, c + 1, true, true);
      Window(c, total, c - 1, c + 1, true, true)
  }

  /** With more than five pages the row is page 1, the four pages at the
      near end or the three around the current page, and the last page,
      with an ellipsis for each run of skipped pages. */
  lemma PageNumbersCases(c: int, total: int)
    requires total > MaxVisiblePages
    ensures var r := PageNumbers(c, total);
      c <= 3 ==>
        && |r| == 6 && r[4] == Ellipsis && r[5].Link? && r[5].page == total
        && forall i :: 0 <= i < 4 ==> r[i].Link? && r[i].page == i + 1
    ensures var r := PageNumbers(c, total);
      3 < c && c >= total - 2 ==>
        && |r| == 6 && r[0].Link? && r[0].page == 1 && r[1] == Ellipsis
        && forall i :: 2 <= i < 6 ==> r[i].Link? && r[i].page == total - 5 + i
    ensures var r := PageNumbers(c, total);
      3 < c < total - 2 ==>
        && |r| == 7 && r[0].Link? && r[0].page == 1 && r[1] == Ellipsis && r[5] == Ellipsis
        && r[6].Link? && r[6].page == total
        && forall i :: 2 <= i < 5 ==> r[i].Link? && r[i].page == c - 3 + i
  {
  }

  // ---------------------------------------------------------------------
  // The cart's getPaginationItems

  function Max(a: int, b: int): int { if a >= b then a else b }
  function Min(a: int, b: int): int { if a <= b then a else b }

  /** `getPaginationItems` for current page `c` of `n`. */
  function CartItems(c: int, n: int): (r: seq<Button>)
    ensures n <= 5 ==>
      |r| == (if n < 0 then 0 else n) && forall i :: 0 <= i < |r| ==> r[i] == Link(i + 1, i + 1 == c)
    ensures n >= 1 ==> ReadsCorrectly(r, n, c)
  {
    if n <= 5 then
      if n >= 1 then AllPages(c, n); Links(1, n, c)
      else Links(1, n, c)
    else
      var start := if c == n then n - 2 else Max(2, c - 1);
      var end := if c == 1 then 3 else Min(n - 1, c + 1);
      WindowReadsCorrectly(c, n, start, end, c > 3, c < n - 2);
      Window(c, n, start, end, c > 3, c < n - 2)
  }

  /** With more than five pages the cart puts an ellipsis after page 1
      exactly when the current page is past 3, and one before the last page
      exactly when it is more than two pages from the end. */
  lemma CartEllipses(c: int, n: int)
    requires n > 5 && 1 <= c <= n
    ensures var r := CartItems(c, n);
      && (r[1] == Ellipsis <==> c > 3)
      && (r[|r| - 2] == Ellipsis <==> c < n - 2)
  {
  }

  /** Between its first and last page the cart shows the pages next to the
      current one, widened to three pages on the first and on the last page. */
  lemma CartMiddle(c: int, n: int)
    requires n > 5 && 1 <= c <= n
    ensures var r := CartItems(c, n);
      var lead := if c > 3 then 1 else 0;
      var lo := if c == n then n - 2 else Max(2, c - 1);
      var hi := if c == 1 then 3 else Min(n - 1, c + 1);
      && (c == 1 || c == n ==> hi - lo == 1)
      && (1 < c < n ==> lo == Max(2, c - 1) && hi == Min(n - 1, c + 1))
      && r[1 + lead..2 + lead + hi - lo] == Links(lo, hi, c)
  {
  }

  // ---------------------------------------------------------------------
  // The admin data table's showPage rule

  /** `showPage`: the first and last pages and the neighbours of the
      current one get a link. */
  predicate ShowPage(c: int, n: int, p: int) {
    p == 1 || p == n || (c - 1 <= p <= c + 1)
  }

  /** What page `p` contributes to the row: its link, an ellipsis two
      pages away from the current one, or nothing. */
  function Slot(c: int, n: int, p: int): (r: seq<Button>)
    ensures ShowPage(c, n, p) <==> r == [Link(p, p == c)]
    ensures !ShowPage(c, n, p) ==> (r == [Ellipsis] <==> p == c - 2 || p == c + 2)
    ensures !ShowPage(c, n, p) && p != c - 2 && p != c + 2 ==> r == []
  {
    if ShowPage(c, n, p) then [Link(p, p == c)]
    else if p == c - 2 || p == c + 2 then [Ellipsis]
    else []
  }

  /** The slots of the pages `lo..hi`, in order. */
  function Slots(c: int, n: int, lo: int, hi: int): seq<Button>
    decreases hi - lo + 1
  {
    if lo > hi then [] else Slot(c, n, lo) + Slots(c, n, lo + 1, hi)
  }

  lemma {:induction false} SlotsSplit(c: int, n: int, lo: int, mid: int, hi: int)
    requires lo <= mid <= hi + 1
    ensures Slots(c, n, lo, hi) == Slots(c, n, lo, mid - 1) + Slots(c, n, mid, hi)
    decreases mid - lo
  {
    if lo < mid {
      SlotsSplit(c, n, lo + 1, mid, hi);
    }
  }

  lemma {:induction false} SlotsShown(c: int, n: int, lo: int, hi: int)
    requires forall p :: lo <= p <= hi ==> ShowPage(c, n, p)
    ensures Slots(c, n, lo, hi) == Links(lo, hi, c)
    decreases hi - lo + 1
  {
    if lo <= hi {
      SlotsShown(c, n, lo + 1, hi);
      assert Links(lo, hi, c) == [Link(lo, lo == c)] + Links(lo + 1, hi, c);
    }
  }

  /** Page `p` contributes nothing to the row. */
  predicate Hidden(c: int, n: int, p: int) {
    !ShowPage(c, n, p) && p != c - 2 && p != c + 2
  }

  lemma {:induction false} SlotsHidden(c: int, n: int, lo: int, hi: int)
    requires forall p :: lo <= p <= hi ==> Hidden(c, n, p)
    ensures Slots(c, n, lo, hi) == []
    decreases hi - lo + 1
  {
    if lo <= hi {
      assert Hidden(c, n, lo);
      SlotsHidden(c, n, lo + 1, hi);
    }
  }

  /** The data table's row for current page `c` of `n`. */
  function TableButtons(c: int, n: int): seq<Button> {
    Slots(c, n, 1, n)
  }

  /** Between page 1 and the pages around `c`: an ellipsis for page `c - 2`
      when it is not page 1. */
  lemma TableHead(c: int, n: int)
    requires 2 <= n && 1 <= c <= n
    ensures Slots(c, n, 2, Max(2, c - 1) - 1) == (if c >= 4 then [Ellipsis] else [])
  {
    if c >= 4 {
      SlotsSplit(c, n, 2, c - 2, c - 2);
      SlotsHidden(c, n, 2, c - 3);
      assert Slots(c, n, c - 2, c - 2) == Slot(c, n, c - 2) + Slots(c, n, c - 1, c - 2);
    }
  }

  /** Between the pages around `c` and page `n`: an ellipsis for page
      `c + 2` when it is not page `n`. */
  lemma TableTail(c: int, n: int)
    requires 2 <= n && 1 <= c <= n
    ensures Slots(c, n, Min(n - 1, c + 1) + 1, n - 1) == (if c + 2 < n then [Ellipsis] else [])
  {
    if c + 2 < n {
      SlotsSplit(c, n, c + 2, c + 3, n - 1);
      SlotsHidden(c, n, c + 3, n - 1);
      assert Slots(c, n, c + 2, c + 2) == Slot(c, n, c + 2) + Slots(c, n, c + 3, c + 2);
    }
  }

  /** The five parts of a window, joined. */
  function Joined(c: int, n: int, lo: int, hi: int, lead: bool, trail: bool): seq<Button> {
    [Link(1, c == 1)] + ((if lead then [Ellipsis] else []) + (Links(lo, hi, c)
      + ((if trail then [Ellipsis] else []) + [Link(n, c == n)])))
  }

  lemma JoinedIsWindow(c: int, n: int, lo: int, hi: int, lead: bool, trail: bool)
    ensures Joined(c, n, lo, hi, lead, trail) == Window(c, n, lo, hi, lead, trail)
  {
    var j := Joined(c, n, lo, hi, lead, trail);
    var w := Window(c, n, lo, hi, lead, trail);
    var a := if lead then 2 else 1;
    var e := WindowEnd(lo, hi, lead);
    assert forall k :: a <= k < e ==> j[k] == Links(lo, hi, c)[k - a];
    assert forall k :: 0 <= k < |w| ==> j[k] == w[k];
  }

  /** For a current page in range the table renders page 1, an ellipsis if
      page `c - 2` is hidden, the pages around `c`, an ellipsis if page
      `c + 2` is hidden, and the last page. */
  lemma {:induction false} TableClosedForm(c: int, n: int)
    requires 2 <= n && 1 <= c <= n
    ensures TableButtons(c, n) == Window(c, n, Max(2, c - 1), Min(n - 1, c + 1), c >= 4, c + 2 < n)
  {
    var lo := Max(2, c - 1);
    var hi := Min(n - 1, c + 1);
    SlotsSplit(c, n, 1, 2, n);
    SlotsSplit(c, n, 2, lo, n);
    SlotsSplit(c, n, lo, hi + 1, n);
    SlotsSplit(c, n, hi + 1, n, n);
    TableHead(c, n);
    TableTail(c, n);
    SlotsShown(c, n, lo, hi);
    assert Slots(c, n, 1, 1) == [Link(1, c == 1)] by {
      assert Slots(c, n, 1, 1) == Slot(c, n, 1) + Slots(c, n, 2, 1);
    }
    assert Slots(c, n, n, n) == [Link(n, c == n)] by {
      assert Slots(c, n, n, n) == Slot(c, n, n) + Slots(c, n, n + 1, n);
    }
    JoinedIsWindow(c, n, lo, hi, c >= 4, c + 2 < n);
  }

  /** The table's row reads correctly whenever the current page is in range. */
  lemma TableReadsCorrectly(c: int, n: int)
    requires 1 <= c <= n
    ensures ReadsCorrectly(TableButtons(c, n), n, c)
  {
    if n == 1 {
      assert TableButtons(c, n) == Slot(c, n, 1) + Slots(c, n, 2, 1);
      assert TableButtons(c, n)[0] == Link(c, true);
    } else {
      TableClosedForm(c, n);
      WindowReadsCorrectly(c, n, Max(2, c - 1), Min(n - 1, c + 1), c >= 4, c + 2 < n);
    }
  }

  /** Away from the first and last page the table and the cart render the
      same row. */
  lemma TableMatchesCart(c: int, n: int)
    requires n > 5 && 1 < c < n
    ensures TableButtons(c, n) == CartItems(c, n)
  {
    TableClosedForm(c, n);
  }

  /** On the first and the last page the table shows two pages there and
      the cart three. */
  lemma TableNarrowerAtEnds(n: int)
    requires n > 5
    ensures |TableButtons(1, n)| == 4 && |CartItems(1, n)| == 5
    ensures |TableButtons(n, n)| == 4 && |CartItems(n, n)| == 5
  {
    TableClosedForm(1, n);
    TableClosedForm(n, n);
  }

  // ---------------------------------------------------------------------
  // Previous / next

  /** Previous moves back only from a page after the first. */
  function Previous(c: int): (p: int)
    ensures c > 1 ==> p == c - 1
    ensures c <= 1 ==> p == c
  {
    if c > 1 then c - 1 else c
  }

  /** Next moves on only from a page before the last. */
  function Next(c: int, n: int): (p: int)
    ensures c < n ==> p == c + 1
    ensures c >= n ==> p == c
  {
    if c < n then c + 1 else c
  }

  /** The guards keep the current page in range, and undo each other. */
  lemma StepsStayInRange(c: int, n: int)
    requires 1 <= c <= n
    ensures 1 <= Previous(c) <= n && 1 <= Next(c, n) <= n
    ensures c < n ==> Previous(Next(c, n)) == c
    ensures c > 1 ==> Next(Previous(c), n) == c
  {
  }
}

=== FILE: product_service.dfy ===
/** `ProductService` of the backend: the catalogue listing (`findAll`),
    the smart search that pages over the retriever's answer
    (`hybridSearch`), and the id checks of `create`. The SQL that selects
    the matching rows and the database lookups are inputs; the service's
    own arithmetic, deduplication, ordering and error mapping are modelled. */
module ProductService {
  import opened Common
  import opened Shop
  import RetrieverServer

  datatype SearchType = Normal | Smart

  /** The listing query after validation: `page` and `limit` are integers
      of at least 1 (defaults 1 and 10), `query` is absent or a string. */
  datatype FilterQuery = FilterQuery(page: int, limit: int, query: Option<string>, searchType: SearchType)

  /** `PaginatedProductsDto`. */
  type Page = Paged<Product>

  /** The retriever's answer as the backend reads it. */
  datatype Retrieved = Retrieved(bookIds: seq<Id>, scores: seq<real>)

  /** The collaborators: the gRPC retriever (failing with a gRPC status
      code) and `productRepository.find` by book ids, whose row order is
      the database's. */
  datatype Backend = Backend(
    retrieve: RetrieverServer.Request -> Result<Retrieved, int>,
    findByBooks: seq<Id> -> seq<Product>)

  // ---------------------------------------------------------------------
  // findAll, the plain listing

  /** The ids of page `page`: the window `[offset, offset + limit)` of the
      first occurrences in query order, cut at the end of the list; this is
      `slice(offset, offset + limit)`, whose bounds are never negative here. */
  function PageIds(rows: seq<Id>, page: int, limit: int): (ids: seq<Id>)
    requires ValidPaging(page, limit)
    ensures ids == JsSlice(Dedup(rows), Offset(page, limit), Offset(page, limit) + limit)
  {
    OffsetNext(page, limit);
    var u, o := Dedup(rows), Offset(page, limit);
    SliceFromZero(u, o, o + limit);
    u[Clamp(o, |u|)..Clamp(o + limit, |u|)]
  }

  /** A page holds at most `limit` ids, each once, each from the query. */
  lemma PageIdsFacts(rows: seq<Id>, page: int, limit: int)
    requires ValidPaging(page, limit)
    ensures |PageIds(rows, page, limit)| <= limit
    ensures Distinct(PageIds(rows, page, limit))
    ensures forall x :: x in PageIds(rows, page, limit) ==> x in rows
  {
    var u := Dedup(rows);
    DedupSpec(rows);
    OffsetNext(page, limit);
    var o := Offset(page, limit);
    SliceFromZero(u, o, o + limit);
    SliceDistinct(u, Clamp(o, |u|), Clamp(o + limit, |u|));
  }

  lemma SliceDistinct<T>(u: seq<T>, a: nat, b: nat)
    requires a <= b <= |u| && Distinct(u)
    ensures Distinct(u[a..b]) && forall x :: x in u[a..b] ==> x in u
  {
    forall i, j | 0 <= i < j < b - a ensures u[a..b][i] != u[a..b][j] {
      assert u[a..b][i] == u[a + i] && u[a..b][j] == u[a + j];
    }
  }

  /** The ids of `ids` that name a loaded product, in order. */
  function Known(ids: seq<Id>, loaded: map<Id, Product>): (k: seq<Id>)
    ensures forall x :: x in k <==> x in ids && x in loaded
    ensures |k| <= |ids|
  {
    if ids == [] then []
    else if ids[0] in loaded then [ids[0]] + Known(ids[1..], loaded)
    else Known(ids[1..], loaded)
  }

  /** `paginatedIds.map(id => productsMap.get(id)).filter(Boolean)`. */
  function Reorder(ids: seq<Id>, loaded: map<Id, Product>): (ps: seq<Product>)
    ensures var k := Known(ids, loaded);
      |ps| == |k| && forall i :: 0 <= i < |k| ==> ps[i] == loaded[k[i]]
  {
    var k := Known(ids, loaded);
    seq(|k|, i requires 0 <= i < |k| => loaded[k[i]])
  }

  /** The non-smart branch of `findAll`. `rows` are the ids the filtered
      query returns (with repetitions from the category join), `total` its
      count, `loaded` the products loaded by id. */
  function ListPage(rows: seq<Id>, total: nat, page: int, limit: int,
                    loaded: map<Id, Product>): (p: Page)
    requires ValidPaging(page, limit)
    ensures PageIds(rows, page, limit) == [] ==> p == EmptyPage(page, limit)
    ensures PageIds(rows, page, limit) != [] ==>
      && p.total == total && p.totalPages == CeilDiv(total, limit)
      && p.data == Reorder(PageIds(rows, page, limit), loaded)
    ensures p.page == page && p.limit == limit && |p.data| <= limit
  {
    var ids := PageIds(rows, page, limit);
    PageIdsFacts(rows, page, limit);
    if ids == [] then EmptyPage(page, limit)
    else Paged(total, page, limit, CeilDiv(total, limit), Reorder(ids, loaded))
  }

  /** Past the last distinct id the listing reports no matches at all,
      whatever the count query said. */
  lemma PastTheEndReportsNothing(rows: seq<Id>, total: nat, page: int, limit: int,
                                 loaded: map<Id, Product>)
    requires ValidPaging(page, limit)
    requires Offset(page, limit) >= |Dedup(rows)|
    ensures ListPage(rows, total, page, limit, loaded) == EmptyPage(page, limit)
  {
  }

  /** Consecutive pages continue each other: page `n + 1` starts where page
      `n` ends in the deduplicated id list. */
  lemma PagesTile(rows: seq<Id>, limit: int, n: int)
    requires ValidPaging(n, limit)
    requires Offset(n + 1, limit) <= |Dedup(rows)|
    ensures var u := Dedup(rows);
      PageIds(rows, n, limit) + PageIds(rows, n + 1, limit)
        == u[Offset(n, limit)..Clamp(Offset(n + 1, limit) + limit, |u|)]
  {
    var u := Dedup(rows);
    var a, b := Offset(n, limit), Offset(n + 1, limit);
    OffsetNext(n, limit);
    var hi := Clamp(b + limit, |u|);
    SliceFromZero(u, a, b);
    SliceFromZero(u, b, b + limit);
    assert PageIds(rows, n, limit) == u[a..b];
    assert PageIds(rows, n + 1, limit) == u[b..hi];
    assert u[a..hi] == u[a..b] + u[b..hi];
  }

  // ---------------------------------------------------------------------
  // hybridSearch

  /** The request `hybridSearch` sends: fixed candidate sizes. */
  function SearchRequest(query: string): (r: RetrieverServer.Request)
    ensures r.query == query && r.denseTopK == 500 && r.sparseTopK == 500
    ensures r.topK == 100 && r.topN == 50
  {
    RetrieverServer.Request(query, 500, 500, 100, 50)
  }

  /** The `catchError` mapping of gRPC failures to HTTP statuses. */
  function StatusOf(grpcCode: int): (http: int)
    ensures grpcCode == 14 <==> http == 503
    ensures grpcCode == 429 <==> http == 429
    ensures http == 503 || http == 429 || http == 500
  {
    if grpcCode == 14 then 503 else if grpcCode == 429 then 429 else 500
  }

  /** `scores[i] ?? 0`. */
  function ScoreAt(scores: seq<real>, i: nat): real {
    if i < |scores| then scores[i] else 0.0
  }

  /** `i` is the last position of its id among the first `n`. */
  predicate LastAt(ids: seq<Id>, i: nat, n: nat)
    requires i < n <= |ids|
  {
    forall j :: i < j < n ==> ids[j] != ids[i]
  }

  /** `Object.fromEntries` over the first `n` ids: a repeated id keeps the
      score of its last occurrence. */
  function ScoreMap(ids: seq<Id>, scores: seq<real>, n: nat): (m: map<Id, real>)
    requires n <= |ids|
    ensures forall k :: k in m <==> k in ids[..n]
    ensures forall i :: 0 <= i < n && LastAt(ids, i, n) ==> m[ids[i]] == ScoreAt(scores, i)
  {
    if n == 0 then map[]
    else
      var m := ScoreMap(ids, scores, n - 1);
      ScoreMapStep(ids, scores, n, m);
      m[ids[n - 1] := ScoreAt(scores, n - 1)]
  }

  lemma ScoreMapStep(ids: seq<Id>, scores: seq<real>, n: nat, m: map<Id, real>)
    requires 0 < n <= |ids|
    requires forall k :: k in m <==> k in ids[..n - 1]
    requires forall i :: 0 <= i < n - 1 && LastAt(ids, i, n - 1) ==> m[ids[i]] == ScoreAt(scores, i)
    ensures var m' := m[ids[n - 1] := ScoreAt(scores, n - 1)];
      && (forall k :: k in m' <==> k in ids[..n])
      && (forall i :: 0 <= i < n && LastAt(ids, i, n) ==> m'[ids[i]] == ScoreAt(scores, i))
  {
    var m' := m[ids[n - 1] := ScoreAt(scores, n - 1)];
    assert ids[..n] == ids[..n - 1] + [ids[n - 1]];
    forall i | 0 <= i < n - 1 && LastAt(ids, i, n) ensures m'[ids[i]] == ScoreAt(scores, i) {
      assert ids[n - 1] != ids[i];
      assert LastAt(ids, i, n - 1);
    }
  }

  /** `scoreMap[p.book?.id] ?? 0`. */
  function Score(m: map<Id, real>, p: Product): real {
    if p.bookId.Some? && p.bookId.value in m then m[p.bookId.value] else 0.0
  }

  predicate SortedDesc(ps: seq<Product>, m: map<Id, real>) {
    forall i, j :: 0 <= i < j < |ps| ==> Score(m, ps[i]) >= Score(m, ps[j])
  }

  /** Inserts `p` before the first entry that scores less than or equal
      to `p`. Because `SortDesc` inserts the earlier products last, this is
      what keeps products of equal score in their original order. */
  function InsertDesc(p: Product, ps: seq<Product>, m: map<Id, real>): seq<Product> {
    if ps == [] || Score(m, p) >= Score(m, ps[0]) then [p] + ps
    else [ps[0]] + InsertDesc(p, ps[1..], m)
  }

  /** `products.sort((a, b) => scoreB - scoreA)`: a stable sort by
      descending score. */
  function SortDesc(ps: seq<Product>, m: map<Id, real>): (r: seq<Product>)
    ensures multiset(r) == multiset(ps)
    ensures SortedDesc(r, m)
  {
    if ps == [] then []
    else
      var rest := SortDesc(ps[1..], m);
      InsertFacts(ps[0], rest, m);
      assert ps == [ps[0]] + ps[1..];
      InsertDesc(ps[0], rest, m)
  }

  lemma {:induction false} InsertMultiset(p: Product, ps: seq<Product>, m: map<Id, real>)
    ensures multiset(InsertDesc(p, ps, m)) == multiset([p] + ps)
    decreases |ps|
  {
    if ps != [] && Score(m, p) < Score(m, ps[0]) {
      InsertMultiset(p, ps[1..], m);
      assert ps == [ps[0]] + ps[1..];
    }
  }

  lemma {:induction false} InsertSorted(p: Product, ps: seq<Product>, m: map<Id, real>)
    requires SortedDesc(ps, m)
    ensures SortedDesc(InsertDesc(p, ps, m), m)
    decreases |ps|
  {
    if ps != [] && Score(m, p) < Score(m, ps[0]) {
      var t := InsertDesc(p, ps[1..], m);
      InsertSorted(p, ps[1..], m);
      InsertMultiset(p, ps[1..], m);
      forall j | 0 <= j < |t| ensures Score(m, ps[0]) >= Score(m, t[j]) {
        assert t[j] in multiset([p] + ps[1..]);
        assert t[j] == p || t[j] in ps[1..];
      }
    }
  }

  lemma InsertFacts(p: Product, ps: seq<Product>, m: map<Id, real>)
    requires SortedDesc(ps, m)
    ensures multiset(InsertDesc(p, ps, m)) == multiset([p] + ps)
    ensures SortedDesc(InsertDesc(p, ps, m), m)
  {
    InsertMultiset(p, ps, m);
    InsertSorted(p, ps, m);
  }

  /** The entries of `ps` that score exactly `s`, in order. */
  function WithScore(ps: seq<Product>, m: map<Id, real>, s: real): seq<Product> {
    if ps == [] then []
    else (if Score(m, ps[0]) == s then [ps[0]] else []) + WithScore(ps[1..], m, s)
  }

  lemma {:induction false} InsertStable(p: Product, ps: seq<Product>, m: map<Id, real>, s: real)
    requires SortedDesc(ps, m)
    ensures WithScore(InsertDesc(p, ps, m), m, s) == WithScore([p] + ps, m, s)
    decreases |ps|
  {
    if ps != [] && Score(m, p) < Score(m, ps[0]) {
      InsertStable(p, ps[1..], m, s);
      assert ([p] + ps)[1..] == ps;
      assert ([p] + ps[1..])[1..] == ps[1..];
    } else {
      assert ([p] + ps)[1..] == ps;
    }
  }

  /** The sort keeps products of equal score in their database order. */
  lemma {:induction false} SortStable(ps: seq<Product>, m: map<Id, real>, s: real)
    ensures WithScore(SortDesc(ps, m), m, s) == WithScore(ps, m, s)
    decreases |ps|
  {
    if ps != [] {
      SortStable(ps[1..], m, s);
      InsertStable(ps[0], SortDesc(ps[1..], m), m, s);
      assert ([ps[0]] + SortDesc(ps[1..], m))[1..] == SortDesc(ps[1..], m);
    }
  }

  /** `hybridSearch`: a missing query is rejected, retriever failures are
      mapped to HTTP statuses, an empty answer is an empty page, and
      otherwise the products of this page's book ids are returned by
      descending retriever score, with the answer's size as the total.
      Products of equal score keep the database's order (`SortStable`). */
  function HybridSearch(be: Backend, query: string, page: int, limit: int): (r: Result<Page, Failure>)
    requires ValidPaging(page, limit)
    ensures query == "" ==> r == Err(MissingQuery)
    ensures query != "" && be.retrieve(SearchRequest(query)).Err? ==>
      r == Err(Upstream(StatusOf(be.retrieve(SearchRequest(query)).error)))
    ensures query != "" && be.retrieve(SearchRequest(query)).Ok? ==> r.Ok?
    ensures r.Ok? ==> query != "" && be.retrieve(SearchRequest(query)).Ok?
    ensures r.Ok? ==>
      var got := be.retrieve(SearchRequest(query)).value;
      var m := ScoreMap(got.bookIds, got.scores, |got.bookIds|);
      var ids := JsSlice(got.bookIds, Offset(page, limit), Offset(page, limit) + limit);
      && (got.bookIds == [] ==> r.value == EmptyPage(page, limit))
      && (got.bookIds != [] ==>
            && r.value.page == page && r.value.limit == limit
            && r.value.total == |got.bookIds|
            && r.value.totalPages == CeilDiv(|got.bookIds|, limit)
            && multiset(r.value.data) == multiset(be.findByBooks(ids))
            && SortedDesc(r.value.data, m))
  {
    if query == "" then Err(MissingQuery)
    else
      match be.retrieve(SearchRequest(query))
      case Err(code) => Err(Upstream(StatusOf(code)))
      case Ok(got) =>
        if got.bookIds == [] then Ok(EmptyPage(page, limit))
        else
          var ids := JsSlice(got.bookIds, Offset(page, limit), Offset(page, limit) + limit);
          var m := ScoreMap(got.bookIds, got.scores, |got.bookIds|);
          Ok(Paged(|got.bookIds|, page, limit, CeilDiv(|got.bookIds|, limit),
                  SortDesc(be.findByBooks(ids), m)))
  }

  /** `findAll`: a smart search with a non-empty query is `hybridSearch`
      with the same page and limit; anything else is the plain listing. */
  function FindAll(be: Backend, q: FilterQuery, rows: seq<Id>, total: nat,
                   loaded: map<Id, Product>): (r: Result<Page, Failure>)
    requires ValidPaging(q.page, q.limit)
    ensures q.searchType == Smart && q.query.Some? && q.query.value != "" ==>
      r == HybridSearch(be, q.query.value, q.page, q.limit)
    ensures !(q.searchType == Smart && q.query.Some? && q.query.value != "") ==>
      r == Ok(ListPage(rows, total, q.page, q.limit, loaded))
  {
    if q.searchType == Smart && q.query.Some? && q.query.value != "" then
      HybridSearch(be, q.query.value, q.page, q.limit)
    else Ok(ListPage(rows, total, q.page, q.limit, loaded))
  }

  // ---------------------------------------------------------------------
  // create

  /** The ids the lookup `find({ where: { id: In(ids) } })` returns: each
      existing id once. */
  function FoundIds(ids: seq<Id>, existing: set<Id>): set<Id> {
    set x | x in ids && x in existing
  }

  predicate IdsAccepted(ids: Option<seq<Id>>, existing: set<Id>) {
    ids.None? || ids.value == [] || |FoundIds(ids.value, existing)| == |ids.value|
  }

  datatype NewProduct = NewProduct(title: string, price: real, categories: set<Id>, authors: set<Id>)

  /** `create`: every listed category and author must be found, else
      `BadRequest`; categories are checked first. */
  function Create(title: string, price: real, categoryIds: Option<seq<Id>>, authorIds: Option<seq<Id>>,
                  categories: set<Id>, authors: set<Id>): (r: Result<NewProduct, Failure>)
    ensures !IdsAccepted(categoryIds, categories) ==>
      r == Err(CategoriesNotFound)
    ensures IdsAccepted(categoryIds, categories) && !IdsAccepted(authorIds, authors) ==>
      r == Err(AuthorsNotFound)
    ensures IdsAccepted(categoryIds, categories) && IdsAccepted(authorIds, authors) ==> r.Ok?
    ensures r.Ok? ==>
      && r.value.title == title && r.value.price == price
      && (forall c :: c in r.value.categories <==> categoryIds.Some? && c in categoryIds.value)
      && (forall a :: a in r.value.authors <==> authorIds.Some? && a in authorIds.value)
  {
    if !IdsAccepted(categoryIds, categories) then Err(CategoriesNotFound)
    else if !IdsAccepted(authorIds, authors) then Err(AuthorsNotFound)
    else
      var cs := if categoryIds.Some? then FoundIds(categoryIds.value, categories) else {};
      var as_ := if authorIds.Some? then FoundIds(authorIds.value, authors) else {};
      AllFound(categoryIds, categories);
      AllFound(authorIds, authors);
      Ok(NewProduct(title, price, cs, as_))
  }

  /** An accepted id list names existing ids only. */
  lemma AllFound(ids: Option<seq<Id>>, existing: set<Id>)
    requires IdsAccepted(ids, existing)
    ensures ids.Some? ==> forall x :: x in ids.value ==> x in FoundIds(ids.value, existing)
  {
    if ids.Some? && ids.value != [] {
      AcceptedExactly(ids.value, existing);
    }
  }

  /** The elements of a sequence. */
  function Elements(s: seq<Id>): set<Id> {
    set x | x in s
  }

  lemma {:induction false} ElementsCard(s: seq<Id>)
    ensures |Elements(s)| <= |s|
    ensures |Elements(s)| == |s| <==> Distinct(s)
    decreases |s|
  {
    if s != [] {
      ElementsCard(s[1..]);
      assert Elements(s) == Elements(s[1..]) + {s[0]};
      if s[0] in s[1..] {
        assert Elements(s) == Elements(s[1..]);
        var j :| 0 <= j < |s[1..]| && s[1..][j] == s[0];
        assert s[0] == s[j + 1];
      } else {
        assert Distinct(s) <==> Distinct(s[1..]) by {
          if Distinct(s[1..]) {
            forall i, j | 0 <= i < j < |s| ensures s[i] != s[j] {
              if i == 0 { assert s[j] == s[1..][j - 1]; }
              else { assert s[i] == s[1..][i - 1] && s[j] == s[1..][j - 1]; }
            }
          }
          if Distinct(s) {
            forall i, j | 0 <= i < j < |s[1..]| ensures s[1..][i] != s[1..][j] {
              assert s[1..][i] == s[i + 1] && s[1..][j] == s[j + 1];
            }
          }
        }
      }
    } else {
      assert Elements(s) == {};
    }
  }

  /** The found-count check accepts exactly the lists of distinct,
      existing ids: a repeated id is rejected even when it exists. */
  lemma AcceptedExactly(ids: seq<Id>, existing: set<Id>)
    ensures |FoundIds(ids, existing)| == |ids| <==> Distinct(ids) && forall x :: x in ids ==> x in existing
  {
    var e := Elements(ids);
    var f := FoundIds(ids, existing);
    ElementsCard(ids);
    assert f <= e;
    if forall x :: x in ids ==> x in existing {
      assert f == e;
    } else {
      var x :| x in ids && x !in existing;
      assert x in e - f;
      assert e == f + (e - f) && f !! (e - f);
      assert |e| == |f| + |e - f|;
    }
  }

  /** The HTTP answers of `hybridSearch` and `create`: a missing query and
      unknown categories or authors are 400s; a retriever failure is 503,
      429 or 500. */
  lemma ProductStatuses(be: Backend, query: string, page: int, limit: int, title: string, price: real,
                        categoryIds: Option<seq<Id>>, authorIds: Option<seq<Id>>,
                        categories: set<Id>, authors: set<Id>)
    requires ValidPaging(page, limit)
    ensures var h := HybridSearch(be, query, page, limit);
      && (query == "" ==> HttpStatus(h.error) == 400)
      && (h.Err? && query != "" ==> HttpStatus(h.error) in {503, 429, 500})
    ensures var c := Create(title, price, categoryIds, authorIds, categories, authors);
      c.Err? ==> HttpStatus(c.error) == 400
  {
  }
}

=== FILE: retriever.dfy ===
/** The hybrid retriever's orchestration (`HybridRetriever`): formatting
    payloads for the ranker, mapping ranked documents back to points,
    retrieval with the compiled filter, and the two-level Redis cache of
    `search_with_filter`. Embedding, the vector engine, the cross-encoder and
    the LLM are parameters (`Env`); Redis is a map from key to entry. */
module Retriever {
  import opened Common
  import opened Json
  import opened FilterBuilder
  import opened CacheKeys
  import Extractor

  datatype Error =
    | External(what: string)          // an exception from a collaborator
    | IndexError                      // `retrieved_points[corpus_id]` out of range
    | FilterTypeError                 // a filter keyword of the wrong type
    | DuplicateArgument(name: string) // a merged keyword clashing with a named parameter
    | NotADict                        // a cached structured query that is not a dictionary

  /** The payload fields the ranker's documents are built from; `None` for a
      field the point does not carry. */
  datatype Payload = Payload(
    title: Option<string>,
    descriptionSummary: Option<string>,
    categories: Option<seq<string>>)

  datatype Point = Point(id: Value, payload: Payload)

  /** One entry of the cross-encoder's ranking. */
  datatype Ranked = Ranked(corpusId: int, score: real, text: string)

  /** One reranked result: `{"book_id", "score", "text"}`. */
  datatype Hit = Hit(bookId: Value, score: real, text: string)

  /** What the vector engine is asked: the query text, vector field names,
      prefetch and fusion limits, and the compiled filter. */
  datatype EngineQuery = EngineQuery(
    text: Value, denseField: Value, sparseField: Value,
    denseTopK: Value, sparseTopK: Value, topK: Value, filter: Filter)

  /** The collaborators the retriever calls but does not implement. */
  datatype Env = Env(
    denseField: string,
    sparseField: string,
    llm: string -> Result<Extractor.BookFilter, string>,
    engine: EngineQuery -> Result<seq<Point>, string>,
    ranker: (Value, seq<string>, int) -> Result<seq<Ranked>, string>)

  // ---------------------------------------------------------------------
  // Reranking

  /** `_format_book`: a missing title or description reads as `""`, missing
      categories as none. */
  function FormatBook(p: Payload): (doc: string)
    ensures "Title: " + p.title.GetOr("") + ". Description: " <= doc
    ensures var tail := ". Categories: " + JoinWith(p.categories.GetOr([]), ", ");
      |tail| <= |doc| && doc[|doc| - |tail|..] == tail
  {
    "Title: " + p.title.GetOr("") + ". Description: " + p.descriptionSummary.GetOr("")
      + ". Categories: " + JoinWith(p.categories.GetOr([]), ", ")
  }

  lemma FormatBookDefaults(p: Payload)
    ensures p.title.None? && p.descriptionSummary.None? && p.categories.None?
        ==> FormatBook(p) == "Title: . Description: . Categories: "
  {
  }

  /** Python list indexing: negative positions count from the end. */
  function PyIndex(i: int, len: nat): (k: Option<nat>)
    ensures k.Some? ==> k.value < len
    ensures k.Some? <==> -(len as int) <= i < len
    ensures 0 <= i < len ==> k == Some(i)
  {
    if 0 <= i < len then Some(i) else if -(len as int) <= i < 0 then Some(len + i) else None
  }

  predicate Resolves(points: seq<Point>, r: Ranked) {
    PyIndex(r.corpusId, |points|).Some?
  }

  function HitOf(points: seq<Point>, r: Ranked): (h: Hit)
    requires Resolves(points, r)
    ensures 0 <= r.corpusId < |points| ==> h.bookId == points[r.corpusId].id
    ensures r.corpusId < 0 ==> h.bookId == points[|points| + r.corpusId].id
    ensures h.score == r.score && h.text == r.text
  {
    Hit(points[PyIndex(r.corpusId, |points|).value].id, r.score, r.text)
  }

  /** The comprehension of `rerank`: each ranked document becomes the id of
      the point it was made from, in the ranker's order. */
  function MapBack(points: seq<Point>, ranked: seq<Ranked>): (r: Result<seq<Hit>, Error>)
    ensures r.Ok? <==> forall i :: 0 <= i < |ranked| ==> Resolves(points, ranked[i])
    ensures r.Err? ==> r.error == IndexError
    ensures r.Ok? ==> |r.value| == |ranked|
    ensures r.Ok? ==> forall i :: 0 <= i < |ranked| ==> r.value[i] == HitOf(points, ranked[i])
  {
    if ranked == [] then Ok([])
    else if !Resolves(points, ranked[0]) then Err(IndexError)
    else
      var rest := MapBack(points, ranked[1..]);
      if rest.Err? then
        assert !Resolves(points, ranked[1..][0]) || exists i :: 0 <= i < |ranked| - 1 && !Resolves(points, ranked[1..][i]);
        rest
      else Ok([HitOf(points, ranked[0])] + rest.value)
  }

  function Documents(points: seq<Point>): (docs: seq<string>)
    ensures |docs| == |points|
    ensures forall i :: 0 <= i < |points| ==> docs[i] == FormatBook(points[i].payload)
  {
    seq(|points|, i requires 0 <= i < |points| => FormatBook(points[i].payload))
  }

  /** `rerank`: the ranker scores one document per retrieved point, and
      every output names the point its `corpus_id` designates. */
  function Rerank(env: Env, query: Value, points: seq<Point>, topN: int): (r: Result<seq<Hit>, Error>)
    ensures env.ranker(query, Documents(points), topN).Err? ==> r == Err(External(env.ranker(query, Documents(points), topN).error))
    ensures r.Ok? ==> env.ranker(query, Documents(points), topN).Ok?
    ensures env.ranker(query, Documents(points), topN).Ok? ==>
      var ranked := env.ranker(query, Documents(points), topN).value;
      && ((forall i :: 0 <= i < |ranked| ==> Resolves(points, ranked[i])) ==> r.Ok?)
      && (!(forall i :: 0 <= i < |ranked| ==> Resolves(points, ranked[i])) ==> r == Err(IndexError))
    ensures r.Ok? ==>
      var ranked := env.ranker(query, Documents(points), topN).value;
      && (forall i :: 0 <= i < |ranked| ==> Resolves(points, ranked[i]))
      && |r.value| == |ranked|
      && forall i :: 0 <= i < |ranked| ==> r.value[i] == HitOf(points, ranked[i])
  {
    match env.ranker(query, Documents(points), topN)
    case Err(e) => Err(External(e))
    case Ok(ranked) => MapBack(points, ranked)
  }

  // ---------------------------------------------------------------------
  // Retrieval

  /** The keyword names `retrieve` binds itself; everything else is a filter. */
  const RetrieveParams: set<string> := {"dense_field", "sparse_field", "dense_top_k", "sparse_top_k", "top_k"}

  /** The keyword names `search_with_filter`, `search` and `retrieve` bind
      positionally; a keyword argument with one of these names is a
      `TypeError`. */
  predicate Positional(name: string) {
    name == "self" || name == "query" || name == "top_n"
  }

  /** A dictionary that would bind one of those names a second time. */
  predicate Clashes(d: Dict) {
    "self" in d || "query" in d || "top_n" in d
  }

  function Param(kw: Dict, name: string, default: Value): (v: Value)
    ensures name in kw ==> v == kw[name]
    ensures name !in kw ==> v == default
  {
    if name in kw then kw[name] else default
  }

  /** `**filters` of `retrieve`: every keyword except its own parameters. */
  function FilterArgs(kw: Dict): (f: Dict)
    ensures f.Keys == kw.Keys - RetrieveParams
    ensures forall k :: k in f ==> f[k] == kw[k]
  {
    map k | k in kw && k !in RetrieveParams :: kw[k]
  }

  /** `retrieve`'s call of `query_points`: the three sizes default to 100,
      100 and 50, the vector fields to the configured names, and the filter
      is compiled from the remaining keywords. */
  function Query(env: Env, text: Value, kw: Dict): (q: EngineQuery)
    requires FilterTyped(FilterArgs(kw))
    ensures q.text == text && q.filter == BuildFilter(FilterArgs(kw))
    ensures q.denseTopK == (if "dense_top_k" in kw then kw["dense_top_k"] else Int(100))
    ensures q.sparseTopK == (if "sparse_top_k" in kw then kw["sparse_top_k"] else Int(100))
    ensures q.topK == (if "top_k" in kw then kw["top_k"] else Int(50))
    ensures q.denseField == (if "dense_field" in kw then kw["dense_field"] else Str(env.denseField))
    ensures q.sparseField == (if "sparse_field" in kw then kw["sparse_field"] else Str(env.sparseField))
  {
    EngineQuery(text,
      Param(kw, "dense_field", Str(env.denseField)), Param(kw, "sparse_field", Str(env.sparseField)),
      Param(kw, "dense_top_k", Int(100)), Param(kw, "sparse_top_k", Int(100)), Param(kw, "top_k", Int(50)),
      BuildFilter(FilterArgs(kw)))
  }

  /** One result entry: `{"book_id", "score", "text"}`. */
  function HitValue(h: Hit): (v: Value)
    ensures v.Obj? && "book_id" in v.fields && "score" in v.fields
    ensures v.fields["book_id"] == h.bookId && v.fields["score"] == Real(h.score)
  {
    Obj(map["book_id" := h.bookId, "score" := Real(h.score), "text" := Str(h.text)])
  }

  /** The dictionary `search` returns. */
  function ResultValue(hits: seq<Hit>, usedQuery: Value, usedFilter: Dict): (v: Value)
    ensures v.Obj? && v.fields.Keys == {"results", "used_query", "used_filter"}
    ensures v.fields["used_query"] == usedQuery && v.fields["used_filter"] == Obj(usedFilter)
    ensures v.fields["results"].List? && |v.fields["results"].items| == |hits|
    ensures forall i :: 0 <= i < |hits| ==> v.fields["results"].items[i] == HitValue(hits[i])
  {
    Obj(map["results" := List(seq(|hits|, i requires 0 <= i < |hits| => HitValue(hits[i]))),
            "used_query" := usedQuery,
            "used_filter" := Obj(usedFilter)])
  }

  /** `search`: retrieve with the filter compiled from the non-parameter
      keywords, rerank with the same text, and report what was used. */
  function Search(env: Env, text: Value, topN: int, kw: Dict): (r: Result<Value, Error>)
    ensures !FilterTyped(FilterArgs(kw)) ==> r == Err(FilterTypeError)
    ensures r.Ok? ==> FilterTyped(FilterArgs(kw)) && env.engine(Query(env, text, kw)).Ok?
    ensures r.Ok? ==> r.value.Obj? && r.value.fields.Keys == {"results", "used_query", "used_filter"}
    ensures r.Ok? ==> r.value.fields["used_query"] == text
    ensures r.Ok? ==> r.value.fields["used_filter"] == Obj(FilterArgs(kw))
    ensures FilterTyped(FilterArgs(kw)) && env.engine(Query(env, text, kw)).Err? ==>
      r == Err(External(env.engine(Query(env, text, kw)).error))
    ensures FilterTyped(FilterArgs(kw)) && env.engine(Query(env, text, kw)).Ok? ==>
      var ranked := Rerank(env, text, env.engine(Query(env, text, kw)).value, topN);
      && (ranked.Err? ==> r == Err(ranked.error))
      && (ranked.Ok? ==> r == Ok(ResultValue(ranked.value, text, FilterArgs(kw))))
  {
    var filters := FilterArgs(kw);
    if !FilterTyped(filters) then Err(FilterTypeError)
    else
      match env.engine(Query(env, text, kw))
      case Err(e) => Err(External(e))
      case Ok(points) =>
        var hits :- Rerank(env, text, points, topN);
        Ok(ResultValue(hits, text, filters))
  }

  // ---------------------------------------------------------------------
  // The cache flow of `search_with_filter`

  /** A Redis entry: the decoded JSON value and the TTL it was set with. */
  datatype Entry = Entry(value: Value, ttl: nat)

  type Store = map<string, Entry>

  /** Both cache entries are written with `setex(…, 60 * 60, …)`. */
  const Ttl: nat := 60 * 60

  /** The collaborator calls and writes a run performs, in order. */
  datatype Call =
    | Extracted(query: string)
    | Stored(key: string, ttl: nat)
    | Searched(text: Value, kwargs: Dict)

  datatype Outcome = Outcome(result: Result<Value, Error>, store: Store, calls: seq<Call>)

  /** The caller's keyword arguments as a dictionary. */
  function ToMap(ps: seq<Pair>): (d: Dict)
    requires DistinctKeys(ps)
    ensures forall i :: 0 <= i < |ps| ==> ps[i].0 in d && d[ps[i].0] == ps[i].1
    ensures forall k :: k in d ==> exists i :: 0 <= i < |ps| && ps[i].0 == k
  {
    if ps == [] then map[]
    else
      var rest := ToMap(ps[1..]);
      assert forall k :: k in rest ==> exists i :: 0 <= i < |ps| && ps[i].0 == k by {
        forall k | k in rest ensures exists i :: 0 <= i < |ps| && ps[i].0 == k {
          var j :| 0 <= j < |ps| - 1 && ps[1..][j].0 == k;
          assert ps[j + 1].0 == k;
        }
      }
      rest[ps[0].0 := ps[0].1]
  }

  /** `kwargs.update(structured)`: the structured fields win. */
  function Merge(caller: Dict, structured: Dict): (m: Dict)
    ensures m.Keys == caller.Keys + structured.Keys
    ensures forall k :: k in structured ==> m[k] == structured[k]
    ensures forall k :: k in caller && k !in structured ==> m[k] == caller[k]
  {
    caller + structured
  }

  /** `structured_query.get("rewrite_query", query)`. */
  function RetrievalText(structured: Dict, query: string): (t: Value)
    ensures "rewrite_query" in structured ==> t == structured["rewrite_query"]
    ensures "rewrite_query" !in structured ==> t == Str(query)
  {
    Param(structured, "rewrite_query", Str(query))
  }

  /** The two collaborator steps of `search_with_filter` beyond the caches:
      structured extraction of the query and `search`. The cache flow below
      is stated for any such pair; `StepsOf` supplies the retriever's own. */
  datatype Steps = Steps(
    extract: string -> Result<Dict, Error>,
    search: (Value, int, Dict) -> Result<Value, Error>)

  /** `BookFilterExtractor.extract`: the LLM's structured output, dumped
      without its unset fields. */
  function Extraction(env: Env, query: string): (r: Result<Dict, Error>)
    ensures env.llm(query).Err? ==> r == Err(External(env.llm(query).error))
    ensures env.llm(query).Ok? ==> r == Ok(Extractor.Extract(env.llm(query).value))
    ensures r.Ok? ==> !Clashes(r.value) && FilterTyped(r.value)
  {
    match env.llm(query)
    case Err(e) => Err(External(e))
    case Ok(bf) =>
      ExtractedFields(bf);
      Ok(Extractor.Extract(bf))
  }

  /** The extractor's keys are filter fields, none of them a named parameter. */
  lemma ExtractedFields(bf: Extractor.BookFilter)
    ensures !Clashes(Extractor.Extract(bf)) && FilterTyped(Extractor.Extract(bf))
  {
    var d := Extractor.Extract(bf);
    assert d.Keys <= Extractor.FieldNames;
    assert "self" !in Extractor.FieldNames && "query" !in Extractor.FieldNames
        && "top_n" !in Extractor.FieldNames;
  }

  function StepsOf(env: Env): Steps {
    Steps(q => Extraction(env, q), (t, n, kw) => Search(env, t, n, kw))
  }

  /** A search step that answers with dictionaries and raises nothing a
      cache read could be blamed for. */
  ghost predicate AnswersDicts(sv: Steps) {
    forall t, n, kw :: sv.search(t, n, kw).Ok? ==> sv.search(t, n, kw).value.Obj?
  }

  /** Neither step fails with the error reserved for a malformed cache entry. */
  ghost predicate NeverNotADict(sv: Steps) {
    && (forall q :: sv.extract(q) != Err(NotADict))
    && (forall t, n, kw :: sv.search(t, n, kw) != Err(NotADict))
  }

  lemma SearchAnswersDicts(env: Env)
    ensures AnswersDicts(StepsOf(env)) && NeverNotADict(StepsOf(env))
  {
    forall t, n, kw ensures Search(env, t, n, kw).Ok? ==> Search(env, t, n, kw).value.Obj? {
    }
  }

  /** The structured-query lookup: a cached dictionary, or a fresh
      extraction that is then cached. */
  function StructuredQuery(sv: Steps, store: Store, query: string): (o: Outcome)
    ensures StructuredKey(query) in store ==> o == Outcome(Ok(store[StructuredKey(query)].value), store, [])
    ensures StructuredKey(query) !in store && sv.extract(query).Err? ==>
      o == Outcome(Err(sv.extract(query).error), store, [Extracted(query)])
    ensures StructuredKey(query) !in store && sv.extract(query).Ok? ==>
      var sq := Obj(sv.extract(query).value);
      o == Outcome(Ok(sq), store[StructuredKey(query) := Entry(sq, Ttl)],
                   [Extracted(query), Stored(StructuredKey(query), Ttl)])
  {
    var skey := StructuredKey(query);
    if skey in store then Outcome(Ok(store[skey].value), store, [])
    else match sv.extract(query)
      case Err(e) => Outcome(Err(e), store, [Extracted(query)])
      case Ok(d) =>
        var sq := Obj(d);
        Outcome(Ok(sq), store[skey := Entry(sq, Ttl)], [Extracted(query), Stored(skey, Ttl)])
  }

  predicate CallerKwargs(kwargs: seq<Pair>) {
    && DistinctKeys(kwargs)
    && forall i :: 0 <= i < |kwargs| ==> !Positional(kwargs[i].0)
  }

  /** Search with the merged keywords and cache a successful result. */
  function SearchThenStore(sv: Steps, store: Store, text: Value, topN: int, merged: Dict,
                           key: string): (o: Outcome)
    ensures o.result == sv.search(text, topN, merged)
    ensures o.result.Ok? ==>
      && o.store == store[key := Entry(o.result.value, Ttl)]
      && o.calls == [Searched(text, merged), Stored(key, Ttl)]
    ensures o.result.Err? ==> o.store == store && o.calls == [Searched(text, merged)]
  {
    var r := sv.search(text, topN, merged);
    if r.Err? then Outcome(r, store, [Searched(text, merged)])
    else Outcome(r, store[key := Entry(r.value, Ttl)], [Searched(text, merged), Stored(key, Ttl)])
  }

  /** No call in `calls` is to the extractor. */
  predicate NoExtraction(calls: seq<Call>) {
    forall i :: 0 <= i < |calls| ==> !calls[i].Extracted?
  }

  /** After the structured query is known: reject what Python would reject,
      merge, then search. */
  function SearchAndStore(sv: Steps, store: Store, query: string, topN: int, caller: Dict,
                          key: string, sq: Value): (o: Outcome)
    ensures !sq.Obj? ==> o == Outcome(Err(NotADict), store, [])
    ensures NoExtraction(o.calls)
    ensures sq.Obj? && Clashes(sq.fields) ==>
      o.result.Err? && o.result.error.DuplicateArgument? && o.store == store && o.calls == []
    ensures sq.Obj? && !Clashes(sq.fields) ==>
      o == SearchThenStore(sv, store, RetrievalText(sq.fields, query), topN,
                           Merge(caller, sq.fields), key)
  {
    if !sq.Obj? then Outcome(Err(NotADict), store, [])
    else if "query" in sq.fields then Outcome(Err(DuplicateArgument("query")), store, [])
    else if "top_n" in sq.fields then Outcome(Err(DuplicateArgument("top_n")), store, [])
    else if "self" in sq.fields then Outcome(Err(DuplicateArgument("self")), store, [])
    else
      SearchThenStore(sv, store, RetrievalText(sq.fields, query), topN,
                      Merge(caller, sq.fields), key)
  }

  /** `search_with_filter` after a result-cache miss. */
  function AfterMiss(sv: Steps, store: Store, query: string, topN: int, caller: Dict,
                     key: string): (o: Outcome)
    // a computed result is cached under the given key
    ensures o.result.Ok? ==>
      && key in o.store && o.store[key] == Entry(o.result.value, Ttl)
      && |o.calls| >= 2 && o.calls[|o.calls| - 1] == Stored(key, Ttl)
  {
    var st := StructuredQuery(sv, store, query);
    if st.result.Err? then st
    else
      var rest := SearchAndStore(sv, st.store, query, topN, caller, key, st.result.value);
      Outcome(rest.result, rest.store, st.calls + rest.calls)
  }

  /** `search_with_filter` once its result-cache key `key` is computed.
      Redis returns the JSON text of an entry, which is never empty, so a
      present key is a hit: the cached value is returned and nothing else
      is called. */
  function RunWithKey(sv: Steps, store: Store, query: string, topN: int, caller: Dict,
                      key: string): (o: Outcome)
    ensures key in store ==> o == Outcome(Ok(store[key].value), store, [])
    ensures key !in store ==> o == AfterMiss(sv, store, query, topN, caller, key)
  {
    if key in store then Outcome(Ok(store[key].value), store, [])
    else AfterMiss(sv, store, query, topN, caller, key)
  }

  /** `s` and `t` agree on every key other than `a` and `b`. */
  ghost predicate SameElsewhere(s: Store, t: Store, a: string, b: string) {
    forall k :: k != a && k != b ==> (k in s <==> k in t) && (k in s ==> s[k] == t[k])
  }

  lemma SameElsewhereUpdate(s: Store, a: string, b: string, k: string, e: Entry)
    requires k == a || k == b
    ensures SameElsewhere(s, s[k := e], a, b)
  {
  }

  lemma SameElsewhereTrans(s: Store, t: Store, u: Store, a: string, b: string)
    requires SameElsewhere(s, t, a, b) && SameElsewhere(t, u, a, b)
    ensures SameElsewhere(s, u, a, b)
  {
  }

  /** A run writes at most the structured-query key and the result key. */
  lemma OnlyTwoKeysWritten(sv: Steps, store: Store, query: string, topN: int,
                           caller: Dict, key: string)
    ensures SameElsewhere(store, RunWithKey(sv, store, query, topN, caller, key).store,
                          key, StructuredKey(query))
  {
    var skey := StructuredKey(query);
    if key !in store {
      var st := StructuredQuery(sv, store, query);
      if st.store != store {
        SameElsewhereUpdate(store, key, skey, skey, Entry(st.result.value, Ttl));
      }
      if st.result.Ok? {
        var rest := SearchAndStore(sv, st.store, query, topN, caller, key, st.result.value);
        if rest.store != st.store {
          SameElsewhereUpdate(st.store, key, skey, key, Entry(rest.result.value, Ttl));
        }
        SameElsewhereTrans(store, st.store, rest.store, key, skey);
      }
    }
  }

  /** On a structured-cache miss the extractor is called first, and its
      output is cached before retrieval starts. */
  lemma StructuredMissExtracts(sv: Steps, store: Store, query: string, topN: int,
                               caller: Dict, key: string)
    requires key !in store && StructuredKey(query) !in store
    ensures var o := AfterMiss(sv, store, query, topN, caller, key);
      && |o.calls| >= 1 && o.calls[0] == Extracted(query)
      && (sv.extract(query).Ok? ==> |o.calls| >= 2 && o.calls[1] == Stored(StructuredKey(query), Ttl))
  {
  }

  /** The extractor is called at most once per run, and only on a
      structured-cache miss. */
  lemma ExtractAtMostOnce(sv: Steps, store: Store, query: string, topN: int,
                          caller: Dict, key: string)
    requires key !in store
    ensures var o := AfterMiss(sv, store, query, topN, caller, key);
      o.calls == [] || NoExtraction(o.calls[1..])
  {
    var st := StructuredQuery(sv, store, query);
    if st.result.Ok? {
      var rest := SearchAndStore(sv, st.store, query, topN, caller, key, st.result.value);
      if st.calls != [] {
        assert (st.calls + rest.calls)[1..] == st.calls[1..] + rest.calls;
      }
    }
  }

  /** A structured-cache hit skips the extractor. */
  lemma StructuredHitSkipsExtract(sv: Steps, store: Store, query: string, topN: int,
                                  caller: Dict, key: string)
    requires key !in store && StructuredKey(query) in store
    ensures Extracted(query) !in RunWithKey(sv, store, query, topN, caller, key).calls
  {
    var sq := store[StructuredKey(query)].value;
    var rest := SearchAndStore(sv, store, query, topN, caller, key, sq);
    assert [] + rest.calls == rest.calls;
  }

  /** A failed run caches no result. */
  lemma FailureCachesNothing(sv: Steps, store: Store, query: string, topN: int,
                             caller: Dict, key: string)
    requires key !in store && key != StructuredKey(query)
    requires RunWithKey(sv, store, query, topN, caller, key).result.Err?
    ensures key !in RunWithKey(sv, store, query, topN, caller, key).store
  {
  }

  /** Retrieval is asked with the caller's keywords overwritten by the
      structured fields, and with `rewrite_query` when there is one. */
  lemma RetrievalUsesMerged(sv: Steps, store: Store, query: string, topN: int,
                            caller: Dict, key: string)
    requires key !in store
    requires var st := StructuredQuery(sv, store, query);
      st.result.Ok? && st.result.value.Obj? && !Clashes(st.result.value.fields)
    ensures var sq := StructuredQuery(sv, store, query).result.value.fields;
      Searched(RetrievalText(sq, query), Merge(caller, sq))
        in RunWithKey(sv, store, query, topN, caller, key).calls
  {
    var st := StructuredQuery(sv, store, query);
    var sq := st.result.value;
    var rest := SearchAndStore(sv, st.store, query, topN, caller, key, sq);
    assert rest.calls[0] == Searched(RetrievalText(sq.fields, query), Merge(caller, sq.fields));
    assert RunWithKey(sv, store, query, topN, caller, key).calls == st.calls + rest.calls;
    assert (st.calls + rest.calls)[|st.calls|] == rest.calls[0];
  }

  /** `search_with_filter`: the result-cache key is computed from the
      caller's keywords before anything is merged into them. */
  function SearchWithFilter(env: Env, store: Store, query: string, topN: int, kwargs: seq<Pair>,
                            render: Value -> string): (o: Outcome)
    requires CallerKwargs(kwargs)
    ensures var key := ResultKey(query, topN, kwargs, render);
      && (key in store ==> o == Outcome(Ok(store[key].value), store, []))
      && (o.result.Ok? ==> key in o.store && o.store[key].value == o.result.value)
  {
    RunWithKey(StepsOf(env), store, query, topN, ToMap(kwargs), ResultKey(query, topN, kwargs, render))
  }

  /** A fresh extraction never clashes with the named parameters, so it
      always reaches retrieval. */
  lemma FreshExtractionReachesSearch(env: Env, store: Store, query: string, topN: int,
                                     kwargs: seq<Pair>, render: Value -> string)
    requires CallerKwargs(kwargs)
    requires ResultKey(query, topN, kwargs, render) !in store
    requires StructuredKey(query) !in store && env.llm(query).Ok?
    ensures var d := Extractor.Extract(env.llm(query).value);
      Searched(RetrievalText(d, query), Merge(ToMap(kwargs), d))
        in SearchWithFilter(env, store, query, topN, kwargs, render).calls
  {
    var sv := StepsOf(env);
    var key := ResultKey(query, topN, kwargs, render);
    assert sv.extract(query) == Extraction(env, query);
    RetrievalUsesMerged(sv, store, query, topN, ToMap(kwargs), key);
  }

  // ---------------------------------------------------------------------
  // Properties across calls

  /** Keyword lists that differ only in order give the same dictionary. */
  lemma {:induction false} ToMapPermutation(a: seq<Pair>, b: seq<Pair>)
    requires DistinctKeys(a) && DistinctKeys(b)
    requires multiset(a) == multiset(b)
    ensures ToMap(a) == ToMap(b)
  {
    forall x | x in a ensures x in b {
      assert x in multiset(a);
    }
    forall x | x in b ensures x in a {
      assert x in multiset(b);
    }
    ToMapIncluded(a, b);
    ToMapIncluded(b, a);
  }

  /** Every entry of the dictionary of `a` is an entry of the dictionary of
      `b` when every pair of `a` is a pair of `b`. */
  lemma ToMapIncluded(a: seq<Pair>, b: seq<Pair>)
    requires DistinctKeys(a) && DistinctKeys(b)
    requires forall x :: x in a ==> x in b
    ensures forall k :: k in ToMap(a) ==> k in ToMap(b) && ToMap(b)[k] == ToMap(a)[k]
  {
    var ma, mb := ToMap(a), ToMap(b);
    forall k | k in ma ensures k in mb && mb[k] == ma[k] {
      var i :| 0 <= i < |a| && a[i].0 == k;
      assert a[i] in a;
      var j :| 0 <= j < |b| && b[j] == a[i];
    }
  }

  /** The whole run, not only its key, ignores the caller's keyword order. */
  lemma OrderIndependent(env: Env, store: Store, query: string, topN: int,
                         a: seq<Pair>, b: seq<Pair>, render: Value -> string)
    requires CallerKwargs(a) && CallerKwargs(b)
    requires multiset(a) == multiset(b)
    ensures SearchWithFilter(env, store, query, topN, a, render)
         == SearchWithFilter(env, store, query, topN, b, render)
  {
    ResultKeyOrderIndependent(query, topN, a, b, render);
    ToMapPermutation(a, b);
  }

  /** Repeating a successful search is answered from the result cache. */
  lemma RepeatHitsCache(env: Env, store: Store, query: string, topN: int, kwargs: seq<Pair>,
                        render: Value -> string)
    requires CallerKwargs(kwargs)
    ensures var o := SearchWithFilter(env, store, query, topN, kwargs, render);
      o.result.Ok? ==> SearchWithFilter(env, o.store, query, topN, kwargs, render) == Outcome(o.result, o.store, [])
  {
  }

  /** Every cached value is a dictionary: the only values written are
      extractor output and result dictionaries. */
  predicate StoreOk(store: Store) {
    forall k :: k in store ==> store[k].value.Obj?
  }

  /** From a store of dictionaries the structured query is always a
      dictionary, every answer is one, and the store stays that way. */
  lemma StoreOkPreserved(sv: Steps, store: Store, query: string, topN: int, caller: Dict,
                         key: string)
    requires StoreOk(store)
    requires AnswersDicts(sv) && NeverNotADict(sv)
    ensures var o := RunWithKey(sv, store, query, topN, caller, key);
      && StoreOk(o.store)
      && o.result != Err(NotADict)
      && (o.result.Ok? ==> o.result.value.Obj?)
  {
    if key !in store {
      var st := StructuredQuery(sv, store, query);
      assert StoreOk(st.store) && (st.result.Ok? ==> st.result.value.Obj?);
      if st.result.Ok? {
        var rest := SearchAndStore(sv, st.store, query, topN, caller, key, st.result.value);
        assert rest.result != Err(NotADict);
        assert rest.store == st.store || (rest.result.Ok? && rest.result.value.Obj?
          && rest.store == st.store[key := Entry(rest.result.value, Ttl)]);
      }
    }
  }

  /** The retriever's own steps keep the store well-formed. */
  lemma SearchWithFilterStoreOk(env: Env, store: Store, query: string, topN: int,
                                kwargs: seq<Pair>, render: Value -> string)
    requires CallerKwargs(kwargs) && StoreOk(store)
    ensures var o := SearchWithFilter(env, store, query, topN, kwargs, render);
      && StoreOk(o.store)
      && o.result != Err(NotADict)
      && (o.result.Ok? ==> o.result.value.Obj?)
  {
    SearchAnswersDicts(env);
    StoreOkPreserved(StepsOf(env), store, query, topN, ToMap(kwargs), ResultKey(query, topN, kwargs, render));
  }
}

=== FILE: retriever_server.dfy ===
/** The gRPC adapter in front of the hybrid retriever
    (`HybridBookRetrieverServicer.Retrieve`): an empty query is answered
    at once, zero-valued request fields mean "use the retriever's
    default", and the result dictionary is projected onto parallel lists
    of book ids and scores. */
module RetrieverServer {
  import opened Common
  import opened Json
  import opened CacheKeys
  import Retriever

  /** A `RetrieveRequest`; protobuf integers read as 0 when unset. */
  datatype Request = Request(query: string, denseTopK: int, sparseTopK: int, topK: int, topN: int)

  datatype Response = Response(bookIds: seq<Value>, scores: seq<Value>)

  datatype ServerError =
    | Retrieval(e: Retriever.Error) // raised by `search_with_filter`
    | BadResult                     // a result without `results` or an entry without `book_id`

  /** The default of `search_with_filter`'s `top_n`. */
  const DefaultTopN := 10

  /** The three tuning fields forwarded as keyword arguments, in the order
      they are added to `kwargs`; a zero field is left out. */
  function Forwarded(req: Request): (kwargs: seq<Pair>)
    ensures Retriever.CallerKwargs(kwargs)
    ensures |kwargs| <= 3
    ensures forall i :: 0 <= i < |kwargs| ==>
      kwargs[i].0 == "dense_top_k" || kwargs[i].0 == "sparse_top_k" || kwargs[i].0 == "top_k"
    ensures ("dense_top_k", Int(req.denseTopK)) in kwargs <==> req.denseTopK != 0
    ensures ("sparse_top_k", Int(req.sparseTopK)) in kwargs <==> req.sparseTopK != 0
    ensures ("top_k", Int(req.topK)) in kwargs <==> req.topK != 0
    ensures forall i :: 0 <= i < |kwargs| ==> kwargs[i].1 != Int(0)
  {
    var a: seq<Pair> := if req.denseTopK != 0 then [("dense_top_k", Int(req.denseTopK))] else [];
    var b: seq<Pair> := if req.sparseTopK != 0 then [("sparse_top_k", Int(req.sparseTopK))] else [];
    var c: seq<Pair> := if req.topK != 0 then [("top_k", Int(req.topK))] else [];
    a + b + c
  }

  /** `top_n` binds the retriever's own parameter when it is non-zero. */
  function TopN(req: Request): (n: int)
    ensures req.topN != 0 ==> n == req.topN
    ensures req.topN == 0 ==> n == DefaultTopN
  {
    if req.topN != 0 then req.topN else DefaultTopN
  }

  /** The lists of ids and scores read from the entries of `results`;
      `r.get('score', 0.0)` defaults a missing score. */
  function ProjectItems(items: seq<Value>): (r: Result<Response, ServerError>)
    ensures r.Ok? <==> forall i :: 0 <= i < |items| ==> items[i].Obj? && "book_id" in items[i].fields
    ensures r.Err? ==> r.error == BadResult
    ensures r.Ok? ==> |r.value.bookIds| == |items| && |r.value.scores| == |items|
    ensures r.Ok? ==> forall i :: 0 <= i < |items| ==>
      && r.value.bookIds[i] == items[i].fields["book_id"]
      && r.value.scores[i] == (if "score" in items[i].fields then items[i].fields["score"] else Real(0.0))
  {
    if items == [] then Ok(Response([], []))
    else if !(items[0].Obj? && "book_id" in items[0].fields) then Err(BadResult)
    else
      var rest := ProjectItems(items[1..]);
      if rest.Err? then
        assert exists i :: 0 <= i < |items| - 1 && !(items[1..][i].Obj? && "book_id" in items[1..][i].fields);
        rest
      else
        var f := items[0].fields;
        var score := if "score" in f then f["score"] else Real(0.0);
        Ok(Response([f["book_id"]] + rest.value.bookIds, [score] + rest.value.scores))
  }

  /** `results['results']` must be a list of dictionaries with a `book_id`. */
  function Project(v: Value): (r: Result<Response, ServerError>)
    ensures !(v.Obj? && "results" in v.fields && v.fields["results"].List?) ==> r == Err(BadResult)
    ensures r.Ok? ==> |r.value.bookIds| == |r.value.scores|
  {
    if v.Obj? && "results" in v.fields && v.fields["results"].List? then ProjectItems(v.fields["results"].items)
    else Err(BadResult)
  }

  /** What a call did: the answer, the cache afterwards, and whether the
      retriever was invoked. */
  datatype Served = Served(result: Result<Response, ServerError>, store: Retriever.Store, searched: bool)

  /** `Retrieve`: a non-empty query is searched with `search_with_filter`
      (the forwarded keywords and `top_n`), and its answer projected; a
      retrieval failure is raised as it is. */
  function Retrieve(env: Retriever.Env, store: Retriever.Store, req: Request,
                    render: Value -> string): (o: Served)
    ensures req.query == "" ==> o == Served(Ok(Response([], [])), store, false)
    ensures req.query != "" ==>
      var out := Retriever.SearchWithFilter(env, store, req.query, TopN(req), Forwarded(req), render);
      && o.searched && o.store == out.store
      && (out.result.Err? ==> o.result == Err(Retrieval(out.result.error)))
      && (out.result.Ok? ==> o.result == Project(out.result.value))
    ensures o.result.Ok? ==> |o.result.value.bookIds| == |o.result.value.scores|
  {
    if req.query == "" then Served(Ok(Response([], [])), store, false)
    else
      var out := Retriever.SearchWithFilter(env, store, req.query, TopN(req), Forwarded(req), render);
      match out.result
      case Err(e) => Served(Err(Retrieval(e)), out.store, true)
      case Ok(v) => Served(Project(v), out.store, true)
  }

  /** A result assembled by `search` projects onto its hits' ids and
      scores, in the ranker's order. */
  lemma ProjectSearchResult(hits: seq<Retriever.Hit>, usedQuery: Value, usedFilter: Dict)
    ensures var r := Project(Retriever.ResultValue(hits, usedQuery, usedFilter));
      && r.Ok?
      && |r.value.bookIds| == |hits|
      && forall i :: 0 <= i < |hits| ==>
           r.value.bookIds[i] == hits[i].bookId && r.value.scores[i] == Real(hits[i].score)
  {
    var v := Retriever.ResultValue(hits, usedQuery, usedFilter);
    var items := v.fields["results"].items;
    assert forall i :: 0 <= i < |items| ==> items[i] == Retriever.HitValue(hits[i]);
  }

  /** Requests that differ only in zero-valued fields and the retriever's
      defaults are served identically. */
  lemma ZeroMeansDefault(env: Retriever.Env, store: Retriever.Store, q: string,
                         render: Value -> string)
    ensures Retrieve(env, store, Request(q, 0, 0, 0, 0), render)
         == Retrieve(env, store, Request(q, 0, 0, 0, DefaultTopN), render)
  {
  }

  /** A successful `search` is answered with the ids of the points the
      ranker put first, in the ranker's order, with the ranker's scores. */
  lemma SearchResponse(env: Retriever.Env, text: Value, topN: int, kw: Dict)
    requires Retriever.Search(env, text, topN, kw).Ok?
    ensures var points := env.engine(Retriever.Query(env, text, kw)).value;
      var ranked := env.ranker(text, Retriever.Documents(points), topN).value;
      var r := Project(Retriever.Search(env, text, topN, kw).value);
      && r.Ok? && |r.value.bookIds| == |ranked|
      && forall i :: 0 <= i < |ranked| ==>
           && r.value.bookIds[i] == Retriever.HitOf(points, ranked[i]).bookId
           && r.value.scores[i] == Real(ranked[i].score)
  {
    var points := env.engine(Retriever.Query(env, text, kw)).value;
    var hits := Retriever.Rerank(env, text, points, topN).value;
    ProjectSearchResult(hits, text, Retriever.FilterArgs(kw));
  }

  /** Asking again after a successful answer gives the same answer from the
      result cache, without writing anything. */
  lemma RepeatServedFromCache(env: Retriever.Env, store: Retriever.Store, req: Request,
                              render: Value -> string)
    requires req.query != "" && Retriever.SearchWithFilter(env, store, req.query, TopN(req), Forwarded(req), render).result.Ok?
    ensures var o := Retrieve(env, store, req, render);
      Retrieve(env, o.store, req, render) == o
  {
    Retriever.RepeatHitsCache(env, store, req.query, TopN(req), Forwarded(req), render);
  }
}

=== FILE: shop.dfy ===
/** The backend's shared vocabulary: identifiers, the exceptions the
    services raise (with the HTTP status Nest answers them with), the
    pagination arithmetic, and the database contents the services read and
    write. */
module Shop {
  import opened Common

  type Id = string

  /** Every exception the modelled services throw. */
  datatype Failure =
    | UserNotFound(userId: Id)
    | ProductNotFound(productId: Id)
    | NoItems                     // "Order must include at least one item."
    | AlreadyOrdered(title: string)
    | OrderNotFound
    | AlreadyCancelled
    | NoOrders                    // "User has no orders"
    | CartNotFound
    | NotInCart                   // "Product not found in cart"
    | AlreadyInCart               // "Product already exists in cart"
    | MissingQuery
    | CategoriesNotFound
    | AuthorsNotFound
    | Upstream(status: int)       // an `HttpException` built with this status

  /** A missing user, product, order, cart or cart item, and a user without
      orders, are `NotFoundException`s (404); every other refusal is a
      `BadRequestException` (400); an upstream failure keeps its status. */
  predicate IsNotFound(f: Failure) {
    f.UserNotFound? || f.ProductNotFound? || f.OrderNotFound? || f.NoOrders? || f.CartNotFound? || f.NotInCart?
  }

  function HttpStatus(f: Failure): (code: int)
    ensures f.Upstream? ==> code == f.status
    ensures IsNotFound(f) ==> code == 404
    ensures !f.Upstream? && !IsNotFound(f) ==> code == 400
  {
    match f
    case UserNotFound(_) => 404
    case ProductNotFound(_) => 404
    case OrderNotFound => 404
    case NoOrders => 404
    case CartNotFound => 404
    case NotInCart => 404
    case Upstream(s) => s
    case _ => 400
  }

  // ---------------------------------------------------------------------
  // Pagination

  /** `PaginationQueryDto` validates `page` and `limit` as integers of at
      least 1. */
  predicate ValidPaging(page: int, limit: int) {
    page >= 1 && limit >= 1
  }

  function Offset(page: int, limit: int): int {
    (page - 1) * limit
  }

  lemma OffsetNext(n: int, limit: int)
    requires ValidPaging(n, limit)
    ensures 0 <= Offset(n, limit) && Offset(n + 1, limit) == Offset(n, limit) + limit
  {
    assert n * limit == (n - 1) * limit + limit;
  }

  /** `Math.min(i, n)` for a bound that is never negative. */
  function Clamp(i: int, n: nat): (k: nat)
    requires i >= 0
    ensures k <= n && k <= i && (k == i || k == n)
  {
    if i <= n then i else n
  }

  /** With non-negative bounds, `slice` and `skip`/`take` only clamp them
      to the length. */
  lemma SliceFromZero<T>(u: seq<T>, a: int, b: int)
    requires 0 <= a <= b
    ensures JsSlice(u, a, b) == u[Clamp(a, |u|)..Clamp(b, |u|)]
  {
  }

  /** A page of results and its pagination block. */
  datatype Paged<T> = Paged(total: nat, page: int, limit: int, totalPages: nat, data: seq<T>)

  function EmptyPage<T>(page: int, limit: int): Paged<T> {
    Paged(0, page, limit, 0, [])
  }

  // ---------------------------------------------------------------------
  // Database contents

  /** The fields of a product the services read. */
  datatype Product = Product(id: Id, bookId: Option<Id>, title: string, price: real)

  datatype CartItem = CartItem(id: Id, product: Id)

  datatype Cart = Cart(id: Id, items: seq<CartItem>)

  datatype OrderItem = OrderItem(product: Id, price: real)

  datatype Order = Order(id: Id, user: Id, status: string, totalAmount: real, items: seq<OrderItem>)

  /** Users, products by id, each user's cart, and all orders newest first
      (the `orderDate DESC` order every listing uses). */
  datatype Db = Db(users: set<Id>, products: map<Id, Product>, carts: map<Id, Cart>, orders: seq<Order>)

  /** What a call answers and the database afterwards (a failed call may
      still have written). */
  datatype Outcome<T> = Outcome(result: Result<T, Failure>, db: Db)

  /** The product ids in a cart. */
  function CartProducts(items: seq<CartItem>): (ps: seq<Id>)
    ensures |ps| == |items|
    ensures forall i :: 0 <= i < |items| ==> ps[i] == items[i].product
  {
    seq(|items|, i requires 0 <= i < |items| => items[i].product)
  }

  /** "One copy per cart": no product twice in a cart. */
  predicate OnePerProduct(c: Cart) {
    Distinct(CartProducts(c.items))
  }

  predicate CartsWellFormed(db: Db) {
    forall u :: u in db.carts ==> OnePerProduct(db.carts[u])
  }
}

=== FILE: url_params.dfy ===
/** `UrlParams`: how the product catalogue and the search bar keep the
    catalogue's filters in the page URL. The URL's search parameters are a
    map from parameter to string (their order is not modelled); the
    catalogue's filter record is a map from field to a JavaScript value. */
module UrlParams {
  import opened Common
  import CacheKeys

  /** A filter value as the catalogue holds it. */
  datatype Value =
    | Undefined
    | Null
    | Num(n: int)
    | NotANumber
    | Text(s: string)
    | Texts(items: seq<string>)

  /** The fields of the catalogue's filter record. */
  datatype Field =
    | Page | Limit | SortBy | SortOrder | QueryText
    | CategoryIds | MinPrice | MaxPrice | SearchKind

  /** A filter record, or the part of one an update changes. */
  type Filters = map<Field, Value>

  /** A URL search parameter: the one named after a field, or one with
      another name. */
  datatype Param = Of(field: Field) | Other(name: string)

  /** The URL's search parameters. */
  type Query = map<Param, string>

  /** The name of the URL parameter that holds a field. */
  function ParamName(k: Field): string {
    match k
    case Page => "page"
    case Limit => "limit"
    case SortBy => "sortBy"
    case SortOrder => "sortOrder"
    case QueryText => "query"
    case CategoryIds => "categoryIds"
    case MinPrice => "minPrice"
    case MaxPrice => "maxPrice"
    case SearchKind => "searchType"
  }

  /** The parameter a name denotes. */
  function ParamOf(s: string): (p: Param)
    ensures p.Of? ==> ParamName(p.field) == s
    ensures p.Other? ==> p.name == s && forall k :: ParamName(k) != s
  {
    if s == "page" then Of(Page)
    else if s == "limit" then Of(Limit)
    else if s == "sortBy" then Of(SortBy)
    else if s == "sortOrder" then Of(SortOrder)
    else if s == "query" then Of(QueryText)
    else if s == "categoryIds" then Of(CategoryIds)
    else if s == "minPrice" then Of(MinPrice)
    else if s == "maxPrice" then Of(MaxPrice)
    else if s == "searchType" then Of(SearchKind)
    else Other(s)
  }

  /** Each field's name denotes the field's parameter, so names and
      parameters correspond one to one. */
  lemma ParamOfName(k: Field)
    ensures ParamOf(ParamName(k)) == Of(k)
  {
  }

  // ---------------------------------------------------------------------
  // Writing the URL: updateURL

  /** `updateURL` writes a value unless it is undefined, null, the empty
      string or an empty array. */
  predicate Written(v: Value) {
    match v
    case Undefined => false
    case Null => false
    case Text(s) => s != ""
    case Texts(xs) => xs != []
    case _ => true
  }

  /** `value.toString()`: numbers in decimal, arrays comma-joined. */
  function Render(v: Value): string {
    match v
    case Undefined => "undefined"
    case Null => "null"
    case Num(n) => CacheKeys.IntToString(n)
    case NotANumber => "NaN"
    case Text(s) => s
    case Texts(xs) => Join(xs, ',')
  }

  /** What the URL holds for a value: its rendering, or nothing. */
  function Stored(v: Value): Option<string> {
    if Written(v) then Some(Render(v)) else None
  }

  /** The parameters written for a filter record. */
  function ToQuery(f: Filters): Query {
    map p | p in FieldParams && p.field in f && Written(f[p.field]) :: Render(f[p.field])
  }

  /** The parameters named after the fields. */
  const FieldParams: set<Param> :=
    {Of(Page), Of(Limit), Of(SortBy), Of(SortOrder), Of(QueryText),
     Of(CategoryIds), Of(MinPrice), Of(MaxPrice), Of(SearchKind)}

  /** `searchParams.get(name)`. */
  function Get(q: Query, p: Param): Option<string> {
    if p in q then Some(q[p]) else None
  }

  /** The URL `q` holds the record `f`: each field's stored value under the
      field's parameter, and no other parameter. */
  ghost predicate Holds(q: Query, f: Filters) {
    && (forall k :: Get(q, Of(k)) == if k in f then Stored(f[k]) else None)
    && (forall p :: p in q ==> p.Of?)
  }

  /** The written URL holds the record. */
  lemma GetToQuery(f: Filters)
    ensures Holds(ToQuery(f), f)
  {
    forall k
      ensures Get(ToQuery(f), Of(k)) == if k in f then Stored(f[k]) else None
    {
      match k
      case Page =>
      case Limit =>
      case SortBy =>
      case SortOrder =>
      case QueryText =>
      case CategoryIds =>
      case MinPrice =>
      case MaxPrice =>
      case SearchKind =>
    }
  }

  /** The value of field `k` on the URL the page shows after an update: the
      pushed URL, or the current one when nothing was pushed. */
  function Shown(current: Query, r: Option<Query>, k: Field): Option<string> {
    Get(r.GetOr(current), Of(k))
  }

  /** `updateURL(changes)` with filter state `filters` at URL `current`:
      `None` when it does not navigate, otherwise the URL it pushes. Either
      way the page then shows the merged record: new values override old
      ones, and values that are not written leave their parameter out. */
  function UpdateUrl(current: Query, filters: Filters, changes: Filters): (r: Option<Query>)
    ensures r.None? <==> ToQuery(filters + changes) == current
    ensures r.Some? ==> r.value != current
    ensures Holds(r.GetOr(current), filters + changes)
    ensures forall k ::
      Shown(current, r, k) ==
        if k in changes then Stored(changes[k])
        else if k in filters then Stored(filters[k])
        else None
  {
    var q := ToQuery(filters + changes);
    GetToQuery(filters + changes);
    if q == current then None else Some(q)
  }

  // ---------------------------------------------------------------------
  // Reading the URL: getCurrentFilters

  predicate Digits(s: string) {
    forall i :: 0 <= i < |s| ==> '0' <= s[i] <= '9'
  }

  /** `Number(s)` for a parameter string: the empty string is 0, a string
      of decimal digits its value, anything else NaN. */
  function NumberOf(s: string): (v: Value)
    ensures v.Num? || v.NotANumber?
    ensures v.Num? ==> v.n >= 0
  {
    if s == "" then Num(0)
    else if Digits(s) then Num(CacheKeys.ParseNat(s))
    else NotANumber
  }

  /** `Number(p) || d`: a missing parameter, 0 and NaN give the default. */
  function NumberOr(p: Option<string>, d: int): (v: Value)
    ensures v.Num?
    ensures v.n == d || v.n > 0
    ensures p.None? || NumberOf(p.value) == Num(0) || NumberOf(p.value) == NotANumber ==> v == Num(d)
    ensures p.Some? && NumberOf(p.value) != Num(0) && NumberOf(p.value) != NotANumber ==> v == NumberOf(p.value)
  {
    var v := if p.Some? then NumberOf(p.value) else Num(0);
    if v == Num(0) || v == NotANumber then Num(d) else v
  }

  /** `p || d` on a parameter string. */
  function TextOr(p: Option<string>, d: string): (v: Value)
    ensures v.Text?
    ensures v.s == d || (p.Some? && v.s == p.value != "")
  {
    Text(if p.Some? && p.value != "" then p.value else d)
  }

  /** `p?.split(",").filter(Boolean) || []`. */
  function IdsOf(p: Option<string>): (v: Value)
    ensures v.Texts?
    ensures forall i :: 0 <= i < |v.items| ==> v.items[i] != ""
  {
    Texts(if p.Some? then DropEmpty(Split(p.value, ',')) else [])
  }

  /** `p ? Number(p) : undefined`. */
  function PriceOf(p: Option<string>): (v: Value)
    ensures v.Undefined? <==> p.None? || p.value == ""
  {
    if p.Some? && p.value != "" then NumberOf(p.value) else Undefined
  }

  /** `p as any`: `get` gives null for a missing parameter. */
  function SearchTypeOf(p: Option<string>): (v: Value)
    ensures v.Null? <==> p.None?
  {
    if p.Some? then Text(p.value) else Null
  }

  /** Every field present. */
  predicate Complete(f: Filters) {
    forall k: Field :: k in f
  }

  /** `getCurrentFilters`: the catalogue's filter record read from its URL.
      Page and limit are always positive, the sort field and order never
      empty, and a missing parameter gives the field's default. */
  function CurrentFilters(q: Query): (f: Filters)
    ensures Complete(f)
    ensures f[Page].Num? && f[Page].n >= 1
    ensures f[Limit].Num? && f[Limit].n >= 1
    ensures f[SortBy].Text? && f[SortBy].s != ""
    ensures f[SortOrder].Text? && f[SortOrder].s != ""
    ensures Of(Page) !in q ==> f[Page] == Num(1)
    ensures Of(Limit) !in q ==> f[Limit] == Num(16)
    ensures Of(SortOrder) !in q ==> f[SortOrder] == Text("desc")
    ensures Of(CategoryIds) !in q ==> f[CategoryIds] == Texts([])
    ensures Of(MinPrice) !in q ==> f[MinPrice] == Undefined
  {
    var f := map[
      Page := NumberOr(Get(q, Of(Page)), 1),
      Limit := NumberOr(Get(q, Of(Limit)), 16),
      SortBy := TextOr(Get(q, Of(SortBy)), "id"),
      SortOrder := TextOr(Get(q, Of(SortOrder)), "desc"),
      QueryText := TextOr(Get(q, Of(QueryText)), ""),
      CategoryIds := IdsOf(Get(q, Of(CategoryIds))),
      MinPrice := PriceOf(Get(q, Of(MinPrice))),
      MaxPrice := PriceOf(Get(q, Of(MaxPrice))),
      SearchKind := SearchTypeOf(Get(q, Of(SearchKind)))
    ];
    EveryField(f);
    f
  }

  lemma EveryField(f: Filters)
    requires Page in f && Limit in f && SortBy in f && SortOrder in f && QueryText in f
    requires CategoryIds in f && MinPrice in f && MaxPrice in f && SearchKind in f
    ensures Complete(f)
  {
    forall k: Field
      ensures k in f
    {
      match k
      case Page =>
      case Limit =>
      case SortBy =>
      case SortOrder =>
      case QueryText =>
      case CategoryIds =>
      case MinPrice =>
      case MaxPrice =>
      case SearchKind =>
    }
  }

  const AllFields: set<Field> :=
    {Page, Limit, SortBy, SortOrder, QueryText, CategoryIds, MinPrice, MaxPrice, SearchKind}

  lemma AllFieldsListed()
    ensures forall k: Field :: k in AllFields
  {
    forall k: Field
      ensures k in AllFields
    {
      match k
      case Page =>
      case Limit =>
      case SortBy =>
      case SortOrder =>
      case QueryText =>
      case CategoryIds =>
      case MinPrice =>
      case MaxPrice =>
      case SearchKind =>
    }
  }

  // ---------------------------------------------------------------------
  // The round trip through the URL

  /** Category ids that survive the comma-joined parameter. */
  predicate PlainIds(ids: seq<string>) {
    forall i :: 0 <= i < |ids| ==> ids[i] != "" && Free(ids[i], ',')
  }

  /** The category ids are written with `toString()` (comma-joined) and read
      back with `split(",").filter(Boolean)`: an id list without empty ids
      and without commas comes back unchanged, the empty list included. */
  lemma CategoryIdsRoundTrip(ids: seq<string>)
    requires PlainIds(ids)
    ensures IdsOf(Stored(Texts(ids))) == Texts(ids)
  {
    if ids != [] {
      SplitJoin(ids, ',');
      DropEmptyOfNonEmpty(ids);
    }
  }

  /** Page 1 is written as "1". */
  lemma RenderOne()
    ensures Render(Num(1)) == "1"
    ensures Stored(Num(1)) == Some("1")
    ensures NumberOf("1") == Num(1)
  {
    NumberRoundTrip(1);
  }

  /** A page number, limit or price written in decimal is read back. */
  lemma NumberRoundTrip(n: nat)
    ensures NumberOf(Render(Num(n))) == Num(n)
  {
    CacheKeys.ParseNatToString(n);
  }

  /** A filter record of the shape `getCurrentFilters` gives, whose every
      value survives the trip through the URL. */
  predicate Canonical(f: Filters) {
    && Complete(f)
    && f[Page].Num? && f[Page].n >= 1
    && f[Limit].Num? && f[Limit].n >= 1
    && f[SortBy].Text? && f[SortBy].s != ""
    && f[SortOrder].Text? && f[SortOrder].s != ""
    && f[QueryText].Text?
    && f[CategoryIds].Texts? && PlainIds(f[CategoryIds].items)
    && (f[MinPrice].Undefined? || (f[MinPrice].Num? && f[MinPrice].n >= 0))
    && (f[MaxPrice].Undefined? || (f[MaxPrice].Num? && f[MaxPrice].n >= 0))
    && (f[SearchKind].Null? || (f[SearchKind].Text? && f[SearchKind].s != ""))
  }

  lemma ReadPrice(v: Value)
    requires v.Undefined? || (v.Num? && v.n >= 0)
    ensures PriceOf(Stored(v)) == v
  {
    if v.Num? {
      NumberRoundTrip(v.n);
    }
  }

  /** A positive page number or limit reads back from its parameter. */
  lemma ReadCount(q: Query, k: Field, v: Value)
    requires k == Page || k == Limit
    requires v.Num? && v.n >= 1 && Get(q, Of(k)) == Stored(v)
    ensures CurrentFilters(q)[k] == v
  {
    NumberRoundTrip(v.n);
  }

  /** The category ids and the price bounds read back from their
      parameters. */
  lemma ReadFilters(q: Query, ids: Value, lo: Value, hi: Value)
    requires ids.Texts? && PlainIds(ids.items) && Get(q, Of(CategoryIds)) == Stored(ids)
    requires lo.Undefined? || (lo.Num? && lo.n >= 0)
    requires hi.Undefined? || (hi.Num? && hi.n >= 0)
    requires Get(q, Of(MinPrice)) == Stored(lo) && Get(q, Of(MaxPrice)) == Stored(hi)
    ensures CurrentFilters(q)[CategoryIds] == ids
    ensures CurrentFilters(q)[MinPrice] == lo
    ensures CurrentFilters(q)[MaxPrice] == hi
  {
    CategoryIdsRoundTrip(ids.items);
    ReadPrice(lo);
    ReadPrice(hi);
  }

  /** The sort field and order, the query and the search type read back
      from their parameters. */
  lemma ReadTexts(q: Query, field: Value, order: Value, text: Value, kind: Value)
    requires field.Text? && field.s != "" && Get(q, Of(SortBy)) == Stored(field)
    requires order.Text? && order.s != "" && Get(q, Of(SortOrder)) == Stored(order)
    requires text.Text? && Get(q, Of(QueryText)) == Stored(text)
    requires (kind.Null? || (kind.Text? && kind.s != "")) && Get(q, Of(SearchKind)) == Stored(kind)
    ensures CurrentFilters(q)[SortBy] == field
    ensures CurrentFilters(q)[SortOrder] == order
    ensures CurrentFilters(q)[QueryText] == text
    ensures CurrentFilters(q)[SearchKind] == kind
  {
  }

  /** A URL that holds a canonical record reads back as that record. */
  lemma ReadBack(q: Query, f: Filters)
    requires Holds(q, f)
    requires Canonical(f)
    ensures CurrentFilters(q) == f
  {
    ReadCount(q, Page, f[Page]);
    ReadCount(q, Limit, f[Limit]);
    ReadFilters(q, f[CategoryIds], f[MinPrice], f[MaxPrice]);
    ReadTexts(q, f[SortBy], f[SortOrder], f[QueryText], f[SearchKind]);
    FieldsAgree(CurrentFilters(q), f);
  }

  /** Two complete records that agree on every field are equal. */
  lemma FieldsAgree(g: Filters, f: Filters)
    requires Complete(g) && Complete(f)
    requires g[Page] == f[Page] && g[Limit] == f[Limit]
    requires g[SortBy] == f[SortBy] && g[SortOrder] == f[SortOrder]
    requires g[QueryText] == f[QueryText] && g[CategoryIds] == f[CategoryIds]
    requires g[MinPrice] == f[MinPrice] && g[MaxPrice] == f[MaxPrice]
    requires g[SearchKind] == f[SearchKind]
    ensures g == f
  {
    forall k: Field
      ensures g[k] == f[k]
    {
      match k
      case Page =>
      case Limit =>
      case SortBy =>
      case SortOrder =>
      case QueryText =>
      case CategoryIds =>
      case MinPrice =>
      case MaxPrice =>
      case SearchKind =>
    }
  }

  /** After `updateURL` the catalogue re-reads exactly the merged record from
      the URL it shows, whether or not it navigated. */
  lemma UpdateThenRead(current: Query, filters: Filters, changes: Filters)
    requires Canonical(filters + changes)
    ensures CurrentFilters(UpdateUrl(current, filters, changes).GetOr(current)) == filters + changes
  {
    ReadBack(UpdateUrl(current, filters, changes).GetOr(current), filters + changes);
  }

  // ---------------------------------------------------------------------
  // The catalogue's handlers

  datatype SortOption = Relevance | PriceLowHigh | PriceHighLow | Rating | Newest | ByName

  /** `sortMapping`: the field and order each menu entry sorts by. */
  function SortMapping(o: SortOption): (r: (string, string))
    ensures r.0 != ""
    ensures r.1 == "asc" || r.1 == "desc"
  {
    match o
    case Relevance => ("id", "desc")
    case PriceLowHigh => ("price", "asc")
    case PriceHighLow => ("price", "desc")
    case Rating => ("rating", "desc")
    case Newest => ("createdAt", "desc")
    case ByName => ("title", "asc")
  }

  /** `handlePageChange(page)`: the catalogue then reads back the requested
      page, or page 1 for page 0. */
  function PageChange(current: Query, filters: Filters, page: int): (r: Option<Query>)
    ensures page >= 1 ==> CurrentFilters(r.GetOr(current))[Page] == Num(page)
    ensures page == 0 ==> CurrentFilters(r.GetOr(current))[Page] == Num(1)
  {
    var r := UpdateUrl(current, filters, map[Page := Num(page)]);
    assert Shown(current, r, Page) == Stored(Num(page));
    PageRead(r.GetOr(current));
    NumberRoundTrip(if page >= 0 then page else 0);
    r
  }

  /** The page `getCurrentFilters` reads from `q`. */
  lemma PageRead(q: Query)
    ensures CurrentFilters(q)[Page] == NumberOr(Get(q, Of(Page)), 1)
  {
  }

  /** `handleClearFilters`: back to page 1 without category or price filter;
      the other fields as they were. */
  function ClearFilters(current: Query, filters: Filters): (r: Option<Query>)
    ensures Shown(current, r, Page) == Some("1")
    ensures Shown(current, r, CategoryIds) == None
    ensures Shown(current, r, MinPrice) == None
    ensures Shown(current, r, MaxPrice) == None
    ensures forall k :: k in filters && !Clears(k) ==> Shown(current, r, k) == Stored(filters[k])
  {
    RenderOne();
    UpdateUrl(current, filters, map[Page := Num(1), CategoryIds := Texts([]), MinPrice := Undefined, MaxPrice := Undefined])
  }

  /** The fields `handleClearFilters` sets. */
  predicate Clears(k: Field) {
    k.Page? || k.CategoryIds? || k.MinPrice? || k.MaxPrice?
  }

  /** `handleApplyFilters`: the current record, on page 1. */
  function ApplyFilters(current: Query, filters: Filters): (r: Option<Query>)
    ensures Shown(current, r, Page) == Some("1")
    ensures forall k :: k != Page ==> Shown(current, r, k) == if k in filters then Stored(filters[k]) else None
  {
    RenderOne();
    UpdateUrl(current, filters, filters[Page := Num(1)])
  }

  /** `handleSortChange(o)`: the mapped field and order, on page 1; the
      other fields as they were. */
  function SortChange(current: Query, filters: Filters, o: SortOption): (r: Option<Query>)
    ensures Shown(current, r, Page) == Some("1")
    ensures Shown(current, r, SortBy) == Some(SortMapping(o).0)
    ensures Shown(current, r, SortOrder) == Some(SortMapping(o).1)
    ensures forall k :: k in filters && !(k.Page? || k.SortBy? || k.SortOrder?) ==> Shown(current, r, k) == Stored(filters[k])
  {
    RenderOne();
    var (field, order) := SortMapping(o);
    UpdateUrl(current, filters, map[Page := Num(1), SortBy := Text(field), SortOrder := Text(order)])
  }

  // ---------------------------------------------------------------------
  // The search bar

  datatype SearchType = Normal | Smart

  function SearchTypeName(t: SearchType): string {
    match t
    case Normal => "NORMAL"
    case Smart => "SMART"
  }

  /** The parameters a smart search deletes: the category and price
      filters. */
  predicate Cleared(p: Param) {
    p == Of(CategoryIds) || p == Of(MinPrice) || p == Of(MaxPrice)
  }

  /** Copies the current parameters, sets `updates` and, for a smart
      search, deletes the category and price filters. */
  function SetParams(current: Query, updates: Query, t: SearchType): Query {
    var q := current + updates;
    if t == Smart then map p | p in q && !Cleared(p) :: q[p] else q
  }

  /** Setting parameters the URL already holds, and deleting ones it does
      not hold, leaves the URL as it is. */
  lemma SetParamsUnchanged(current: Query, updates: Query, t: SearchType)
    requires forall p :: p in updates ==> p in current && current[p] == updates[p]
    requires t == Smart ==> forall p :: p in current ==> !Cleared(p)
    ensures SetParams(current, updates, t) == current
  {
    var q := SetParams(current, updates, t);
    assert q.Keys == current.Keys;
  }

  /** The parameters submit sets. */
  function SubmitParams(input: string, t: SearchType): Query {
    map[Of(QueryText) := input, Of(SearchKind) := SearchTypeName(t), Of(Page) := "1"]
  }

  predicate Assigned(p: Param) {
    p == Of(QueryText) || p == Of(SearchKind) || p == Of(Page)
  }

  /** `handleSubmit` with search input `input` and search type `t`: sets
      the query, the search type and page 1, deletes the category and price
      filters for a smart search, keeps every other parameter, and does not
      navigate when that changes nothing. */
  function Submit(current: Query, input: string, t: SearchType): (r: Option<Query>)
    ensures r.Some? ==> r.value != current
    ensures Get(r.GetOr(current), Of(QueryText)) == Some(input)
    ensures Get(r.GetOr(current), Of(SearchKind)) == Some(SearchTypeName(t))
    ensures Get(r.GetOr(current), Of(Page)) == Some("1")
    ensures t == Smart ==> forall p :: Cleared(p) ==> Get(r.GetOr(current), p) == None
    ensures forall p :: !Assigned(p) && !(t == Smart && Cleared(p)) ==> Get(r.GetOr(current), p) == Get(current, p)
  {
    var q := SetParams(current, SubmitParams(input, t), t);
    if q == current then None else Some(q)
  }

  /** Submitting again from the URL a submit pushed does not navigate. */
  lemma SubmitTwice(current: Query, input: string, t: SearchType)
    requires Submit(current, input, t).Some?
    ensures Submit(Submit(current, input, t).value, input, t).None?
  {
    SetParamsUnchanged(Submit(current, input, t).value, SubmitParams(input, t), t);
  }

  /** `String.prototype.trim`'s white space and line terminators. */
  predicate IsSpace(c: char) {
    || c == ' ' || c == '\t' || c == '\n' || c == '\r'
    || c == '\U{000B}' || c == '\U{000C}' || c == '\U{00A0}' || c == '\U{1680}'
    || ('\U{2000}' <= c <= '\U{200A}')
    || c == '\U{2028}' || c == '\U{2029}' || c == '\U{202F}' || c == '\U{205F}'
    || c == '\U{3000}' || c == '\U{FEFF}'
  }

  /** `s.trim()` is empty. */
  predicate Blank(s: string) {
    forall i :: 0 <= i < |s| ==> IsSpace(s[i])
  }

  /** `handleSearchTypeChange(t)` with search input `input`: pushes a URL,
      even an unchanged one, exactly when the input is not blank; it sets
      the search type and page 1, deletes the category and price filters
      for a smart search and keeps every other parameter. */
  function TypeChange(current: Query, input: string, t: SearchType): (r: Option<Query>)
    ensures r.Some? <==> !Blank(input)
    ensures r.Some? ==> Get(r.value, Of(SearchKind)) == Some(SearchTypeName(t))
    ensures r.Some? ==> Get(r.value, Of(Page)) == Some("1")
    ensures r.Some? && t == Smart ==> forall p :: Cleared(p) ==> Get(r.value, p) == None
    ensures r.Some? ==> forall p :: p != Of(SearchKind) && p != Of(Page) && !(t == Smart && Cleared(p)) ==> Get(r.value, p) == Get(current, p)
  {
    if Blank(input) then None
    else Some(SetParams(current, map[Of(SearchKind) := SearchTypeName(t), Of(Page) := "1"], t))
  }

  /** After a type change on the URL of the current search, submitting the
      same input and type has nothing left to change. */
  lemma TypeChangeThenSubmit(current: Query, input: string, t: SearchType)
    requires !Blank(input)
    requires Get(current, Of(QueryText)) == Some(input)
    ensures Submit(TypeChange(current, input, t).value, input, t).None?
  {
    SetParamsUnchanged(TypeChange(current, input, t).value, SubmitParams(input, t), t);
  }

  /** A smart search leaves the catalogue on page 1 with no category and no
      price filter. */
  lemma SmartSubmitClearsFilters(current: Query, input: string)
    ensures var f := CurrentFilters(Submit(current, input, Smart).GetOr(current));
      && f[Page] == Num(1)
      && f[CategoryIds] == Texts([])
      && f[MinPrice] == Undefined
      && f[MaxPrice] == Undefined
  {
    var u := Submit(current, input, Smart).GetOr(current);
    assert Cleared(Of(CategoryIds)) && Cleared(Of(MinPrice)) && Cleared(Of(MaxPrice));
    ReadUnfiltered(u);
  }

  /** A URL on page 1 without category and price parameters reads as page 1
      without category and price filters. */
  lemma ReadUnfiltered(q: Query)
    requires Get(q, Of(Page)) == Some("1")
    requires Get(q, Of(CategoryIds)) == None
    requires Get(q, Of(MinPrice)) == None && Get(q, Of(MaxPrice)) == None
    ensures CurrentFilters(q)[Page] == Num(1)
    ensures CurrentFilters(q)[CategoryIds] == Texts([])
    ensures CurrentFilters(q)[MinPrice] == Undefined
    ensures CurrentFilters(q)[MaxPrice] == Undefined
  {
    RenderOne();
  }
}
